=== FILE: README.md ===
# zk-vault core in Dafny

zk-vault produces zero-knowledge statements about a user without revealing the
underlying data:

- membership of a leaf in a Poseidon Merkle tree;
- control of an email domain, backed by a DKIM check;
- presence inside a country's bounding box.

Each statement is a Groth16 circuit over the BN254 scalar field. A thin WebAssembly
layer keeps the proving keys in global state and exchanges proofs and public inputs
as hex strings.

This project models that core as pure Dafny functions over immutable datatypes:

- **Poseidon parameters** (`Poseidon`): the round constants and MDS matrix that
  `generate_parameters` derives, and the hashing helpers.
- **Merkle tree** (`Merkle`): the level-order tree, its authentication paths, the leaf
  index and the storage round trip.
- **Merkle circuit** (`MerkleCircuit`): the membership circuit, with synthesis
  modelled as a constraint system that is satisfied exactly when its relation holds.
- **Prover and verifier** (`Proving`, `Verifying`): their error paths and byte formats.
- **Email evidence** (`EmailEvidence`): `.eml` header handling, sender-domain and DKIM
  `d=` extraction, the structural DKIM check and the domain-proof record.
- **Email-domain circuit** (`EmailCircuit`): the proof input and the circuit.
- **Country circuit** (`CountryCircuit`): coordinate scaling with `f64 → i64`
  saturation, field encodings with `i64` wrap-around, and the circuit.
- **Country table** (`Location`): the ten countries and the two first-match lookups.
- **Hex codec** (`Hex`): the `hex` crate's encoder and its decoder, which reads the
  UTF-8 bytes of a string.
- **WebAssembly API** (`Wasm`): prover state, initialisation, proving and
  verification entry points, and the hex encodings.

Some primitives are opaque in the model and are passed in as parameters:

- the Poseidon sponge (`SpongeFn`);
- SHA-256 (`Sha256Fn`);
- the Groth16 backend (`Snark`);
- compressed serialisation (`Codec`).

The laws the source relies on are stated as predicates. Lemmas take them as
hypotheses:

- `Groth16.Complete`: honest proofs of satisfied circuits verify;
- `Groth16.Sound`: accepted public inputs come from some satisfied circuit;
- `Groth16.CodecLaws`: deserialisation inverts serialisation.

Supporting modules:

- `Wrappers`: `Option` and `Result`;
- `Text`: ASCII case mapping, `trim`, `split`, `find`, `contains`;
- `Bytes`: `u32` little-endian encoding and `hex`;
- `Utf8`: `str::as_bytes`;
- `Field`: BN254 `Fr` arithmetic, `from_be_bytes_mod_order` and inverses.

## Model

| member | source | states |
|---|---|---|
| Poseidon.GenerateParameters | src/merkle/hash.rs:46-76 | The two nested loops build exactly `width` round constants for each of `full + partial` rounds, and a `width × width` MDS matrix of the entry formula. |
| Poseidon.RoundConstantsDistinct | src/merkle/hash.rs:54-60 | Two different (round, column) positions get different round constants, because the golden-ratio multiplier is invertible modulo 2^64. |
| Poseidon.ModMulInverse | src/merkle/hash.rs:57 | `wrapping_mul` by the seed multiplier is undone by its inverse modulo 2^64, so the seed map is injective on `u64`. |
| Poseidon.MdsEntryMeaning | src/merkle/hash.rs:64-72 | An MDS entry is the inverse of `(i+1) + (width+j+1)`, or 1 exactly when that sum has no inverse. |
| Poseidon.DefaultConfig | src/merkle/hash.rs:25-43 | The default configuration has 8 full and 57 partial rounds, alpha 5, rate 2 and capacity 1, with the tables generated for width 3. |
| Poseidon.DefaultMdsEntryIsInverse | src/merkle/hash.rs:64-72 | For the default width every MDS entry is the true inverse of `i + j + 5`, so the `unwrap_or(1)` fallback is never taken. |
| Poseidon.New | src/merkle/hash.rs:19-22 | `new` uses the default configuration. |
| Poseidon.Default | src/merkle/hash.rs:101-105 | `Default` is the same hasher as `new`. |
| Poseidon.AbsorbAllAppends | src/merkle/hash.rs:87-93 | Absorbing the elements one by one leaves them all in the sponge, in order. |
| Poseidon.HashMany | src/merkle/hash.rs:87-93 | `hash_many` squeezes the sponge over exactly the given elements, in order. |
| Poseidon.HashTwoIsHashMany | src/merkle/hash.rs:79-93 | `hash_two(a, b)` is `hash_many([a, b])`. |
| Poseidon.BytesToField | src/merkle/hash.rs:108-110 | Bytes become the big-endian value reduced modulo the BN254 scalar modulus. |
| Poseidon.HexToField | src/merkle/hash.rs:113-116 | `hex_to_field` fails exactly when hex decoding fails, with the decoder's error; otherwise it reduces the decoded bytes. |
| Poseidon.HexToFieldOfEncoded | src/merkle/hash.rs:113-116 | Hex-encoded bytes convert to the same element as the bytes themselves. |
| Hex.DecodeBytes | src/merkle/hash.rs:114 | `hex::decode` fails with `OddLength` exactly on an odd number of bytes. Otherwise it fails at the first byte that is not a digit of either case, reporting that byte as a character and its byte position. On success every pair of digits gives one byte, high digit first. |
| Hex.HexDecode | src/wasm.rs:405-413 | Decoding a string decodes its UTF-8 bytes, and succeeds only on an ASCII string of twice the result's length. |
| Hex.AsciiErrorIndexIsCharIndex | src/merkle/hash.rs:114 | On an ASCII string the reported position is a character position and the reported character is the one there. |
| Hex.TwoByteCharacter | src/merkle/hash.rs:114 | `"é"` is rejected at byte 0 as the character `Ã` (its first byte `0xC3`), not for odd length. |
| Hex.HexRoundTrip | src/merkle/hash.rs:114 | Decoding what `hex::encode` wrote gives back the encoded bytes. |
| Field.Inverse | src/merkle/hash.rs:68 | `inverse()` returns an element whose product with the input is one, and returns none only when no such element exists. |
| Merkle.FoldIgnoresExcess | src/merkle/tree.rs:35-49 | `compute_root` zips siblings with flags, so only the first `min` of the two lengths take part. |
| Merkle.PathSoundness | src/merkle/tree.rs:29-32 | A full-depth path that verifies against a valid tree's root opens the leaf slot its flags name, unless Poseidon has a collision; a non-zero opened leaf is then a real leaf. |
| Merkle.FoldBinding | src/merkle/tree.rs:35-49 | A path folding to an internal node starts at the node its flags lead to, or two different pairs share a hash. |
| Merkle.RootBinding | src/merkle/tree.rs:35-49 | A full-depth fold reaching the root starts at leaf slot `IndexFromBits(flags)`, or there is a collision. |
| Merkle.DescendPosition | src/merkle/tree.rs:192-225 | Following flags down from a level lands at the position that extends the start by the flags read in binary. |
| Merkle.ComputeDepth | src/merkle/tree.rs:152-157 | The depth is 1 for `n <= 1`, and otherwise the least `d` with `n <= 2^d`. |
| Merkle.EmptyTree | src/merkle/tree.rs:141-149 | The empty tree is a valid tree with one zero node and no leaves. |
| Merkle.PlaceLeaves | src/merkle/tree.rs:105-113 | The zero array of `2·padded − 1` nodes ends with the padded leaves. |
| Merkle.HashInternalNodes | src/merkle/tree.rs:114-120 | After the reverse loop, every internal node is the hash of its two children and the leaf level is untouched. |
| Merkle.BuildLeafIndex | src/merkle/tree.rs:121-129 | Only the real leaves are indexed, and a repeated leaf keeps its last position. |
| Merkle.IndexOfMeaning | src/merkle/tree.rs:121-129 | The index holds exactly the leaves, each mapped to a position holding it, with no later equal leaf. |
| Merkle.WithHasher | src/merkle/tree.rs:91-138 | The built tree is valid: hashed internal nodes, zero padding and an index of the leaves. Its leaves are the input, and its depth is `compute_depth` (0 when there are no leaves). |
| Merkle.AssembledTreeValid | src/merkle/tree.rs:129-137 | The assembled tree is valid and its real leaves are the given ones. |
| Merkle.New | src/merkle/tree.rs:85-88 | `new` builds a valid tree of the leaves under the default hasher. |
| Merkle.LeafIndexMeaning | src/merkle/tree.rs:180-184 | On a valid tree the index finds exactly the leaves, at their last position. |
| Merkle.FindLeaf | src/merkle/tree.rs:180-184 | On a valid tree `find_leaf` succeeds exactly for the leaves and returns the last position holding the leaf. |
| Merkle.Contains | src/merkle/tree.rs:187-189 | On a valid tree `contains` holds exactly for the leaves. |
| Merkle.WalkReachesRoot | src/merkle/tree.rs:192-225 | Walking from any node of a hashed heap with its siblings and flags folds back to the root (completeness). |
| Merkle.LeafWalk | src/merkle/tree.rs:204-222 | The walk from leaf `j` takes `depth` steps, and its flags spell `j` in binary, least significant bit first. |
| Merkle.GetPath | src/merkle/tree.rs:192-225 | `get_path` fails exactly past the real leaves. A returned path has `depth` siblings and flags and carries the leaf; its flags spell the index, and it verifies on a valid tree. |
| Merkle.GetPathForLeaf | src/merkle/tree.rs:228-231 | On a valid tree a path exists exactly for the leaves, carries the leaf and verifies against the root. |
| Merkle.FromData | src/merkle/tree.rs:252-282 | Decoded data fails exactly when it has at least one leaf and the leaf slots run past the stored nodes, where the source panics at tree.rs:269. With no leaves no slot is read and loading succeeds. Otherwise it keeps the stored fields and uses the default hasher, and `contains` answers over the stored leaf slots. |
| Merkle.NoLeavesAlwaysLoads | src/merkle/tree.rs:262-273 | Data with no leaves loads even when it stores no nodes at all, and the loaded tree contains nothing. |
| Merkle.StorageRoundTrip | src/merkle/tree.rs:234-282 | Storing a valid tree and reading it back gives the same tree. |
| MerkleCircuit.NewEmpty | src/circuit/merkle_proof.rs:59-80 | The setup circuit has a zero leaf, zero siblings and all-left flags, and its root is that path's root. |
| MerkleCircuit.DummyRootIsPathRoot | src/circuit/merkle_proof.rs:67-71 | The dummy root loop computes the root of the all-zero, all-left path. |
| MerkleCircuit.NewWithWitness | src/circuit/merkle_proof.rs:83-92 | The witness circuit assigns the path's leaf, siblings and flags and the given root. |
| MerkleCircuit.FromTree | src/circuit/merkle_proof.rs:95-101 | `from_tree` fails exactly past the real leaves, and otherwise uses the leaf's path and the tree's root. |
| MerkleCircuit.Depth | src/circuit/merkle_proof.rs:104-106 | The circuit depth is the number of siblings. |
| MerkleCircuit.CircuitFoldIsFold | src/circuit/merkle_proof.rs:143-154 | The in-circuit conditional swap and hash compute the same root as `compute_root`. |
| MerkleCircuit.Synthesize | src/circuit/merkle_proof.rs:110-160 | Synthesis fails exactly on a missing assignment. The one public input is the root, and the system is satisfied exactly when the witnessed path verifies against it. |
| MerkleCircuit.NewEmptySatisfied | src/circuit/merkle_proof.rs:59-80 | The setup circuit is satisfiable, with the shape of its depth. |
| MerkleCircuit.WitnessSatisfiedIffVerifies | src/circuit/merkle_proof.rs:110-160 | A witness circuit is satisfied if and only if its path verifies against its root. |
| MerkleCircuit.FromTreeSatisfied | src/circuit/merkle_proof.rs:95-101 | The circuit built for a real leaf of a valid tree is satisfied, with the tree's root as public input. |
| MerkleCircuit.SatisfiedOpensLeaf | src/circuit/merkle_proof.rs:110-160 | A satisfied circuit at a valid tree's root and depth opens one of its leaves, the zero padding, or a Poseidon collision. |
| Proving.ToBytes | src/prover.rs:46-51 | The bytes are the compressed proof followed by the compressed public input. |
| Proving.FromBytes | src/prover.rs:54-69 | A proof that fails to decode gives a serialisation error. On success the proof is decoded from the front and the input from the bytes after the proof's re-encoded length. |
| Proving.ProofBytesRoundTrip | src/prover.rs:46-69 | Decoding the bytes of a proof gives the proof back. |
| Proving.Size | src/prover.rs:72-74 | The size is the proof's byte length plus the input's byte length. |
| Proving.Setup | src/prover.rs:90-101 | Setup runs on the all-zero circuit of the depth with the fixed seed, and passes the backend's keys through or wraps its error. |
| Proving.ProveWithPath | src/prover.rs:119-141 | A depth mismatch is reported before proving. Otherwise the backend's proof of the witness circuit is returned, with the root as public input. |
| Proving.Prove | src/prover.rs:104-116 | A leaf that is not indexed gives `LeafNotFound`. An indexed leaf is proved with its path against the tree's root. |
| Proving.ProveLocatesLeaf | src/prover.rs:104-116 | On a valid tree `LeafNotFound` comes exactly for non-leaves, and every leaf is proved with the path of its indexed position. |
| Proving.SaveProvingKey | src/prover.rs:149-161 | The key file is the depth as a little-endian `u32`, then the compressed key. |
| Proving.LoadProvingKey | src/prover.rs:164-175 | The depth comes from the first four bytes and the key from the rest; a key decoding failure is a serialisation error. |
| Proving.ProvingKeyRoundTrip | src/prover.rs:149-175 | Loading a saved prover with a depth below 2^32 gives back the prover. |
| Verifying.NewVerifier | src/verifier.rs:43-49 | The verifier keeps the key and its prepared form. |
| Verifying.Verify | src/verifier.rs:54-59 | The outcome is the backend's verdict on the proof's single public input, or its error wrapped. |
| Verifying.VerifyWithRoot | src/verifier.rs:64-71 | A proof for another root is rejected with `RootMismatch` exactly when the roots differ; otherwise the result is plain verification. |
| Verifying.VerifyBytes | src/verifier.rs:74-78 | Undecodable bytes give `InvalidProof` with the decoding message; decodable bytes are verified. |
| Verifying.VerifyBytesOfEncoded | src/verifier.rs:74-78 | Verifying a proof's bytes is verifying the proof. |
| Verifying.VerifyWithReport | src/verifier.rs:117-125 | The report fails exactly when verification fails. It carries the verdict, the proof's root and its byte size. |
| Verifying.ProveThenVerify | src/verifier.rs:54-78 | Given Groth16 completeness, a proof that `prove` makes for a leaf of a valid tree verifies: directly, against the root, and from its bytes. |
| EmailEvidence.HeaderIndex | src/proofs/email.rs:36-41 | The lookup returns the first header whose key matches case-insensitively, or none when no key matches. |
| EmailEvidence.ParseEmail | src/proofs/email.rs:30-65 | A missing `From` header or a domain extraction error fails. Otherwise the record keeps the first `From` value, its domain, the value of the first `DKIM-Signature` header (none exactly when there is no such header) with its `d=` domain, and the raw text. |
| EmailEvidence.SelectedAddress | src/proofs/email.rs:68-78 | With a `<`, the address is the text after the first `<` up to the next `<` or `>`, and holds neither bracket; without one it is the trimmed header. |
| EmailEvidence.SelectedAddressOfNamed | src/proofs/email.rs:68-78 | In `name <address>` the address is selected. |
| EmailEvidence.ExtractDomain | src/proofs/email.rs:68-87 | Extraction fails exactly when the selected address has no `@`. Otherwise the domain is trimmed, lower-case and free of `@`. |
| EmailEvidence.ExtractDomainValue | src/proofs/email.rs:68-87 | When the selected address has an `@`, the domain is the text between its first and second `@`, trimmed and then lower-cased. |
| EmailEvidence.ExtractDomainOfSelected | src/proofs/email.rs:79-86 | For a selected address `local@tail` with no `@` in `local`, the domain is the trimmed, lower-cased part of `tail` before its first `@`. |
| EmailEvidence.ExtractDomainStopsAtSecondAt | src/proofs/email.rs:79-86 | For `local@domain@rest`, everything from the second `@` on is dropped. |
| EmailEvidence.ExtractDomainOfPadded | src/proofs/email.rs:74-86 | Whitespace around a bare address is dropped and the domain is lower-cased. |
| EmailEvidence.ExtractDomainExamples | src/proofs/email.rs:209-223 | `john@google.com` and `John Doe <john@google.com>` give `google.com`, and `  jane@EXAMPLE.COM  ` gives `example.com`. |
| EmailEvidence.ExtractDomainOfAddress | src/proofs/email.rs:68-87 | A bare `local@domain` yields its domain. |
| EmailEvidence.ExtractDomainOfNamedAddress | src/proofs/email.rs:68-87 | `name <local@domain>` yields its domain. |
| EmailEvidence.FirstDomainTag | src/proofs/email.rs:90-99 | The result is none exactly when no part is a `d=` tag; otherwise it is the trimmed, lower-cased value of the first such part. |
| EmailEvidence.ExtractDkimDomain | src/proofs/email.rs:90-99 | The signing domain is the first `d=` tag of the `;`-separated list, and none exactly when there is no such tag. |
| EmailEvidence.ExtractDkimDomainOfTags | src/proofs/email.rs:90-99 | A tag list written with `;` separators gives its first `d=` value. |
| EmailEvidence.VerifyDkimAsWritten | src/proofs/email.rs:108-147 | The check as written never returns `false`. A missing signature or missing tags fail, and it succeeds exactly when all tags are present and the sender domain ends with the signing domain as a string. |
| EmailEvidence.VerifyDkim | src/proofs/email.rs:108-147 | The same check with label-boundary alignment: success exactly when all tags are present and the sender domain is the signing domain or a subdomain of it. |
| EmailEvidence.DkimTagsHaveRequiredFields | src/proofs/email.rs:115-124 | A header of the form `v=..; a=..; d=..; s=..; b=..` passes the required-tag check, whatever the values. |
| EmailEvidence.LookalikeDomainAccepted | src/proofs/email.rs:127-136 | `evilgoogle.com` with a `google.com` signature passes the check as written and fails the aligned one. |
| EmailEvidence.VerifyDkimRejectsLookalikes | src/proofs/email.rs:127-136 | The aligned check rejects every sender domain that extends the signing domain without a dot boundary. |
| EmailEvidence.VerifyDkimAcceptsSubdomains | src/proofs/email.rs:128 | The aligned check accepts the comment's own case: a subdomain of the signing domain. |
| EmailEvidence.AlignedCheckIsStricter | src/proofs/email.rs:127-136 | Whatever the aligned check accepts, the check as written accepts too. |
| EmailEvidence.GenerateProof | src/proofs/email.rs:150-178 | `dkim_valid` holds exactly when `verify_dkim` as written succeeds, an error counting as false. The domain is the signing domain, else the sender domain. The hash is empty exactly without a signature, and otherwise the 64-digit hex of SHA-256 of its bytes. The time is the given clock. |
| EmailEvidence.GenerateProofAligned | src/proofs/email.rs:150-178 | With the aligned check, `dkim_valid` holds exactly when that check succeeds, and every other field equals the as-written summary's. |
| EmailEvidence.AlignedSummaryIsStricter | src/proofs/email.rs:150-152 | A summary valid under the aligned check is valid as written too. |
| EmailEvidence.LookalikeSummaryValid | src/proofs/email.rs:150-152 | `generate_proof` as written reports `dkim_valid` for `evilgoogle.com` under a `google.com` signature; the aligned summary does not. |
| EmailEvidence.DomainToField | src/proofs/email.rs:181-186 | The element is SHA-256 of the domain's bytes, read big-endian, modulo the field order. |
| EmailCircuit.StringToField | src/circuit/email_proof.rs:40-45 | The element is SHA-256 of the bytes reduced into the field, the same map as `domain_to_field`. |
| EmailCircuit.ExtractDomain | src/circuit/email_proof.rs:48-50 | The result is none exactly without `@`; otherwise it is the lower-cased text between the first and the second `@`. |
| EmailCircuit.ExtractDomainOfAddress | src/circuit/email_proof.rs:48-50 | `local@domain` yields the lower-cased domain. |
| EmailCircuit.ExtractDomainStopsAtSecondAt | src/circuit/email_proof.rs:48-50 | Text after a second `@` is dropped. |
| EmailCircuit.ExtractionsAgree | src/circuit/email_proof.rs:48-50 | On a plain normalised address, the circuit's extraction and the `.eml` extraction agree. |
| EmailCircuit.NewInput | src/circuit/email_proof.rs:67-77 | The input keeps the email and takes the extracted domain (empty without `@`). DKIM passes exactly when the lower-cased results contain `dkim=pass`, and the DKIM data is the signature followed by the results. |
| EmailCircuit.DkimPassAnywhere | src/circuit/email_proof.rs:69 | A `dkim=pass` verdict in any letter case, anywhere in the results, counts as passed. |
| EmailCircuit.NoVerdictNoPass | src/circuit/email_proof.rs:69 | Results shorter than `dkim=pass` never count as passed. |
| EmailCircuit.FromDomainWithDkim | src/circuit/email_proof.rs:85-92 | The email is `user@` + domain and the domain is lower-cased. The DKIM data is kept only when DKIM was verified. |
| EmailCircuit.FromDomain | src/circuit/email_proof.rs:80-82 | `from_domain` uses `dkim=pass` as data when verified, and empty data otherwise. |
| EmailCircuit.FromDomainIsConsistent | src/circuit/email_proof.rs:80-92 | The synthetic email's extracted domain is the recorded domain. |
| EmailCircuit.DomainCaseIgnored | src/circuit/email_proof.rs:85-92 | Domains differing only in letter case give the same input domain. |
| EmailCircuit.NewEmpty | src/circuit/email_proof.rs:119-139 | The setup circuit uses the placeholders 0, 1, 2, 3, and its commitment hashes them in the circuit's order. |
| EmailCircuit.NewWithWitness | src/circuit/email_proof.rs:142-165 | The witnesses are the hashes of email, domain and DKIM data and the reduced random nonce. The commitment is Poseidon over them in that order. |
| EmailCircuit.PublicInputs | src/circuit/email_proof.rs:168-175 | The public inputs are the domain hash then the commitment, when both are set. |
| EmailCircuit.HashFourIsCommit | src/circuit/email_proof.rs:223-238 | The in-circuit four-element hash is the native commitment. |
| EmailCircuit.Synthesize | src/circuit/email_proof.rs:179-219 | Synthesis fails exactly on a missing value. The public inputs are the domain hash and the commitment, and the system is satisfied exactly when the commitment opens. |
| EmailCircuit.NewEmptySatisfied | src/circuit/email_proof.rs:119-139 | The setup circuit is satisfiable with the email shape. |
| EmailCircuit.NewWithWitnessSatisfied | src/circuit/email_proof.rs:142-165 | A witness circuit is satisfied, and its public inputs are the domain hash and its commitment. |
| EmailCircuit.SameDomainSameHash | src/circuit/email_proof.rs:142-165 | Two inputs with the same domain publish the same domain hash, whatever their nonces. |
| CountryCircuit.Truncate | src/circuit/country_proof.rs:33-35 | The `as` cast rounds toward zero. |
| CountryCircuit.SaturateI64 | src/circuit/country_proof.rs:33-35 | The `as i64` cast saturates at the `i64` bounds and keeps in-range values. |
| CountryCircuit.CoordToScaled | src/circuit/country_proof.rs:33-35 | A scaled coordinate is always an `i64`. |
| CountryCircuit.ScaledCoordinateRange | src/circuit/country_proof.rs:30-35 | A coordinate in [-180, 180] scales without saturation to within ±180·10^6. |
| CountryCircuit.CoordToScaledMonotone | src/circuit/country_proof.rs:33-35 | Scaling preserves order. |
| CountryCircuit.NewBounds | src/circuit/country_proof.rs:55-62 | The scaled bounds are `i64` values, and ordered bounds stay ordered. |
| CountryCircuit.AsU64 | src/circuit/country_proof.rs:130-131 | `as u64` is the value modulo 2^64 and keeps non-negative values. |
| CountryCircuit.WrappingAddI64 | src/circuit/country_proof.rs:131 | The `i64` addition wraps modulo 2^64 and is exact when the sum fits. |
| CountryCircuit.LatitudeField | src/circuit/country_proof.rs:130 | The latitude element is the scaled latitude reinterpreted as `u64`. |
| CountryCircuit.LongitudeShift | src/circuit/country_proof.rs:131 | The shifted longitude is the scaled value plus 180·10^6 over the usual range. Below it, the reinterpreted value gains 2^64. |
| CountryCircuit.LatitudeFieldInjective | src/circuit/country_proof.rs:130 | Distinct scaled latitudes give distinct elements. |
| CountryCircuit.CountryCodeToField | src/circuit/country_proof.rs:38-43 | The element is SHA-256 of the upper-cased code's bytes, reduced into the field. |
| CountryCircuit.CountryCodeCaseInsensitive | src/circuit/country_proof.rs:38-43 | Codes equal up to ASCII case map to the same element. |
| CountryCircuit.LowerCaseCodeIsSameCountry | src/circuit/country_proof.rs:38-43 | `us` and `US` give the same element. |
| CountryCircuit.NewEmpty | src/circuit/country_proof.rs:96-114 | The setup circuit has zero witnesses and the commitment of three zeros. |
| CountryCircuit.NewWithWitnessScaled | src/circuit/country_proof.rs:121-144 | The witnesses are the encoded latitude and longitude and the country element. The commitment is Poseidon over them in that order. |
| CountryCircuit.NewWithWitness | src/circuit/country_proof.rs:121-144 | The witness circuit is built from the scaled coordinates. |
| CountryCircuit.BoundsIgnored | src/circuit/country_proof.rs:121-144 | The circuit does not depend on the bounds argument. |
| CountryCircuit.HashThreeIsCommit | src/circuit/country_proof.rs:189-202 | The in-circuit three-element hash is the native commitment. |
| CountryCircuit.Synthesize | src/circuit/country_proof.rs:153-185 | Synthesis fails exactly on a missing value. The one public input is the commitment, and the system is satisfied exactly when the commitment opens. |
| CountryCircuit.NewEmptySatisfied | src/circuit/country_proof.rs:96-114 | The setup circuit is satisfiable with the country shape. |
| CountryCircuit.NewWithWitnessSatisfied | src/circuit/country_proof.rs:121-144 | A witness circuit is satisfied with its commitment as the public input. |
| CountryCircuit.SatisfiedInputIsCommitment | src/circuit/country_proof.rs:153-185 | The public input of any satisfied default-config circuit is the commitment of some latitude, longitude and country. |
| Location.TableWellFormed | src/proofs/location.rs:21-102 | The table has ten entries with distinct two-letter upper-case codes and boxes of positive extent. |
| Location.CodesAreUpperCase | src/proofs/location.rs:21-102 | Every code is its own upper case. |
| Location.FindByCode | src/wasm.rs:322-325 | The lookup returns the first entry with the code, and none exactly when no entry has it. |
| Location.FindByOwnCode | src/wasm.rs:322-325 | Every entry is found by its code, also when that code is given in lower case and upper-cased. |
| Location.FindByCoords | src/wasm.rs:244-246 | The lookup returns the first box that holds the point, inclusive of its edges, and none exactly when no box holds it. |
| Location.OverlapResolvesToFirst | src/proofs/location.rs:21-46 | The United States and Canada boxes overlap, and a point in both resolves to the United States. |
| Location.CentreInBox | src/wasm.rs:358-359 | The centre that `prove_country` uses lies in the country's box. |
| Wasm.SetupState | src/wasm.rs:160-191 | The state is set exactly when setup succeeds, holding the keys and the prepared key. |
| Wasm.InitCountryProver | src/wasm.rs:160-191 | An initialised prover is kept as is. Otherwise setup is attempted, and the result says whether the prover is now set. The email prover is untouched. |
| Wasm.InitEmailProver | src/wasm.rs:197-227 | The same for the email prover, leaving the country prover untouched. |
| Wasm.InitIdempotent | src/wasm.rs:160-227 | Initialising twice is the same as initialising once. |
| Wasm.IsProverReady | src/wasm.rs:231-233 | The country prover is ready exactly when its state is set. |
| Wasm.IsEmailProverReady | src/wasm.rs:579-581 | The email prover is ready exactly when its state is set. |
| Wasm.ReachableInvariant | src/wasm.rs:44-45 | Every reachable state holds only keys from the fixed-seed setups, and readiness is never lost. |
| Wasm.DecodeProof | src/wasm.rs:405-418 | A proof decodes exactly when its hex and then its compressed form decode. |
| Wasm.DecodeInput | src/wasm.rs:410-423 | A public input decodes exactly when its hex and then its compressed form decode. |
| Wasm.DecodeOfEncoded | src/wasm.rs:404-433 | The hex of a compressed proof or input decodes back to it. |
| Wasm.ProofHex | src/wasm.rs:79-82 | The proof's hex has twice its length and decodes back to its bytes. |
| Wasm.CountryFailure | src/wasm.rs:250-259 | A failure result is unsuccessful, empty, and carries the message. |
| Wasm.ProveInCountry | src/wasm.rs:262-316 | Without a prover the result is the not-initialised failure. Otherwise the backend proves the witness circuit, and on success the result reports the country, the proof bytes and the chosen public input. |
| Wasm.ProveCountryFromCoordsAsWritten | src/wasm.rs:242-316 | A point in no box fails. Otherwise the first country holding it is proved, and the country element is reported as the public input. |
| Wasm.ProveCountryFromCoords | src/wasm.rs:242-316 | The same with the commitment reported. On success, the reported code is the first table entry whose box holds the point. |
| Wasm.Centre | src/wasm.rs:358-359 | The centre is the midpoint of both ranges. |
| Wasm.ProveCountryAsWritten | src/wasm.rs:321-400 | An unknown code fails with the code in the message. Otherwise the upper-cased code's country is proved at its centre, reporting the country element. |
| Wasm.ProveCountry | src/wasm.rs:321-400 | The same with the commitment reported. On success, the reported code is the upper-cased input. |
| Wasm.VerifyCountryProof | src/wasm.rs:404-433 | The result is true exactly when both hex strings decode, the prover is initialised, and the backend accepts the proof for the single input. |
| Wasm.EmailFailure | src/wasm.rs:447-456 | A failure result is unsuccessful and carries the domain, the DKIM flag and the message. |
| Wasm.DkimData | src/wasm.rs:460-465 | The proof data is the signature when present, otherwise the authentication results. |
| Wasm.EmailWitness | src/wasm.rs:484-491 | The witness circuit publishes the hash of the lower-cased domain and a commitment. |
| Wasm.ProveEmailDomain | src/wasm.rs:442-531 | Without a `dkim=pass` verdict it fails with DKIM flag false. Without a prover it fails with flag true. Otherwise a proof is attempted, and on success the result reports the domain hash and commitment the circuit publishes. |
| Wasm.VerifyEmailProof | src/wasm.rs:535-575 | The result is true exactly when the three hex strings decode, the prover is initialised, and the backend accepts the proof for (domain hash, commitment). |
| Wasm.ProveInCountryRoundTrip | src/wasm.rs:242-433 | Given Groth16 completeness, a successful country proof that reports the commitment verifies. |
| Wasm.CountryFromCoordsRoundTrip | src/wasm.rs:242-433 | Given completeness, every successful corrected coordinate proof verifies. |
| Wasm.CountryCodeRoundTrip | src/wasm.rs:321-433 | Given completeness, every successful corrected code proof verifies. |
| Wasm.EmailRoundTrip | src/wasm.rs:442-575 | Given completeness, every successful email proof verifies with its reported domain hash and commitment. |
| Wasm.AsWrittenInputNeedsCommitment | src/wasm.rs:291-301 | Given Groth16 soundness, an as-written country result verifies only if the country element happens to be a commitment. |
| Wasm.AsWrittenCountryInputRejected | src/wasm.rs:291-301 | For a concrete sponge and hash satisfying the laws, no successful as-written coordinate proof verifies with its reported public input. |

## Left out

- I/O and encodings:
  - File I/O: `save_to_file`, `load_from_file`, the verifier's `save`/`load`, and the verifying-key helpers of src/prover.rs.
  - bincode: it is modelled as the identity on the stored record (`MerkleTreeData`).
  - The `IoError` variants.
- Logging and constants:
  - console logging and `init`;
  - `get_version`, `get_supported_countries` and `hash_to_field` of src/wasm.rs;
  - the result getters of src/wasm.rs, except `proof_hex` (as `Wasm.ProofHex`).
- Parameters instead of effects:
  - Randomness and clocks are parameters: the proving seed (`Date::now` at wasm.rs:283 and 494; 32 bytes from `getrandom` at wasm.rs:367-369, whose `expect` panic when no entropy source is available is not modelled), the 32 nonce bytes of `new_with_witness`, and the `verified_at` time.
  - The global `Mutex` state is an explicit `WasmState` passed in and returned; lock poisoning is not modelled.
- Opaque primitives and their laws:
  - Poseidon's permutation, SHA-256, Groth16 and compressed serialisation are opaque parameters.
  - Their laws are stated as hypotheses, not proved.
  - The in-circuit Poseidon gadget is assumed to compute the native sponge.
- Arithmetic and text:
  - `f64` values are exact reals: `coord * 1e6` and the centre midpoint are not rounded.
  - Case mapping is ASCII-only, whereas Rust's `to_lowercase`/`to_uppercase` are Unicode.
  - mailparse is replaced by its header list: key/value pairs, in order, after unfolding. Parse failures of malformed messages are not modelled.
- Panics:
  - A slice panic is an error value (`SlicePanic`) in `Proving.FromBytes`.
  - Merkle.FromData: its `Failure(LeafSlotOutOfRange)` stands for the out-of-bounds panic of `nodes[leaf_start + i]` (tree.rs:269), which can only happen when there is at least one leaf. `1 << data.depth` (tree.rs:262) is computed without a width, so the shift overflow of a `usize` for a depth of 64 or more is not modelled. Stored nodes are field elements rather than 32-byte encodings, so the panic of `Fr::deserialize_compressed(..).unwrap()` on a malformed encoding (tree.rs:259) is not modelled. Like the source, it does not check that the node count is `2 * 2^depth - 1`; a loaded tree of another shape is not `Valid`, and no property of `GetPath` or `Prove` is stated for it.
  - `Proving.LoadProvingKey`: requires a file of at least four bytes, where the source panics on a shorter one.
- Merkle representation:
  - The leaf index is keyed by the field element itself, not its 32-byte encoding. The encoding is injective, so the two are equivalent.
  - `MAX_DEPTH` is not enforced by the source and is not modelled as a bound.
- Weaker statements:
  - Merkle.PathSoundness: states soundness up to a Poseidon collision (`HasCollision`), because a map from pairs of field elements to one element cannot be injective.
  - CountryCircuit.NewBounds: states order preservation and range, not the exact saturated values.
  - Poseidon.HashMany: states the sponge's behaviour as "absorb all, squeeze one", not the permutation rounds.
- Source behaviour worth noting:
  - `parse_email` also fails when the `From` value has no `@`, through `extract_domain`.
  - The angle-bracket address is cut at the next `<` before the `>`, as `split('<').nth(1)` then `split('>').next()` do.
- `src/lib.rs`, `src/merkle/mod.rs` and `src/circuit/mod.rs` only re-export modules and are not part of this model.

## Findings

| source | as written | input that shows it | evidently intended | confidence | as-written member | corrected member |
|---|---|---|---|---|---|---|
| src/proofs/email.rs:127-136 | The sender domain only has to end with the signing domain as a string. | `From: x@evilgoogle.com` with `d=google.com` passes. | Relaxed alignment at a label boundary (section 3.1.1 of RFC 7489): the sender domain equals the signing domain or ends with `.` followed by it. | high, not executed | EmailEvidence.VerifyDkimAsWritten (EmailEvidence.LookalikeDomainAccepted); EmailEvidence.GenerateProof (EmailEvidence.LookalikeSummaryValid) | EmailEvidence.VerifyDkim (EmailEvidence.VerifyDkimRejectsLookalikes, EmailEvidence.VerifyDkimAcceptsSubdomains, EmailEvidence.AlignedCheckIsStricter); EmailEvidence.GenerateProofAligned (EmailEvidence.AlignedSummaryIsStricter) |
| src/wasm.rs:291-301 | `prove_country_from_coords` and `prove_country` report `country_code_to_field(code)` as the public input, but the circuit's only public input is the commitment. | Any successful proof, e.g. `prove_country("US")`, passed to `verify_country_proof` with its own reported public input. | Report the commitment the proof was made for, so that a proof verifies against what it reports. | high, not executed | Wasm.ProveCountryFromCoordsAsWritten (Wasm.AsWrittenCountryInputRejected, Wasm.AsWrittenInputNeedsCommitment) | Wasm.ProveCountryFromCoords (Wasm.CountryFromCoordsRoundTrip); Wasm.ProveCountry (Wasm.CountryCodeRoundTrip) |

=== FILE: bytes.dfy ===
/** Byte-level helpers: the `u8` type, SHA-256 digests as 32-byte values and the
    little-endian `u32` header of a saved proving key. */
module Bytes {
  import opened Wrappers

  newtype uint8 = x: int | 0 <= x < 256

  const U32_LIMIT: int := 0x1_0000_0000
  const U64_LIMIT: int := 0x1_0000_0000_0000_0000

  /** A SHA-256 output: always exactly 32 bytes. */
  type Digest = d: seq<uint8> | |d| == 32 witness seq(32, _ => 0 as uint8)

  /** The SHA-256 primitive (sha2 crate), left uninterpreted. */
  type Sha256Fn = seq<uint8> -> Digest

  // ---------------------------------------------------------------- u32 little endian

  /** `(x as u32).to_le_bytes()`: the cast keeps the low 32 bits. */
  function U32ToLe(x: nat): (b: seq<uint8>)
    ensures |b| == 4
  {
    var v := x % U32_LIMIT;
    [(v % 0x100) as uint8, (v / 0x100 % 0x100) as uint8,
     (v / 0x1_0000 % 0x100) as uint8, (v / 0x100_0000) as uint8]
  }

  /** `u32::from_le_bytes`. */
  function U32FromLe(b: seq<uint8>): (x: nat)
    requires |b| == 4
    ensures x < U32_LIMIT
  {
    b[0] as nat + 0x100 * b[1] as nat + 0x1_0000 * b[2] as nat + 0x100_0000 * b[3] as nat
  }

  /** Decoding the four header bytes gives back the value truncated to 32 bits. */
  lemma U32LeRoundTrip(x: nat)
    ensures U32FromLe(U32ToLe(x)) == x % U32_LIMIT
  {
    var v := x % U32_LIMIT;
    var b := U32ToLe(x);
    assert b[0] as nat == v % 0x100;
    assert b[1] as nat == v / 0x100 % 0x100;
    assert b[2] as nat == v / 0x1_0000 % 0x100;
    assert b[3] as nat == v / 0x100_0000;
    assert v / 0x100 == v / 0x1_0000 * 0x100 + v / 0x100 % 0x100;
    assert v / 0x1_0000 == v / 0x100_0000 * 0x100 + v / 0x1_0000 % 0x100;
  }
}

=== FILE: country_circuit.dfy ===
/** `CountryProofCircuit`: a commitment `H(lat, lng, country_id)` whose only public input
    is the commitment. Coordinates are fixed-point integers (micro-degrees) carried into
    the field through Rust's `i64` and `u64` casts, which are written out here; `f64`
    values are exact reals, so only the truncating, saturating cast to `i64` is modelled,
    not the rounding of the product. */
module CountryCircuit {
  import opened Wrappers
  import opened Bytes
  import opened Field
  import opened Poseidon
  import opened Groth16
  import opened Text
  import Utf8

  /** Six decimal places of a degree. */
  const COORD_SCALE: int := 1_000_000

  /** The shift that makes every longitude of the globe non-negative. */
  const LNG_SHIFT: int := 180 * COORD_SCALE

  const I64_MIN: int := -0x8000_0000_0000_0000
  const I64_MAX: int := 0x7FFF_FFFF_FFFF_FFFF

  predicate IsI64(x: int) {
    I64_MIN <= x <= I64_MAX
  }

  // ---------------------------------------------------------------- scaling

  /** The integer part of a real, rounding toward zero as Rust's float casts do. */
  function Truncate(x: real): (r: int)
    ensures 0.0 <= x ==> 0 <= r && r as real <= x < r as real + 1.0
    ensures x < 0.0 ==> r <= 0 && r as real - 1.0 < x <= r as real
  {
    if x >= 0.0 then x.Floor else -((-x).Floor)
  }

  /** Rust's `as i64` on a float: truncation, saturating at the ends of the range. */
  function SaturateI64(x: int): (r: int)
    ensures IsI64(r)
    ensures IsI64(x) ==> r == x
    ensures x > I64_MAX ==> r == I64_MAX
    ensures x < I64_MIN ==> r == I64_MIN
  {
    if x > I64_MAX then I64_MAX else if x < I64_MIN then I64_MIN else x
  }

  /** `coord_to_scaled`: degrees to micro-degrees. */
  function CoordToScaled(coord: real): (r: int)
    ensures IsI64(r)
  {
    SaturateI64(Truncate(coord * COORD_SCALE as real))
  }

  /** A coordinate of the globe scales to at most 180 million micro-degrees either way. */
  lemma ScaledCoordinateRange(coord: real)
    requires -180.0 <= coord <= 180.0
    ensures -LNG_SHIFT <= CoordToScaled(coord) <= LNG_SHIFT
    ensures CoordToScaled(coord) == Truncate(coord * COORD_SCALE as real)
  {
  }

  /** Scaling never reverses the order of two coordinates. */
  lemma CoordToScaledMonotone(a: real, b: real)
    ensures a <= b ==> CoordToScaled(a) <= CoordToScaled(b)
  {
    var x, y := a * COORD_SCALE as real, b * COORD_SCALE as real;
    if b < a {
    } else if 0.0 <= x {
      assert x.Floor <= y.Floor;
    } else if y < 0.0 {
      assert (-y).Floor <= (-x).Floor;
    }
  }

  /** `ScaledBounds`, the country box in micro-degrees. */
  datatype ScaledBounds = ScaledBounds(minLat: int, maxLat: int, minLng: int, maxLng: int)

  /** `ScaledBounds::new`: every bound scaled. */
  function NewBounds(minLat: real, maxLat: real, minLng: real, maxLng: real): (b: ScaledBounds)
    ensures IsI64(b.minLat) && IsI64(b.maxLat) && IsI64(b.minLng) && IsI64(b.maxLng)
    ensures minLat <= maxLat ==> b.minLat <= b.maxLat
    ensures minLng <= maxLng ==> b.minLng <= b.maxLng
  {
    CoordToScaledMonotone(minLat, maxLat);
    CoordToScaledMonotone(minLng, maxLng);
    ScaledBounds(CoordToScaled(minLat), CoordToScaled(maxLat), CoordToScaled(minLng), CoordToScaled(maxLng))
  }

  // ---------------------------------------------------------------- into the field

  /** Rust's `as u64` on an `i64`: the same 64 bits read unsigned. */
  function AsU64(x: int): (r: int)
    requires IsI64(x)
    ensures 0 <= r < U64_LIMIT
    ensures (r - x) % U64_LIMIT == 0
    ensures 0 <= x ==> r == x
  {
    if x >= 0 then x else x + U64_LIMIT
  }

  /** The `i64` addition of the longitude shift, wrapping on overflow as a release build does. */
  function WrappingAddI64(a: int, b: int): (r: int)
    requires IsI64(a) && IsI64(b)
    ensures IsI64(r)
    ensures (r - (a + b)) % U64_LIMIT == 0
    ensures IsI64(a + b) ==> r == a + b
  {
    var s := a + b;
    if s > I64_MAX then s - U64_LIMIT else if s < I64_MIN then s + U64_LIMIT else s
  }

  /** The latitude witness: `Fr::from(scaled as u64)`. */
  function LatitudeField(scaledLat: int): (r: Fr)
    requires IsI64(scaledLat)
    ensures r as int == AsU64(scaledLat)
  {
    FromU64(AsU64(scaledLat))
  }

  /** The longitude witness: `Fr::from((scaled + 180 * COORD_SCALE) as u64)`. */
  function LongitudeField(scaledLng: int): (r: Fr)
    requires IsI64(scaledLng)
  {
    FromU64(AsU64(WrappingAddI64(scaledLng, LNG_SHIFT)))
  }

  /** Every longitude from -180 degrees up keeps its shifted value in the field, with no
      wrap-around; below that the value wraps to near 2^64. */
  lemma LongitudeShift(scaledLng: int)
    requires IsI64(scaledLng)
    ensures -LNG_SHIFT <= scaledLng <= I64_MAX - LNG_SHIFT ==> LongitudeField(scaledLng) as int == scaledLng + LNG_SHIFT
    ensures scaledLng < -LNG_SHIFT ==> LongitudeField(scaledLng) as int == scaledLng + LNG_SHIFT + U64_LIMIT
  {
  }

  /** Distinct latitudes (in `i64`) give distinct witnesses, negative ones included. */
  lemma LatitudeFieldInjective(a: int, b: int)
    requires IsI64(a) && IsI64(b) && a != b
    ensures LatitudeField(a) != LatitudeField(b)
  {
  }

  /** `country_code_to_field`: SHA-256 of the upper-cased code, reduced into the field. */
  function CountryCodeToField(sha: Sha256Fn, code: string): (r: Fr)
    ensures r as int == BeValue(sha(Utf8.Encode(ToUpper(code)))) % MODULUS
  {
    FromBeBytesModOrder(sha(Utf8.Encode(ToUpper(code))))
  }

  /** Codes that differ only in letter case map to the same identifier. */
  lemma CountryCodeCaseInsensitive(sha: Sha256Fn, a: string, b: string)
    requires |a| == |b| && forall i :: 0 <= i < |a| ==> LowerChar(a[i]) == LowerChar(b[i])
    ensures CountryCodeToField(sha, a) == CountryCodeToField(sha, b)
  {
    ToUpperCaseInsensitive(a, b);
  }

  /** `"us"` and `"US"` name the same country. */
  lemma LowerCaseCodeIsSameCountry(sha: Sha256Fn)
    ensures CountryCodeToField(sha, "us") == CountryCodeToField(sha, "US")
  {
    CountryCodeCaseInsensitive(sha, "us", "US");
  }

  // ---------------------------------------------------------------- the circuit

  datatype CountryProofCircuit = CountryProofCircuit(
    config: PoseidonConfig,
    latitude: Option<Fr>,
    longitude: Option<Fr>,
    countryId: Option<Fr>,
    commitment: Option<Fr>)

  /** The commitment of the source, with its element order: latitude, longitude, country. */
  function Commit(h: PoseidonHasher, lat: Fr, lng: Fr, country: Fr): (r: Fr)
    ensures r == h.sponge(h.config, [lat, lng, country])
  {
    HashMany(h, [lat, lng, country])
  }

  /** `CountryProofCircuit::new_empty`: zero witnesses with their commitment. */
  function NewEmpty(sponge: SpongeFn): (c: CountryProofCircuit)
    ensures c.config == DefaultConfig()
    ensures c.latitude == Some(ZERO) && c.longitude == Some(ZERO) && c.countryId == Some(ZERO)
    ensures c.commitment == Some(sponge(DefaultConfig(), [ZERO, ZERO, ZERO]))
  {
    var h := Poseidon.New(sponge);
    CountryProofCircuit(h.config, Some(FromU64(0)), Some(FromU64(0)), Some(FromU64(0)),
                        Some(Commit(h, FromU64(0), FromU64(0), FromU64(0))))
  }

  /** `CountryProofCircuit::new_with_witness` on coordinates already scaled. The bounds are
      accepted and not used: the caller is trusted to have checked them. */
  function NewWithWitnessScaled(scaledLat: int, scaledLng: int, bounds: ScaledBounds, code: string,
                                sha: Sha256Fn, sponge: SpongeFn): (c: CountryProofCircuit)
    requires IsI64(scaledLat) && IsI64(scaledLng)
    ensures c.config == DefaultConfig()
    ensures c.latitude == Some(LatitudeField(scaledLat)) && c.longitude == Some(LongitudeField(scaledLng))
    ensures c.countryId == Some(CountryCodeToField(sha, code))
    ensures c.commitment == Some(sponge(DefaultConfig(), [c.latitude.value, c.longitude.value, c.countryId.value]))
  {
    var h := Poseidon.New(sponge);
    var lat := LatitudeField(scaledLat);
    var lng := LongitudeField(scaledLng);
    var country := CountryCodeToField(sha, code);
    CountryProofCircuit(h.config, Some(lat), Some(lng), Some(country), Some(Commit(h, lat, lng, country)))
  }

  /** `CountryProofCircuit::new_with_witness`: the coordinates in degrees. */
  function NewWithWitness(lat: real, lng: real, bounds: ScaledBounds, code: string,
                          sha: Sha256Fn, sponge: SpongeFn): (c: CountryProofCircuit)
    ensures c == NewWithWitnessScaled(CoordToScaled(lat), CoordToScaled(lng), bounds, code, sha, sponge)
  {
    NewWithWitnessScaled(CoordToScaled(lat), CoordToScaled(lng), bounds, code, sha, sponge)
  }

  /** The bounds argument does not influence the circuit. */
  lemma BoundsIgnored(lat: real, lng: real, b1: ScaledBounds, b2: ScaledBounds, code: string,
                      sha: Sha256Fn, sponge: SpongeFn)
    ensures NewWithWitness(lat, lng, b1, code, sha, sponge) == NewWithWitness(lat, lng, b2, code, sha, sponge)
  {
  }

  /** `poseidon_hash_three`: the gadget absorbs its three arguments one by one and squeezes one. */
  function HashThree(h: PoseidonHasher, a: Fr, b: Fr, c: Fr): Fr {
    SqueezeOne(h, Absorb(Absorb(Absorb(Sponge(h.config, []), a), b), c))
  }

  /** The gadget computes the native commitment. */
  lemma HashThreeIsCommit(h: PoseidonHasher, a: Fr, b: Fr, c: Fr)
    ensures HashThree(h, a, b, c) == Commit(h, a, b, c)
  {
    assert [] + [a] + [b] + [c] == [a, b, c];
  }

  /** The constraint structure every country circuit shares: three witnesses, one input,
      one three-element sponge and one equality. */
  const COUNTRY_SHAPE: seq<nat> := [3, 1]

  /** `generate_constraints`: a missing value aborts; otherwise the commitment is the one
      public input and the system holds iff the commitment recomputes. */
  function Synthesize(c: CountryProofCircuit, sponge: SpongeFn): (r: Result<ConstraintSystem, SynthesisError>)
    ensures r.Failure? <==> c.latitude.None? || c.longitude.None? || c.countryId.None? || c.commitment.None?
    ensures r.Failure? ==> r.error == AssignmentMissing
    ensures r.Success? ==> r.value.publicInputs == [c.commitment.value]
    ensures r.Success? ==> r.value.shape == COUNTRY_SHAPE && r.value.config == c.config
    ensures r.Success? ==> (r.value.satisfied <==>
      sponge(c.config, [c.latitude.value, c.longitude.value, c.countryId.value]) == c.commitment.value)
  {
    var lat :- c.latitude.ToResult(AssignmentMissing);
    var lng :- c.longitude.ToResult(AssignmentMissing);
    var country :- c.countryId.ToResult(AssignmentMissing);
    var commitment :- c.commitment.ToResult(AssignmentMissing);
    var h := PoseidonHasher(c.config, sponge);
    HashThreeIsCommit(h, lat, lng, country);
    var computed := HashThree(h, lat, lng, country);
    Success(ConstraintSystem(COUNTRY_SHAPE, c.config, [commitment], computed == commitment))
  }

  /** The setup circuit synthesises and is satisfied, with the shared shape. */
  lemma NewEmptySatisfied(sponge: SpongeFn)
    ensures var r := Synthesize(NewEmpty(sponge), sponge);
            && r.Success? && r.value.satisfied
            && r.value.shape == COUNTRY_SHAPE && r.value.config == DefaultConfig()
  {
  }

  /** Every witness circuit synthesises and is satisfied, with the shape of the setup circuit;
      its one public input is its commitment, not the country identifier. */
  lemma NewWithWitnessSatisfied(lat: real, lng: real, bounds: ScaledBounds, code: string,
                                sha: Sha256Fn, sponge: SpongeFn)
    ensures var c := NewWithWitness(lat, lng, bounds, code, sha, sponge);
            var r := Synthesize(c, sponge);
            && r.Success? && r.value.satisfied
            && r.value.shape == COUNTRY_SHAPE && r.value.config == DefaultConfig()
            && r.value.publicInputs == [c.commitment.value]
  {
  }

  /** A satisfied circuit's public input is the hash of its witnesses, so it can equal a value
      only if that value is a commitment of some triple. */
  ghost predicate IsCommitment(sponge: SpongeFn, x: Fr) {
    exists lat: Fr, lng: Fr, country: Fr :: Commit(PoseidonHasher(DefaultConfig(), sponge), lat, lng, country) == x
  }

  lemma SatisfiedInputIsCommitment(c: CountryProofCircuit, sponge: SpongeFn)
    requires c.config == DefaultConfig()
    requires Synthesize(c, sponge).Success? && Synthesize(c, sponge).value.satisfied
    ensures IsCommitment(sponge, Synthesize(c, sponge).value.publicInputs[0])
  {
    var h := PoseidonHasher(DefaultConfig(), sponge);
    assert Commit(h, c.latitude.value, c.longitude.value, c.countryId.value) == c.commitment.value;
  }
}

=== FILE: email.dfy ===
/** `EmailVerifier`: pulls the sender domain and the DKIM signing domain out of an
    email's headers, checks the DKIM signature's structure and its alignment with
    the sender, and summarises the result. The MIME parser is not modelled: an
    email arrives as its list of (key, value) headers. */
module EmailEvidence {
  import opened Wrappers
  import opened Bytes
  import opened Hex
  import opened Field
  import opened Text
  import Utf8

  type Header = (string, string)

  datatype ParsedEmail = ParsedEmail(
    fromAddress: string,
    fromDomain: string,
    dkimSignature: Option<string>,
    dkimDomain: Option<string>,
    rawContent: string)

  const NO_FROM: string := "No From header found"
  const NO_AT: string := "No @ in email address"
  const NO_SIGNATURE: string := "No DKIM signature found"
  const MISSING_FIELDS: string := "DKIM signature missing required fields"

  // ---------------------------------------------------------------- headers

  /** The header's key is `name` ignoring ASCII case. */
  predicate KeyIs(h: Header, name: string) {
    ToLower(h.0) == name
  }

  /** Position of the first header whose key is `name`, as `headers.iter().find(..)`. */
  function HeaderIndex(headers: seq<Header>, name: string): (r: Option<nat>)
    ensures r.None? <==> forall i :: 0 <= i < |headers| ==> !KeyIs(headers[i], name)
    ensures r.Some? ==> r.value < |headers| && KeyIs(headers[r.value], name)
    ensures r.Some? ==> forall j :: 0 <= j < r.value ==> !KeyIs(headers[j], name)
  {
    if |headers| == 0 then None
    else if KeyIs(headers[0], name) then Some(0)
    else match HeaderIndex(headers[1..], name)
      case None => None
      case Some(i) => Some(i + 1)
  }

  /** The value of the first header whose key is `name`. */
  function FindHeader(headers: seq<Header>, name: string): Option<string> {
    match HeaderIndex(headers, name)
    case None => None
    case Some(i) => Some(headers[i].1)
  }

  /** `parse_email` after MIME parsing: the first `From` header gives the sender and its
      domain (its errors are the only failures), the first `DKIM-Signature` header, if
      any, gives the signing domain. */
  function ParseEmail(headers: seq<Header>, raw: string): (r: Result<ParsedEmail, string>)
    ensures HeaderIndex(headers, "from").None? ==> r == Failure(NO_FROM)
    ensures HeaderIndex(headers, "from").Some? ==>
              var from := headers[HeaderIndex(headers, "from").value].1;
              && (ExtractDomain(from).Failure? ==> r == Failure(ExtractDomain(from).error))
              && (ExtractDomain(from).Success? ==>
                    r.Success? && r.value.fromAddress == from && r.value.fromDomain == ExtractDomain(from).value)
    ensures r.Success? ==> r.value.rawContent == raw
    ensures r.Success? ==>
              r.value.dkimSignature == (if HeaderIndex(headers, "dkim-signature").Some?
                                        then Some(headers[HeaderIndex(headers, "dkim-signature").value].1)
                                        else None)
    ensures r.Success? ==> (r.value.dkimSignature.None? <== forall i :: 0 <= i < |headers| ==> !KeyIs(headers[i], "dkim-signature"))
    ensures r.Success? && r.value.dkimSignature.Some? ==>
              r.value.dkimDomain == ExtractDkimDomain(r.value.dkimSignature.value)
    ensures r.Success? && r.value.dkimSignature.None? ==> r.value.dkimDomain.None?
  {
    var from :- FindHeader(headers, "from").ToResult(NO_FROM);
    var domain :- ExtractDomain(from);
    var signature := FindHeader(headers, "dkim-signature");
    var dkimDomain := if signature.Some? then ExtractDkimDomain(signature.value) else None;
    Success(ParsedEmail(from, domain, signature, dkimDomain, raw))
  }

  // ---------------------------------------------------------------- the sender domain

  /** The address part of a `From` value: when there is a `<`, the text after the first
      one, cut at the next `<` (the second `split('<')` part) and then at the first `>`;
      otherwise the whole value trimmed. */
  function SelectedAddress(from: string): (a: string)
    ensures '<' in from ==> a == Before(Before(from[Find(from, '<').value + 1..], '<'), '>')
    ensures '<' !in from ==> a == Trim(from)
    ensures '<' in from ==> '<' !in a && '>' !in a
  {
    if '<' in from then Before(SplitSecond(from, '<').value, '>')
    else Trim(from)
  }

  /** Free of `@`, without surrounding whitespace and without ASCII capitals: the shape of
      every extracted domain. */
  predicate IsNormalDomain(d: string) {
    && '@' !in d
    && (d == [] || (!IsWhitespace(d[0]) && !IsWhitespace(d[|d| - 1])))
    && forall i :: 0 <= i < |d| ==> !IsAsciiUpper(d[i])
  }

  /** Lower-casing keeps a string trimmed and free of `@`. */
  lemma LowerOfTrimmed(s: string)
    requires '@' !in s
    requires s == [] || (!IsWhitespace(s[0]) && !IsWhitespace(s[|s| - 1]))
    ensures IsNormalDomain(ToLower(s))
  {
    var l := ToLower(s);
    ToLowerNormalises(s);
    assert forall i :: 0 <= i < |s| ==> l[i] == LowerChar(s[i]);
  }

  /** `EmailVerifier::extract_domain`: the trimmed, lower-cased text after the first `@` of
      the address (up to the next `@`). The "Invalid From header format" branch cannot be
      taken, because splitting on a `<` that occurs always yields a second part. */
  function ExtractDomain(from: string): (r: Result<string, string>)
    ensures r.Failure? <==> '@' !in SelectedAddress(from)
    ensures r.Failure? ==> r.error == NO_AT
    ensures r.Success? ==> IsNormalDomain(r.value)
  {
    var address := SelectedAddress(from);
    match SplitSecond(address, '@')
    case None => Failure(NO_AT)
    case Some(part) =>
      var domain := Trim(part);
      assert '@' !in domain by {
        assert exists i :: OccursAt(part, i, domain);
      }
      LowerOfTrimmed(domain);
      Success(ToLower(domain))
  }

  /** Which domain is extracted: the text of the selected address after its first `@`, up
      to any further `@`, trimmed and lower-cased. */
  lemma ExtractDomainValue(from: string)
    ensures var a := SelectedAddress(from);
            && (ExtractDomain(from).Failure? <==> '@' !in a)
            && ('@' in a ==> ExtractDomain(from) == Success(ToLower(Trim(Before(a[Find(a, '@').value + 1..], '@')))))
  {
  }

  /** Whenever the selected address is `local@tail`, the domain is the part of `tail`
      before any further `@`, trimmed and lower-cased. */
  lemma ExtractDomainOfSelected(from: string, local: string, tail: string)
    requires '@' !in local
    requires SelectedAddress(from) == local + "@" + tail
    ensures ExtractDomain(from) == Success(ToLower(Trim(Before(tail, '@'))))
  {
    SplitSecondPastPrefix(local, '@', tail);
  }

  /** A selected address `local@domain` without a second `@` gives its domain, trimmed and
      lower-cased. */
  lemma ExtractDomainOfSelectedPlain(from: string, local: string, domain: string)
    requires '@' !in local && '@' !in domain
    requires SelectedAddress(from) == local + "@" + domain
    ensures ExtractDomain(from) == Success(ToLower(Trim(domain)))
  {
    ExtractDomainOfSelected(from, local, domain);
    BeforeAbsent(domain, '@');
  }

  /** A selected address `local@domain` with a normalised domain gives that domain. */
  lemma ExtractDomainOfSelectedNormal(from: string, local: string, domain: string)
    requires '@' !in local && IsNormalDomain(domain)
    requires SelectedAddress(from) == local + "@" + domain
    ensures ExtractDomain(from) == Success(domain)
  {
    ExtractDomainOfSelectedPlain(from, local, domain);
    TrimOfTrimmed(domain);
    LowerIdentity(domain);
  }

  /** Text after a second `@` of the address is dropped. */
  lemma ExtractDomainStopsAtSecondAt(from: string, local: string, domain: string, rest: string)
    requires '@' !in local && '@' !in domain
    requires SelectedAddress(from) == local + "@" + domain + "@" + rest
    ensures ExtractDomain(from) == Success(ToLower(Trim(domain)))
  {
    var tail := domain + "@" + rest;
    AddressWithTail(local, domain, rest);
    BeforeSecondAt(domain, rest);
    ExtractDomainOfSelected(from, local, tail);
  }

  lemma AddressWithTail(local: string, domain: string, rest: string)
    ensures local + "@" + domain + "@" + rest == local + "@" + (domain + "@" + rest)
  {
  }

  lemma BeforeSecondAt(domain: string, rest: string)
    requires '@' !in domain
    ensures Before(domain + "@" + rest, '@') == domain
  {
    FindPastPrefix(domain, '@', rest);
  }

  /** Without a `<`, the selected address is the value with its surrounding whitespace
      dropped. */
  lemma SelectedOfPadded(pre: string, m: string, post: string)
    requires forall k :: 0 <= k < |pre| ==> IsWhitespace(pre[k])
    requires forall k :: 0 <= k < |post| ==> IsWhitespace(post[k])
    requires '<' !in pre && '<' !in m && '<' !in post
    requires m != [] && !IsWhitespace(m[0]) && !IsWhitespace(m[|m| - 1])
    ensures SelectedAddress(pre + m + post) == m
  {
    assert '<' !in pre + m + post;
    TrimOfPadded(pre, m, post);
  }

  /** Whitespace around a bare address is trimmed and the domain is lower-cased. */
  lemma ExtractDomainOfPadded(pre: string, local: string, domain: string, post: string)
    requires forall k :: 0 <= k < |pre| ==> IsWhitespace(pre[k])
    requires forall k :: 0 <= k < |post| ==> IsWhitespace(post[k])
    requires '<' !in pre && '<' !in local && '<' !in domain && '<' !in post
    requires '@' !in local && '@' !in domain
    requires local != [] && !IsWhitespace(local[0])
    requires domain != [] && !IsWhitespace(domain[|domain| - 1])
    ensures ExtractDomain(pre + local + "@" + domain + post) == Success(ToLower(Trim(domain)))
  {
    var m := local + "@" + domain;
    assert pre + local + "@" + domain + post == pre + m + post;
    assert m[0] == local[0] && m[|m| - 1] == domain[|domain| - 1];
    SelectedOfPadded(pre, m, post);
    ExtractDomainOfSelectedPlain(pre + m + post, local, domain);
  }

  /** The examples `extract_domain` is documented with: a bare address, a named address
      and a padded address with a capitalised domain. */
  lemma ExtractDomainExamples()
    ensures ExtractDomain("john@google.com") == Success("google.com")
    ensures ExtractDomain("John Doe <john@google.com>") == Success("google.com")
    ensures ExtractDomain("  jane@EXAMPLE.COM  ") == Success("example.com")
  {
    BareExample();
    NamedExample();
    PaddedExample();
  }

  lemma BareExample()
    ensures ExtractDomain("john@google.com") == Success("google.com")
  {
    assert "john" + "@" + "google.com" == "john@google.com";
    ExtractDomainOfAddress("john", "google.com");
  }

  lemma NamedExample()
    ensures ExtractDomain("John Doe <john@google.com>") == Success("google.com")
  {
    assert "John Doe " + "<" + "john" + "@" + "google.com" + ">" == "John Doe <john@google.com>";
    ExtractDomainOfNamedAddress("John Doe ", "john", "google.com");
  }

  lemma PaddedExample()
    ensures ExtractDomain("  jane@EXAMPLE.COM  ") == Success("example.com")
  {
    var d := "EXAMPLE.COM";
    PaddedExampleParts(d);
    PaddedExampleShape(d);
    ExtractDomainOfPadded("  ", "jane", d, "  ");
  }

  lemma PaddedExampleParts(d: string)
    requires d == "EXAMPLE.COM"
    ensures "  " + "jane" + "@" + d + "  " == "  jane@EXAMPLE.COM  "
    ensures ToLower(Trim(d)) == "example.com"
  {
    TrimOfTrimmed(d);
    assert ToLower(d) == "example.com";
  }

  lemma PaddedExampleShape(d: string)
    requires d == "EXAMPLE.COM"
    ensures forall k :: 0 <= k < |"  "| ==> IsWhitespace("  "[k])
    ensures '<' !in "  " && '<' !in "jane" && '<' !in d && '@' !in "jane" && '@' !in d
    ensures !IsWhitespace("jane"[0]) && d != [] && !IsWhitespace(d[|d| - 1])
  {
  }

  /** A bare address `local@domain` yields its domain. */
  lemma ExtractDomainOfAddress(local: string, domain: string)
    requires '@' !in local && '<' !in local && '<' !in domain
    requires local == [] || !IsWhitespace(local[0])
    requires domain != [] && IsNormalDomain(domain)
    ensures ExtractDomain(local + "@" + domain) == Success(domain)
  {
    var from := local + "@" + domain;
    assert from[0] == (if local == [] then '@' else local[0]);
    assert from[|from| - 1] == domain[|domain| - 1];
    TrimOfTrimmed(from);
    assert '<' !in from;
    ExtractDomainOfSelectedNormal(from, local, domain);
  }

  /** In `name <address>`, the address is selected. */
  lemma SelectedAddressOfNamed(name: string, address: string)
    requires '<' !in name && '<' !in address && '>' !in address
    ensures SelectedAddress(name + "<" + address + ">") == address
  {
    var from := name + "<" + address + ">";
    assert from == name + ['<'] + (address + ">");
    FindPastPrefix(name, '<', address + ">");
    assert from[|name| + 1..] == address + ['>'] + [];
    BeforeAbsent(address + ">", '<');
    FindPastPrefix(address, '>', []);
  }

  /** A named address `name <local@domain>` yields its domain. */
  lemma ExtractDomainOfNamedAddress(name: string, local: string, domain: string)
    requires '<' !in name
    requires '@' !in local && '<' !in local && '>' !in local
    requires '<' !in domain && '>' !in domain && domain != [] && IsNormalDomain(domain)
    ensures ExtractDomain(name + "<" + local + "@" + domain + ">") == Success(domain)
  {
    var address := local + "@" + domain;
    assert '<' !in address && '>' !in address;
    assert name + "<" + local + "@" + domain + ">" == name + "<" + address + ">";
    SelectedAddressOfNamed(name, address);
    ExtractDomainOfSelectedNormal(name + "<" + address + ">", local, domain);
  }

  lemma LowerIdentity(s: string)
    requires forall i :: 0 <= i < |s| ==> !IsAsciiUpper(s[i])
    ensures ToLower(s) == s
  {
  }

  // ---------------------------------------------------------------- the DKIM d= tag

  /** A `;`-separated part of a DKIM signature that is the `d=` tag (after trimming). */
  predicate IsDomainTag(part: string) {
    StartsWith(Trim(part), "d=")
  }

  /** The tag's value, trimmed and lower-cased. */
  function TagValue(part: string): string
    requires IsDomainTag(part)
  {
    ToLower(Trim(Trim(part)[2..]))
  }

  /** The position of the first `true` in `flags`. */
  function FirstTrue(flags: seq<bool>): (r: Option<nat>)
    ensures r.Some? ==> r.value < |flags| && flags[r.value] && forall j :: 0 <= j < r.value ==> !flags[j]
    ensures r.None? ==> forall k :: 0 <= k < |flags| ==> !flags[k]
  {
    if |flags| == 0 then None
    else if flags[0] then Some(0)
    else match FirstTrue(flags[1..])
      case None => None
      case Some(k) => Some(k + 1)
  }

  /** The position of the first `d=` tag among the parts. */
  function FirstDomainTagAt(parts: seq<string>): (r: Option<nat>)
    ensures r.Some? ==> r.value < |parts| && IsDomainTag(parts[r.value])
                        && forall j :: 0 <= j < r.value ==> !IsDomainTag(parts[j])
    ensures r.None? ==> forall k :: 0 <= k < |parts| ==> !IsDomainTag(parts[k])
  {
    var flags := seq(|parts|, i requires 0 <= i < |parts| => IsDomainTag(parts[i]));
    assert forall k :: 0 <= k < |parts| ==> flags[k] == IsDomainTag(parts[k]);
    FirstTrue(flags)
  }

  /** The value of the first `d=` tag among the parts. */
  function FirstDomainTag(parts: seq<string>): (r: Option<string>)
    ensures r.None? <==> forall k :: 0 <= k < |parts| ==> !IsDomainTag(parts[k])
    ensures r.Some? ==> exists k :: 0 <= k < |parts| && IsDomainTag(parts[k]) && r.value == TagValue(parts[k])
                                    && forall j :: 0 <= j < k ==> !IsDomainTag(parts[j])
  {
    match FirstDomainTagAt(parts)
    case None => None
    case Some(k) => Some(TagValue(parts[k]))
  }

  /** `EmailVerifier::extract_dkim_domain`: the first `d=` tag of the tag list. */
  function ExtractDkimDomain(signature: string): (r: Option<string>)
    ensures r == FirstDomainTag(Split(signature, ';'))
    ensures r.None? <==> forall k :: 0 <= k < |Split(signature, ';')| ==> !IsDomainTag(Split(signature, ';')[k])
  {
    FirstDomainTag(Split(signature, ';'))
  }

  /** A tag list written out with `;` separators gives the first `d=` tag's value. */
  lemma ExtractDkimDomainOfTags(tags: seq<string>)
    requires |tags| >= 1 && forall k :: 0 <= k < |tags| ==> ';' !in tags[k]
    ensures ExtractDkimDomain(Join(tags, ';')) == FirstDomainTag(tags)
  {
    SplitJoin(tags, ';');
  }

  // ---------------------------------------------------------------- DKIM checks

  /** The five tags `verify_dkim` looks for, as bare substrings. */
  predicate HasRequiredFields(signature: string) {
    Contains(signature, "v=") && Contains(signature, "a=") && Contains(signature, "d=")
    && Contains(signature, "s=") && Contains(signature, "b=")
  }

  function MismatchMessage(dkimDomain: string, fromDomain: string): string {
    "DKIM domain " + dkimDomain + " doesn't match From domain " + fromDomain
  }

  /** `verify_dkim` as written: the sender domain only has to end with the signing domain,
      as a string. */
  function VerifyDkimAsWritten(p: ParsedEmail): (r: Result<bool, string>)
    ensures r != Success(false)
    ensures p.dkimSignature.None? ==> r == Failure(NO_SIGNATURE)
    ensures p.dkimSignature.Some? && !HasRequiredFields(p.dkimSignature.value) ==> r == Failure(MISSING_FIELDS)
    ensures r.Success? <==> (&& p.dkimSignature.Some? && HasRequiredFields(p.dkimSignature.value)
                            && (p.dkimDomain.Some? ==> EndsWith(p.fromDomain, p.dkimDomain.value)))
  {
    var signature :- p.dkimSignature.ToResult(NO_SIGNATURE);
    if !HasRequiredFields(signature) then Failure(MISSING_FIELDS)
    else if p.dkimDomain.Some? && !EndsWith(p.fromDomain, p.dkimDomain.value) && p.dkimDomain.value != p.fromDomain then
      Failure(MismatchMessage(p.dkimDomain.value, p.fromDomain))
    else Success(true)
  }

  /** The sender domain is the signing domain or a subdomain of it, label by label
      (relaxed identifier alignment, section 3.1.1 of RFC 7489). */
  predicate Aligned(fromDomain: string, dkimDomain: string) {
    fromDomain == dkimDomain || EndsWith(fromDomain, "." + dkimDomain)
  }

  /** `verify_dkim` with the domain comparison made at a label boundary. */
  function VerifyDkim(p: ParsedEmail): (r: Result<bool, string>)
    ensures r != Success(false)
    ensures p.dkimSignature.None? ==> r == Failure(NO_SIGNATURE)
    ensures p.dkimSignature.Some? && !HasRequiredFields(p.dkimSignature.value) ==> r == Failure(MISSING_FIELDS)
    ensures r.Success? <==> (&& p.dkimSignature.Some? && HasRequiredFields(p.dkimSignature.value)
                            && (p.dkimDomain.Some? ==> Aligned(p.fromDomain, p.dkimDomain.value)))
  {
    var signature :- p.dkimSignature.ToResult(NO_SIGNATURE);
    if !HasRequiredFields(signature) then Failure(MISSING_FIELDS)
    else if p.dkimDomain.Some? && !Aligned(p.fromDomain, p.dkimDomain.value) then
      Failure(MismatchMessage(p.dkimDomain.value, p.fromDomain))
    else Success(true)
  }

  /** A signature header of the usual shape `v=..; a=..; d=..; s=..; b=..`. */
  function DkimTags(v: string, a: string, d: string, s: string, b: string): string {
    "v=" + v + ("; a=" + a + ("; d=" + d + ("; s=" + s + ("; b=" + b))))
  }

  /** A header of that shape carries every required tag, whatever the tag values. */
  lemma DkimTagsHaveRequiredFields(v: string, a: string, d: string, s: string, b: string)
    ensures HasRequiredFields(DkimTags(v, a, d, s, b))
  {
    var rd := "; d=" + d + ("; s=" + s + ("; b=" + b));
    ContainsInLeft("v=", v + ("; a=" + a + rd), "v=");
    assert DkimTags(v, a, d, s, b) == "v=" + (v + ("; a=" + a + rd));
    TagsAfterA(v, a, rd);
    TagsAfterD("v=" + v + "; a=" + a, d, s, b);
    assert DkimTags(v, a, d, s, b) == "v=" + v + "; a=" + a + rd;
  }

  lemma TagsAfterA(v: string, a: string, rd: string)
    ensures Contains("v=" + v + ("; a=" + a + rd), "a=")
  {
    ContainsInLeft("; a=", a + rd, "a=");
    assert "; a=" + a + rd == "; a=" + (a + rd);
    ContainsInRight("v=" + v, "; a=" + a + rd, "a=");
  }

  lemma TagsAfterD(x: string, d: string, s: string, b: string)
    ensures var t := x + ("; d=" + d + ("; s=" + s + ("; b=" + b)));
            Contains(t, "d=") && Contains(t, "s=") && Contains(t, "b=")
  {
    var rb := "; b=" + b;
    var rs := "; s=" + s + rb;
    ContainsInLeft("; d=", d + rs, "d=");
    assert "; d=" + d + rs == "; d=" + (d + rs);
    ContainsInRight(x, "; d=" + d + rs, "d=");
    TagsAfterS("; d=" + d, s, b);
    ContainsInRight(x, "; d=" + d + rs, "s=");
    ContainsInRight(x, "; d=" + d + rs, "b=");
  }

  lemma TagsAfterS(x: string, s: string, b: string)
    ensures var t := x + ("; s=" + s + ("; b=" + b));
            Contains(t, "s=") && Contains(t, "b=")
  {
    var rb := "; b=" + b;
    ContainsInLeft("; s=", s + rb, "s=");
    assert "; s=" + s + rb == "; s=" + (s + rb);
    ContainsInRight(x, "; s=" + s + rb, "s=");
    ContainsInLeft("; b=", b, "b=");
    ContainsInRight("; s=" + s, rb, "b=");
    ContainsInRight(x, "; s=" + s + rb, "b=");
  }

  /** What occurs in the front part of a string occurs in the string. */
  lemma ContainsInLeft(x: string, y: string, sub: string)
    requires Contains(x, sub)
    ensures Contains(x + y, sub)
  {
    ContainsIffOccurs(x, sub);
    var i :| OccursAt(x, i, sub);
    assert (x + y)[i..i + |sub|] == x[i..i + |sub|];
    assert OccursAt(x + y, i, sub);
    ContainsIffOccurs(x + y, sub);
  }

  /** What occurs in the back part of a string occurs in the string. */
  lemma ContainsInRight(x: string, y: string, sub: string)
    requires Contains(y, sub)
    ensures Contains(x + y, sub)
  {
    ContainsIffOccurs(y, sub);
    var i :| OccursAt(y, i, sub);
    assert (x + y)[|x| + i..|x| + i + |sub|] == y[i..i + |sub|];
    assert OccursAt(x + y, |x| + i, sub);
    ContainsIffOccurs(x + y, sub);
  }

  /** The discrepancy: a domain that merely ends with the signer's name, such as
      `evilgoogle.com` for a `google.com` signature, passes the check as written and is
      rejected by the aligned check, for every well-formed signature header. */
  lemma LookalikeDomainAccepted(v: string, a: string, s: string, b: string)
    ensures var p := ParsedEmail("x@evilgoogle.com", "evilgoogle.com", Some(DkimTags(v, a, "google.com", s, b)),
                                 Some("google.com"), "");
            VerifyDkimAsWritten(p) == Success(true) && VerifyDkim(p).Failure?
  {
    DkimTagsHaveRequiredFields(v, a, "google.com", s, b);
    LookalikeEndsWith();
    VerifyDkimRejectsLookalikes(
      ParsedEmail("x@evilgoogle.com", "evilgoogle.com", Some(DkimTags(v, a, "google.com", s, b)), Some("google.com"), ""),
      "evil");
  }

  lemma LookalikeEndsWith()
    ensures EndsWith("evilgoogle.com", "google.com")
  {
    assert "evilgoogle.com"[4..] == "google.com";
  }

  /** The aligned check rejects every sender domain that extends the signing domain's first
      label, whatever the rest of the email. */
  lemma VerifyDkimRejectsLookalikes(p: ParsedEmail, prefix: string)
    requires p.dkimDomain.Some?
    requires prefix != [] && prefix[|prefix| - 1] != '.'
    requires p.fromDomain == prefix + p.dkimDomain.value
    ensures VerifyDkim(p).Failure?
  {
    var d := p.dkimDomain.value;
    var k := |prefix| - 1;
    assert k == |p.fromDomain| - |"." + d|;
    assert p.fromDomain[k] == prefix[k] != '.';
    assert ("." + d)[0] == '.';
  }

  /** The aligned check accepts the signing domain's own subdomains. */
  lemma VerifyDkimAcceptsSubdomains(p: ParsedEmail, sub: string)
    requires p.dkimSignature.Some? && HasRequiredFields(p.dkimSignature.value)
    requires p.dkimDomain.Some? && p.fromDomain == sub + "." + p.dkimDomain.value
    ensures VerifyDkim(p) == Success(true)
  {
    var d := p.dkimDomain.value;
    assert p.fromDomain[|p.fromDomain| - |"." + d|..] == "." + d;
  }

  /** Whatever the aligned check accepts, the check as written accepts too. */
  lemma AlignedCheckIsStricter(p: ParsedEmail)
    ensures VerifyDkim(p).Success? ==> VerifyDkimAsWritten(p).Success?
  {
    if VerifyDkim(p).Success? && p.dkimDomain.Some? {
      var d := p.dkimDomain.value;
      if EndsWith(p.fromDomain, "." + d) {
        assert p.fromDomain[|p.fromDomain| - |d|..] == ("." + d)[1..];
      }
    }
  }

  // ---------------------------------------------------------------- the summary

  datatype EmailDomainProof = EmailDomainProof(domain: string, dkimHash: string, dkimValid: bool, verifiedAt: nat)

  /** The summary `generate_proof` builds once the DKIM verdict is known, with the clock
      reading `now` as a parameter: the hash is the hex SHA-256 of the signature's bytes. */
  function Summarise(p: ParsedEmail, sha: Sha256Fn, now: nat, dkimValid: bool): (r: EmailDomainProof)
    ensures r.dkimValid == dkimValid
    ensures r.domain == if p.dkimDomain.Some? then p.dkimDomain.value else p.fromDomain
    ensures r.dkimHash == [] <==> p.dkimSignature.None?
    ensures p.dkimSignature.Some? ==>
              |r.dkimHash| == 64 && HexDecode(r.dkimHash) == Success(sha(Utf8.Encode(p.dkimSignature.value)))
    ensures r.verifiedAt == now
  {
    var dkimHash :=
      if p.dkimSignature.Some? then
        var digest := sha(Utf8.Encode(p.dkimSignature.value));
        HexRoundTrip(digest);
        HexEncode(digest)
      else "";
    EmailDomainProof(p.dkimDomain.GetOr(p.fromDomain), dkimHash, dkimValid, now)
  }

  /** `generate_proof` as written: it never fails, and `dkim_valid` is the verdict of
      `verify_dkim` as written, an error counting as `false`. */
  function GenerateProof(p: ParsedEmail, sha: Sha256Fn, now: nat): (r: EmailDomainProof)
    ensures r.dkimValid <==> VerifyDkimAsWritten(p).Success?
    ensures r.domain == if p.dkimDomain.Some? then p.dkimDomain.value else p.fromDomain
    ensures r.dkimHash == [] <==> p.dkimSignature.None?
    ensures p.dkimSignature.Some? ==>
              |r.dkimHash| == 64 && HexDecode(r.dkimHash) == Success(sha(Utf8.Encode(p.dkimSignature.value)))
    ensures r.verifiedAt == now
  {
    Summarise(p, sha, now, VerifyDkimAsWritten(p).GetOr(false))
  }

  /** `generate_proof` with the aligned DKIM check: the same summary, with the corrected
      verdict. */
  function GenerateProofAligned(p: ParsedEmail, sha: Sha256Fn, now: nat): (r: EmailDomainProof)
    ensures r.dkimValid <==> VerifyDkim(p).Success?
    ensures r == GenerateProof(p, sha, now).(dkimValid := r.dkimValid)
  {
    Summarise(p, sha, now, VerifyDkim(p).GetOr(false))
  }

  /** The aligned summary only withdraws `dkim_valid`, and it does so for the lookalike
      sender `evilgoogle.com` under a `google.com` signature. */
  lemma AlignedSummaryIsStricter(p: ParsedEmail, sha: Sha256Fn, now: nat)
    ensures GenerateProofAligned(p, sha, now).dkimValid ==> GenerateProof(p, sha, now).dkimValid
  {
    AlignedCheckIsStricter(p);
  }

  /** The lookalike sender of the DKIM finding is reported valid by `generate_proof` as
      written and not by the aligned summary. */
  lemma LookalikeSummaryValid(v: string, a: string, s: string, b: string, sha: Sha256Fn, now: nat)
    ensures var p := ParsedEmail("x@evilgoogle.com", "evilgoogle.com", Some(DkimTags(v, a, "google.com", s, b)),
                                 Some("google.com"), "");
            GenerateProof(p, sha, now).dkimValid && !GenerateProofAligned(p, sha, now).dkimValid
  {
    LookalikeDomainAccepted(v, a, s, b);
  }

  /** `domain_to_field`: the SHA-256 of the domain's bytes, big-endian, reduced into the field. */
  function DomainToField(sha: Sha256Fn, domain: string): (r: Fr)
    ensures r as int == BeValue(sha(Utf8.Encode(domain))) % MODULUS
  {
    FromBeBytesModOrder(sha(Utf8.Encode(domain)))
  }
}

=== FILE: email_circuit.dfy ===
/** `EmailDomainCircuit`: a commitment `H(email_hash, domain_hash, dkim_hash, nonce)`
    whose domain hash and commitment are public. The input record is built from an
    address and DKIM evidence, every string is hashed with SHA-256 into the field, and
    synthesis is modelled by what it decides (see `MerkleCircuit`). */
module EmailCircuit {
  import opened Wrappers
  import opened Bytes
  import opened Field
  import opened Poseidon
  import opened Groth16
  import opened Text
  import Utf8
  import EmailEvidence

  /** `string_to_field`: SHA-256 of the UTF-8 bytes, big-endian, reduced into the field.
      It is the same map as the evidence module's `domain_to_field`. */
  function StringToField(sha: Sha256Fn, s: string): (r: Fr)
    ensures r as int == BeValue(sha(Utf8.Encode(s))) % MODULUS
    ensures r == EmailEvidence.DomainToField(sha, s)
  {
    FromBeBytesModOrder(sha(Utf8.Encode(s)))
  }

  /** `extract_domain`: the lower-cased second `@`-separated part, when there is one. */
  function ExtractDomain(email: string): (r: Option<string>)
    ensures r.None? <==> '@' !in email
    ensures r.Some? ==> r.value == ToLower(Before(email[Find(email, '@').value + 1..], '@'))
  {
    match SplitSecond(email, '@')
    case None => None
    case Some(part) => Some(ToLower(part))
  }

  /** `local@domain` yields the lower-cased domain. */
  lemma ExtractDomainOfAddress(local: string, domain: string)
    requires '@' !in local && '@' !in domain
    ensures ExtractDomain(local + "@" + domain) == Some(ToLower(domain))
  {
    assert local + "@" + domain == local + ['@'] + domain;
    SplitSecondPastPrefix(local, '@', domain);
    BeforeAbsent(domain, '@');
  }

  /** Only the text up to a second `@` is kept: `a@b@c` yields `b`. */
  lemma ExtractDomainStopsAtSecondAt(local: string, domain: string, rest: string)
    requires '@' !in local && '@' !in domain
    ensures ExtractDomain(local + "@" + domain + "@" + rest) == Some(ToLower(domain))
  {
    var email := local + "@" + domain + "@" + rest;
    assert email == local + ['@'] + (domain + ['@'] + rest);
    SplitSecondPastPrefix(local, '@', domain + ['@'] + rest);
    FindPastPrefix(domain, '@', rest);
  }

  /** For a bare address with a normalised domain, this extraction and the email evidence
      parser's extraction agree. */
  lemma ExtractionsAgree(local: string, domain: string)
    requires '@' !in local && '<' !in local && '<' !in domain
    requires local == [] || !IsWhitespace(local[0])
    requires domain != [] && EmailEvidence.IsNormalDomain(domain)
    ensures EmailEvidence.ExtractDomain(local + "@" + domain) == Success(domain)
    ensures ExtractDomain(local + "@" + domain) == Some(domain)
  {
    EmailEvidence.ExtractDomainOfAddress(local, domain);
    ExtractDomainOfAddress(local, domain);
    EmailEvidence.LowerIdentity(domain);
  }

  // ---------------------------------------------------------------- the input record

  datatype EmailProofInput = EmailProofInput(email: string, domain: string, dkimData: string, dkimVerified: bool)

  /** The verdict every entry point reads from authentication results: a case-insensitive
      search for `dkim=pass`. */
  predicate DkimPassed(authResults: string) {
    Contains(ToLower(authResults), "dkim=pass")
  }

  /** `EmailProofInput::new`. */
  function NewInput(email: string, dkimSignature: string, authResults: string): (r: EmailProofInput)
    ensures r.email == email
    ensures '@' !in email <==> r.domain == [] && ExtractDomain(email).None?
    ensures '@' in email ==> Some(r.domain) == ExtractDomain(email)
    ensures r.dkimVerified <==> DkimPassed(authResults)
    ensures StartsWith(r.dkimData, dkimSignature) && r.dkimData[|dkimSignature|..] == authResults
  {
    var domain := ExtractDomain(email).GetOr("");
    var dkimData := dkimSignature + authResults;
    assert dkimData[..|dkimSignature|] == dkimSignature;
    EmailProofInput(email, domain, dkimData, DkimPassed(authResults))
  }

  /** Lower-casing distributes over concatenation. */
  lemma ToLowerAppend(a: string, b: string)
    ensures ToLower(a + b) == ToLower(a) + ToLower(b)
  {
  }

  /** Authentication results that carry `dkim=pass` anywhere, in any letter case, pass. */
  lemma DkimPassAnywhere(before: string, verdict: string, after: string)
    requires ToLower(verdict) == "dkim=pass"
    ensures DkimPassed(before + verdict + after)
  {
    var lower := ToLower(before + verdict + after);
    ToLowerAppend(before + verdict, after);
    ToLowerAppend(before, verdict);
    assert lower == ToLower(before) + "dkim=pass" + ToLower(after);
    assert OccursAt(lower, |before|, "dkim=pass") by {
      assert lower[|before|..|before| + 9] == "dkim=pass";
    }
    ContainsIffOccurs(lower, "dkim=pass");
  }

  /** Results without the verdict do not pass. */
  lemma NoVerdictNoPass(authResults: string)
    requires |authResults| < 9
    ensures !DkimPassed(authResults)
  {
    ContainsIffOccurs(ToLower(authResults), "dkim=pass");
  }

  /** `EmailProofInput::from_domain_with_dkim`: the DKIM data is kept only when verified. */
  function FromDomainWithDkim(domain: string, dkimVerified: bool, dkimData: string): (r: EmailProofInput)
    ensures r.email == "user@" + domain && r.domain == ToLower(domain)
    ensures r.dkimVerified == dkimVerified
    ensures r.dkimVerified ==> r.dkimData == dkimData
    ensures !r.dkimVerified ==> r.dkimData == []
  {
    EmailProofInput("user@" + domain, ToLower(domain), if dkimVerified then dkimData else "", dkimVerified)
  }

  /** `EmailProofInput::from_domain`: the literal verdict `dkim=pass` stands for the data. */
  function FromDomain(domain: string, dkimVerified: bool): (r: EmailProofInput)
    ensures r.email == "user@" + domain && r.domain == ToLower(domain) && r.dkimVerified == dkimVerified
    ensures r.dkimData == if dkimVerified then "dkim=pass" else ""
  {
    FromDomainWithDkim(domain, dkimVerified, "dkim=pass")
  }

  /** The domain of an input made from a domain free of `@` is the one its synthetic address
      extracts to, so both constructors agree on it. */
  lemma FromDomainIsConsistent(domain: string, dkimVerified: bool, dkimData: string)
    requires '@' !in domain
    ensures var r := FromDomainWithDkim(domain, dkimVerified, dkimData);
            ExtractDomain(r.email) == Some(r.domain)
            && NewInput(r.email, "", "").domain == r.domain
  {
    ExtractDomainOfAddress("user", domain);
    assert "user@" + domain == "user" + "@" + domain;
  }

  // ---------------------------------------------------------------- the circuit

  datatype EmailDomainCircuit = EmailDomainCircuit(
    config: PoseidonConfig,
    emailHash: Option<Fr>,
    dkimHash: Option<Fr>,
    nonce: Option<Fr>,
    domainHash: Option<Fr>,
    commitment: Option<Fr>)

  /** The commitment of the source, with its element order: email, domain, DKIM, nonce. */
  function Commit(h: PoseidonHasher, emailHash: Fr, domainHash: Fr, dkimHash: Fr, nonce: Fr): (r: Fr)
    ensures r == h.sponge(h.config, [emailHash, domainHash, dkimHash, nonce])
  {
    HashMany(h, [emailHash, domainHash, dkimHash, nonce])
  }

  /** `EmailDomainCircuit::new_empty`: the dummy witnesses 0, 1, 2 and 3 with their commitment. */
  function NewEmpty(sponge: SpongeFn): (c: EmailDomainCircuit)
    ensures c.config == DefaultConfig()
    ensures c.emailHash == Some(0) && c.dkimHash == Some(1) && c.nonce == Some(2) && c.domainHash == Some(3)
    ensures c.commitment == Some(sponge(DefaultConfig(), [0, 3, 1, 2]))
  {
    var h := Poseidon.New(sponge);
    EmailDomainCircuit(h.config, Some(FromU64(0)), Some(FromU64(1)), Some(FromU64(2)), Some(FromU64(3)),
                       Some(Commit(h, FromU64(0), FromU64(3), FromU64(1), FromU64(2))))
  }

  /** `EmailDomainCircuit::new_with_witness`, with the 32 random nonce bytes as a parameter. */
  function NewWithWitness(input: EmailProofInput, sha: Sha256Fn, sponge: SpongeFn, nonceBytes: seq<uint8>)
    : (c: EmailDomainCircuit)
    requires |nonceBytes| == 32
    ensures c.config == DefaultConfig()
    ensures c.emailHash == Some(StringToField(sha, input.email))
    ensures c.domainHash == Some(StringToField(sha, input.domain))
    ensures c.dkimHash == Some(StringToField(sha, input.dkimData))
    ensures c.nonce == Some(FromBeBytesModOrder(nonceBytes))
    ensures c.commitment == Some(sponge(DefaultConfig(),
              [c.emailHash.value, c.domainHash.value, c.dkimHash.value, c.nonce.value]))
  {
    var h := Poseidon.New(sponge);
    var emailHash := StringToField(sha, input.email);
    var domainHash := StringToField(sha, input.domain);
    var dkimHash := StringToField(sha, input.dkimData);
    var nonce := FromBeBytesModOrder(nonceBytes);
    EmailDomainCircuit(h.config, Some(emailHash), Some(dkimHash), Some(nonce), Some(domainHash),
                       Some(Commit(h, emailHash, domainHash, dkimHash, nonce)))
  }

  /** `get_domain_hash` and `get_commitment`. */
  function PublicInputs(c: EmailDomainCircuit): (r: Option<seq<Fr>>)
    ensures r.Some? <==> c.domainHash.Some? && c.commitment.Some?
    ensures r.Some? ==> |r.value| == 2 && r.value[0] == c.domainHash.value && r.value[1] == c.commitment.value
  {
    if c.domainHash.Some? && c.commitment.Some? then Some([c.domainHash.value, c.commitment.value]) else None
  }

  /** `poseidon_hash_four`: the gadget absorbs its four arguments one by one and squeezes one. */
  function HashFour(h: PoseidonHasher, a: Fr, b: Fr, c: Fr, d: Fr): Fr {
    SqueezeOne(h, Absorb(Absorb(Absorb(Absorb(Sponge(h.config, []), a), b), c), d))
  }

  /** The gadget computes the native commitment. */
  lemma HashFourIsCommit(h: PoseidonHasher, a: Fr, b: Fr, c: Fr, d: Fr)
    ensures HashFour(h, a, b, c, d) == Commit(h, a, b, c, d)
  {
    assert [] + [a] + [b] + [c] + [d] == [a, b, c, d];
  }

  /** The constraint structure every email circuit shares: three witnesses, two inputs,
      one four-element sponge and one equality. */
  const EMAIL_SHAPE: seq<nat> := [3, 2]

  /** `generate_constraints`: a missing value aborts; otherwise the public inputs are the
      domain hash and the commitment, and the system holds iff the commitment recomputes. */
  function Synthesize(c: EmailDomainCircuit, sponge: SpongeFn): (r: Result<ConstraintSystem, SynthesisError>)
    ensures r.Failure? <==> (|| c.emailHash.None? || c.dkimHash.None? || c.nonce.None?
                            || c.domainHash.None? || c.commitment.None?)
    ensures r.Failure? ==> r.error == AssignmentMissing
    ensures r.Success? ==> r.value.publicInputs == PublicInputs(c).value
    ensures r.Success? ==> r.value.shape == EMAIL_SHAPE && r.value.config == c.config
    ensures r.Success? ==> (r.value.satisfied <==>
      sponge(c.config, [c.emailHash.value, c.domainHash.value, c.dkimHash.value, c.nonce.value]) == c.commitment.value)
  {
    var emailHash :- c.emailHash.ToResult(AssignmentMissing);
    var dkimHash :- c.dkimHash.ToResult(AssignmentMissing);
    var nonce :- c.nonce.ToResult(AssignmentMissing);
    var domainHash :- c.domainHash.ToResult(AssignmentMissing);
    var commitment :- c.commitment.ToResult(AssignmentMissing);
    var h := PoseidonHasher(c.config, sponge);
    HashFourIsCommit(h, emailHash, domainHash, dkimHash, nonce);
    var computed := HashFour(h, emailHash, domainHash, dkimHash, nonce);
    Success(ConstraintSystem(EMAIL_SHAPE, c.config, [domainHash, commitment], computed == commitment))
  }

  /** The setup circuit synthesises and is satisfied, with the shared shape. */
  lemma NewEmptySatisfied(sponge: SpongeFn)
    ensures var r := Synthesize(NewEmpty(sponge), sponge);
            && r.Success? && r.value.satisfied
            && r.value.shape == EMAIL_SHAPE && r.value.config == DefaultConfig()
  {
  }

  /** Every witness circuit synthesises and is satisfied, with the shape of the setup circuit,
      and its public inputs are the domain's hash and the commitment. */
  lemma NewWithWitnessSatisfied(input: EmailProofInput, sha: Sha256Fn, sponge: SpongeFn, nonceBytes: seq<uint8>)
    requires |nonceBytes| == 32
    ensures var c := NewWithWitness(input, sha, sponge, nonceBytes);
            var r := Synthesize(c, sponge);
            && r.Success? && r.value.satisfied
            && r.value.shape == EMAIL_SHAPE && r.value.config == DefaultConfig()
            && r.value.publicInputs == [StringToField(sha, input.domain), c.commitment.value]
  {
  }

  /** The public domain hash depends on the domain alone: inputs for the same domain, with
      any address, DKIM data or nonce, expose the same first public input. */
  lemma SameDomainSameHash(a: EmailProofInput, b: EmailProofInput, sha: Sha256Fn, sponge: SpongeFn,
                           nonceA: seq<uint8>, nonceB: seq<uint8>)
    requires |nonceA| == 32 && |nonceB| == 32
    requires a.domain == b.domain
    ensures Synthesize(NewWithWitness(a, sha, sponge, nonceA), sponge).value.publicInputs[0]
         == Synthesize(NewWithWitness(b, sha, sponge, nonceB), sponge).value.publicInputs[0]
  {
    NewWithWitnessSatisfied(a, sha, sponge, nonceA);
    NewWithWitnessSatisfied(b, sha, sponge, nonceB);
  }

  /** Domains that differ only in letter case give inputs with the same domain hash. */
  lemma DomainCaseIgnored(d1: string, d2: string, v: bool)
    requires ToLower(d1) == ToLower(d2)
    ensures FromDomain(d1, v).domain == FromDomain(d2, v).domain
  {
  }
}

=== FILE: field.dfy ===
/** The BN254 scalar field `ark_bn254::Fr`, concretely: integers modulo the
    group order, with the conversions the core uses (`Fr::from(u64)`,
    `from_be_bytes_mod_order`) and inversion by the extended Euclidean algorithm. */
module Field {
  import opened Wrappers
  import opened Bytes

  /** The order of the BN254 scalar field. */
  const MODULUS: int := 21888242871839275222246405745257275088548364400416034343698204186808495617

  newtype Fr = x: int | 0 <= x < 21888242871839275222246405745257275088548364400416034343698204186808495617

  const ZERO: Fr := 0
  const ONE: Fr := 1

  /** `Fr::from(x: u64)`: every `u64` is already below the modulus. */
  function FromU64(x: int): (r: Fr)
    requires 0 <= x < U64_LIMIT
    ensures r as int == x
  {
    x as Fr
  }

  function Add(a: Fr, b: Fr): (r: Fr)
    ensures r as int == (a as int + b as int) % MODULUS
  {
    ((a as int + b as int) % MODULUS) as Fr
  }

  function Mul(a: Fr, b: Fr): (r: Fr)
    ensures r as int == (a as int * b as int) % MODULUS
  {
    ((a as int * b as int) % MODULUS) as Fr
  }

  /** Big-endian value of a byte string. */
  function BeValue(b: seq<uint8>): nat
  {
    if |b| == 0 then 0 else BeValue(b[..|b| - 1]) * 256 + b[|b| - 1] as nat
  }

  /** `Fr::from_be_bytes_mod_order`: the big-endian value reduced modulo the field order. */
  function FromBeBytesModOrder(b: seq<uint8>): (r: Fr)
    ensures r as int == BeValue(b) % MODULUS
  {
    (BeValue(b) % MODULUS) as Fr
  }

  // ---------------------------------------------------------------- inversion

  lemma MulAtLeast(d: int, t: int)
    requires d > 0 && t >= 1
    ensures d * t >= d
  {
    assert d * t == d + d * (t - 1);
  }

  /** Euclidean remainder is determined by any quotient/remainder split. */
  lemma ModUnique(a: int, d: int, q: int, r: int)
    requires d > 0 && 0 <= r < d && a == d * q + r
    ensures a % d == r
  {
    var q', r' := a / d, a % d;
    assert a == d * q' + r';
    assert d * (q - q') == r' - r;
    if q - q' >= 1 {
      MulAtLeast(d, q - q');
    } else if q' - q >= 1 {
      MulAtLeast(d, q' - q);
    }
  }

  lemma MultipleMod(d: int, k: int)
    requires d > 0
    ensures (d * k) % d == 0
  {
    ModUnique(d * k, d, k, 0);
  }

  /** Adding a multiple of `d` does not change the remainder. */
  lemma ModShift(x: int, d: int, k: int)
    requires d > 0
    ensures (x + d * k) % d == x % d
  {
    assert x == d * (x / d) + x % d;
    assert x + d * k == d * (x / d + k) + x % d;
    ModUnique(x + d * k, d, x / d + k, x % d);
  }

  /** Reducing a factor first does not change the remainder of a product. */
  lemma ModMulLeft(a: int, b: int, d: int)
    requires d > 0
    ensures ((a % d) * b) % d == (a * b) % d
  {
    var q, r := a / d, a % d;
    assert a == d * q + r;
    assert a * b == r * b + d * (q * b);
    ModShift(r * b, d, q * b);
  }

  lemma SumOfMultiples(d: int, a: int, b: int, q: int)
    requires d > 0 && a % d == 0 && b % d == 0
    ensures (q * a + b) % d == 0
  {
    var ka, kb := a / d, b / d;
    assert a == d * ka;
    assert b == d * kb;
    assert q * a + b == d * (q * ka + kb);
    MultipleMod(d, q * ka + kb);
  }

  /** Extended Euclid: a gcd `g` of `a` and `b` with Bezout coefficients. */
  function ExtGcd(a: nat, b: nat): (r: (nat, int, int))
    requires a > 0
    ensures r.0 > 0
    ensures a * r.1 + b * r.2 == r.0
    ensures a % r.0 == 0 && b % r.0 == 0
    decreases b
  {
    if b == 0 then (a, 1, 0)
    else
      var (g, x, y) := ExtGcd(b, a % b);
      EuclidStep(a, b, g, x, y);
      (g, y, x - (a / b) * y)
  }

  lemma EuclidStep(a: nat, b: nat, g: nat, x: int, y: int)
    requires b > 0 && g > 0
    requires b * x + (a % b) * y == g
    requires b % g == 0 && (a % b) % g == 0
    ensures a * y + b * (x - (a / b) * y) == g
    ensures a % g == 0
  {
    var q, r := a / b, a % b;
    assert a == q * b + r;
    assert a * y + b * (x - q * y) == b * x + r * y by {
      assert a * y == q * b * y + r * y;
      assert b * (x - q * y) == b * x - q * b * y;
    }
    SumOfMultiples(g, b, r, q);
  }

  /** A Bezout identity with gcd 1 gives an inverse modulo `m`. */
  lemma BezoutInverse(a: int, m: int, x: int, y: int)
    requires m > 1
    requires a * x + m * y == 1
    ensures (a * (x % m)) % m == 1
  {
    var q := x / m;
    var r := x % m;
    assert x == m * q + r;
    assert a * x == a * (m * q) + a * r;
    assert a * (m * q) == m * (a * q);
    assert a * r == m * (-y - a * q) + 1;
    ModUnique(a * r, m, -y - a * q, 1);
  }

  /** When `g` divides `a` and `m` and `a` has an inverse modulo `m`, `g` is 1. */
  lemma CommonDivisorOfUnit(a: int, m: int, g: int, y: int)
    requires m > 1 && g > 0
    requires a % g == 0 && m % g == 0
    requires (a * y) % m == 1
    ensures g == 1
  {
    var q := (a * y) / m;
    assert a * y == q * m + 1;
    var ka, km := a / g, m / g;
    assert a == g * ka && m == g * km;
    var t := ka * y - q * km;
    assert 1 == g * t;
    if t >= 1 {
      MulAtLeast(g, t);
    } else {
      MulNonPositive(g, t);
    }
  }

  lemma MulNonPositive(d: int, t: int)
    requires d > 0 && t <= 0
    ensures d * t <= 0
  {
  }

  /** `Field::inverse`: `None` exactly when `a` has no multiplicative inverse. */
  function Inverse(a: Fr): (r: Option<Fr>)
    ensures r.Some? ==> Mul(a, r.value) == ONE
    ensures r.None? ==> forall y: Fr :: Mul(a, y) != ONE
  {
    var (g, x, y) := ExtGcd(MODULUS, a as nat);
    if g == 1 then
      BezoutInverse(a as int, MODULUS, y, x);
      Some((y % MODULUS) as Fr)
    else
      NoInverse(a, g);
      None
  }

  lemma NoInverse(a: Fr, g: nat)
    requires g > 1 && MODULUS % g == 0 && (a as int) % g == 0
    ensures forall y: Fr :: Mul(a, y) != ONE
  {
    forall y: Fr
      ensures Mul(a, y) != ONE
    {
      if Mul(a, y) == ONE {
        CommonDivisorOfUnit(a as int, MODULUS, g, y as int);
      }
    }
  }
}

=== FILE: groth16.dfy ===
/** The proving system as the core sees it: circuits are synthesised into a
    constraint system, and the Groth16 library (`ark_groth16`) and the ark
    compressed serialisation are parameters whose behaviour is known only
    through the laws stated here. Keys and proofs are abstract types. */
module Groth16 {
  import opened Wrappers
  import opened Bytes
  import opened Field
  import opened Poseidon

  type ProvingKey(==, !new)
  type VerifyingKey(==, !new)
  type PreparedVerifyingKey(==, !new)
  type Proof(==, !new)

  // ---------------------------------------------------------------- synthesis

  /** `SynthesisError::AssignmentMissing`, the only error the circuits raise themselves. */
  datatype SynthesisError = AssignmentMissing

  /** What synthesising a circuit yields: a fingerprint of its constraint structure,
      the Poseidon parameters baked into its hash gadgets, the public inputs in
      allocation order, and whether every constraint holds. */
  datatype ConstraintSystem = ConstraintSystem(
    shape: seq<nat>,
    config: PoseidonConfig,
    publicInputs: seq<Fr>,
    satisfied: bool)

  /** Every optional witness of the list has a value. */
  predicate AllAssigned<T>(xs: seq<Option<T>>) {
    forall i :: 0 <= i < |xs| ==> xs[i].Some?
  }

  function Values<T>(xs: seq<Option<T>>): (r: seq<T>)
    requires AllAssigned(xs)
    ensures |r| == |xs| && forall i :: 0 <= i < |xs| ==> xs[i] == Some(r[i])
  {
    seq(|xs|, i requires 0 <= i < |xs| => xs[i].value)
  }

  /** Wraps each value as an assigned witness (`.map(Some)`). */
  function Assigned<T>(xs: seq<T>): (r: seq<Option<T>>)
    ensures |r| == |xs| && AllAssigned(r)
  {
    seq(|xs|, i requires 0 <= i < |xs| => Some(xs[i]))
  }

  /** Unwrapping assigned witnesses gives back the values. */
  lemma ValuesOfAssigned<T>(xs: seq<T>)
    ensures Values(Assigned(xs)) == xs
  {
  }

  // ---------------------------------------------------------------- the library

  /** Groth16 over BN254 for circuits of type `C`. Library errors are kept as their
      debug text. Seeds stand for the random generators the callers create. */
  datatype Snark<!C> = Snark(
    setup: (C, nat) -> Result<(ProvingKey, VerifyingKey), string>,
    prove: (ProvingKey, C, nat) -> Result<Proof, string>,
    processVk: VerifyingKey -> PreparedVerifyingKey,
    verify: (PreparedVerifyingKey, seq<Fr>, Proof) -> Result<bool, string>)

  /** Completeness for one setup and one proof: keys made from `setupCircuit`, and a
      proof of a satisfied circuit with the same constraint structure, verify against
      its public inputs. */
  ghost predicate Completes<C>(snark: Snark<C>, synth: C -> Result<ConstraintSystem, SynthesisError>,
                               setupCircuit: C, setupSeed: nat, circuit: C, proveSeed: nat)
  {
    var keys := snark.setup(setupCircuit, setupSeed);
    keys.Success? && synth(setupCircuit).Success? && synth(circuit).Success?
    && synth(circuit).value.satisfied
    && synth(setupCircuit).value.shape == synth(circuit).value.shape
    && synth(setupCircuit).value.config == synth(circuit).value.config
    && snark.prove(keys.value.0, circuit, proveSeed).Success?
    ==> snark.verify(snark.processVk(keys.value.1), synth(circuit).value.publicInputs,
                     snark.prove(keys.value.0, circuit, proveSeed).value) == Success(true)
  }

  /** The completeness law of Groth16, relative to a circuit's synthesis. */
  ghost predicate Complete<C(!new)>(snark: Snark<C>, synth: C -> Result<ConstraintSystem, SynthesisError>) {
    forall setupCircuit, setupSeed, circuit, proveSeed ::
      Completes(snark, synth, setupCircuit, setupSeed, circuit, proveSeed)
  }

  /** `circuit` is a satisfied instance, with the constraint structure of `setupCircuit`,
      whose public inputs are exactly `inputs`. */
  ghost predicate Witnesses<C>(synth: C -> Result<ConstraintSystem, SynthesisError>,
                               setupCircuit: C, circuit: C, inputs: seq<Fr>)
  {
    && synth(setupCircuit).Success? && synth(circuit).Success?
    && synth(circuit).value.satisfied
    && synth(circuit).value.shape == synth(setupCircuit).value.shape
    && synth(circuit).value.config == synth(setupCircuit).value.config
    && synth(circuit).value.publicInputs == inputs
  }

  /** A proof is accepted against the prepared key of a setup. */
  ghost predicate Accepts<C>(snark: Snark<C>, setupCircuit: C, setupSeed: nat, inputs: seq<Fr>, proof: Proof) {
    var keys := snark.setup(setupCircuit, setupSeed);
    keys.Success? && snark.verify(snark.processVk(keys.value.1), inputs, proof) == Success(true)
  }

  /** The knowledge soundness of Groth16, idealised (no negligible error): only the public
      inputs of some satisfied circuit of the setup's structure are ever accepted. */
  ghost predicate Sound<C(!new)>(snark: Snark<C>, synth: C -> Result<ConstraintSystem, SynthesisError>) {
    forall setupCircuit, setupSeed, inputs, proof {:trigger Accepts(snark, setupCircuit, setupSeed, inputs, proof)} ::
      Accepts(snark, setupCircuit, setupSeed, inputs, proof) ==>
        exists circuit :: Witnesses(synth, setupCircuit, circuit, inputs)
  }

  // ---------------------------------------------------------------- serialisation

  /** ark's compressed `CanonicalSerialize` / `CanonicalDeserialize`. Decoding reads a
      prefix of its input, so trailing bytes are allowed. */
  datatype Codec = Codec(
    proofToBytes: Proof -> seq<uint8>,
    proofFromBytes: seq<uint8> -> Result<Proof, string>,
    frToBytes: Fr -> seq<uint8>,
    frFromBytes: seq<uint8> -> Result<Fr, string>,
    pkToBytes: ProvingKey -> Result<seq<uint8>, string>,
    pkFromBytes: seq<uint8> -> Result<ProvingKey, string>)

  /** The round-trip laws of the serialisers. */
  ghost predicate CodecLaws(c: Codec) {
    && (forall p, rest :: c.proofFromBytes(c.proofToBytes(p) + rest) == Success(p))
    && (forall x, rest :: c.frFromBytes(c.frToBytes(x) + rest) == Success(x))
    && (forall pk, b :: c.pkToBytes(pk) == Success(b) ==> c.pkFromBytes(b) == Success(pk))
  }

  /** Under the laws, encoding a field element loses nothing. */
  lemma FrEncodingInjective(c: Codec, x: Fr, y: Fr)
    requires CodecLaws(c)
    requires c.frToBytes(x) == c.frToBytes(y)
    ensures x == y
  {
    assert c.frToBytes(x) + [] == c.frToBytes(x);
    assert c.frToBytes(y) + [] == c.frToBytes(y);
  }
}

=== FILE: hex.dfy ===
/** The `hex` crate: `hex::encode` writes two lower-case digits per byte, and
    `hex::decode` reads the UTF-8 bytes of its argument two at a time, so its error
    positions count bytes and a rejected non-ASCII character is reported by its first
    byte read as a Latin-1 character. */
module Hex {
  import opened Wrappers
  import opened Bytes
  import Utf8

  const HEX_DIGITS: string := "0123456789abcdef"

  datatype HexError = OddLength | InvalidHexCharacter(c: char, index: nat)

  /** Value of one hex digit; both letter cases are accepted, as by `hex::decode`. */
  function HexValue(c: char): (r: Option<nat>)
    ensures r.Some? ==> r.value < 16
    ensures r.Some? <==> ('0' <= c <= '9' || 'a' <= c <= 'f' || 'A' <= c <= 'F')
  {
    if '0' <= c <= '9' then Some(c as int - '0' as int)
    else if 'a' <= c <= 'f' then Some(c as int - 'a' as int + 10)
    else if 'A' <= c <= 'F' then Some(c as int - 'A' as int + 10)
    else None
  }

  lemma HexValueOfDigit(n: nat)
    requires n < 16
    ensures HexValue(HEX_DIGITS[n]) == Some(n)
  {
  }

  /** A byte read as the character of the same code (`byte as char`). */
  function ByteChar(x: uint8): char {
    (x as int) as char
  }

  /** The byte is the code of a hex digit of either case. */
  predicate IsHexByte(x: uint8) {
    0x30 <= x <= 0x39 || 0x61 <= x <= 0x66 || 0x41 <= x <= 0x46
  }

  /** The value of a digit byte. */
  function DigitValue(x: uint8): (v: nat)
    requires IsHexByte(x)
    ensures v < 16
  {
    if x <= 0x39 then x as int - 0x30 else if x >= 0x61 then x as int - 0x61 + 10 else x as int - 0x41 + 10
  }

  /** Reading a byte as a character, the digit bytes are exactly the hex digits, with the
      same values. */
  lemma DigitByteIsHexValue(x: uint8)
    ensures IsHexByte(x) <==> HexValue(ByteChar(x)).Some?
    ensures IsHexByte(x) ==> HexValue(ByteChar(x)) == Some(DigitValue(x))
  {
  }

  /** The byte two hex digits spell, high digit first. */
  function PairValue(hi: uint8, lo: uint8): uint8
    requires IsHexByte(hi) && IsHexByte(lo)
  {
    (16 * DigitValue(hi) + DigitValue(lo)) as uint8
  }

  /** `hex::encode`: two lower-case digits per byte, high nibble first. */
  function HexEncode(b: seq<uint8>): (s: string)
    ensures |s| == 2 * |b|
  {
    if |b| == 0 then ""
    else [HEX_DIGITS[b[0] as int / 16], HEX_DIGITS[b[0] as int % 16]] + HexEncode(b[1..])
  }

  /** The pairs of `hex::decode` from byte `offset` on: the first byte that is not a digit
      is reported with its position; otherwise every pair gives one byte. */
  function DecodePairs(b: seq<uint8>, offset: nat): (r: Result<seq<uint8>, HexError>)
    requires |b| % 2 == 0
    ensures r.Success? ==> 2 * |r.value| == |b|
    ensures r.Success? ==> forall i :: 0 <= i < |b| ==> IsHexByte(b[i])
    ensures r.Success? ==> forall i :: 0 <= i < |r.value| ==> r.value[i] == PairValue(b[2 * i], b[2 * i + 1])
    ensures r.Failure? ==> && r.error.InvalidHexCharacter?
                           && offset <= r.error.index < offset + |b|
                           && !IsHexByte(b[r.error.index - offset])
                           && r.error.c == ByteChar(b[r.error.index - offset])
                           && forall j :: 0 <= j < r.error.index - offset ==> IsHexByte(b[j])
    decreases |b|
  {
    if |b| == 0 then Success([])
    else if !IsHexByte(b[0]) then Failure(InvalidHexCharacter(ByteChar(b[0]), offset))
    else if !IsHexByte(b[1]) then Failure(InvalidHexCharacter(ByteChar(b[1]), offset + 1))
    else
      match DecodePairs(b[2..], offset + 2)
      case Failure(e) =>
        FailureAfterPair(b, offset, e);
        Failure(e)
      case Success(rest) =>
        PrependPair(b, rest);
        Success([PairValue(b[0], b[1])] + rest)
  }

  /** The success facts of the rest of the bytes carry over to the whole, one pair in front. */
  lemma PrependPair(b: seq<uint8>, rest: seq<uint8>)
    requires |b| >= 2 && IsHexByte(b[0]) && IsHexByte(b[1]) && 2 * |rest| == |b| - 2
    requires forall i :: 0 <= i < |b[2..]| ==> IsHexByte(b[2..][i])
    requires forall i :: 0 <= i < |rest| ==> rest[i] == PairValue(b[2..][2 * i], b[2..][2 * i + 1])
    ensures forall i :: 0 <= i < |b| ==> IsHexByte(b[i])
    ensures var r := [PairValue(b[0], b[1])] + rest;
            forall i :: 0 <= i < |r| ==> r[i] == PairValue(b[2 * i], b[2 * i + 1])
  {
    assert forall i :: 2 <= i < |b| ==> b[i] == b[2..][i - 2];
    var r := [PairValue(b[0], b[1])] + rest;
    forall i | 1 <= i < |r|
      ensures r[i] == PairValue(b[2 * i], b[2 * i + 1])
    {
      assert r[i] == rest[i - 1];
      assert b[2..][2 * (i - 1)] == b[2 * i] && b[2..][2 * (i - 1) + 1] == b[2 * i + 1];
    }
  }

  /** An error found past the first pair, at its position in the whole, still is the first
      byte that is not a digit. */
  lemma FailureAfterPair(b: seq<uint8>, offset: nat, e: HexError)
    requires |b| >= 2 && IsHexByte(b[0]) && IsHexByte(b[1])
    requires e.InvalidHexCharacter? && offset + 2 <= e.index < offset + |b|
    requires !IsHexByte(b[2..][e.index - (offset + 2)]) && e.c == ByteChar(b[2..][e.index - (offset + 2)])
    requires forall j :: 0 <= j < e.index - (offset + 2) ==> IsHexByte(b[2..][j])
    ensures !IsHexByte(b[e.index - offset]) && e.c == ByteChar(b[e.index - offset])
    ensures forall j :: 0 <= j < e.index - offset ==> IsHexByte(b[j])
  {
    assert forall j :: 2 <= j < |b| ==> b[j] == b[2..][j - 2];
  }

  /** `hex::decode` on bytes: odd length first, then the first byte that is not a digit. */
  function DecodeBytes(b: seq<uint8>): (r: Result<seq<uint8>, HexError>)
    ensures |b| % 2 == 1 <==> r == Failure(OddLength)
    ensures r.Success? ==> 2 * |r.value| == |b| && forall i :: 0 <= i < |b| ==> IsHexByte(b[i])
    ensures r.Success? ==> forall i :: 0 <= i < |r.value| ==> r.value[i] == PairValue(b[2 * i], b[2 * i + 1])
    ensures r.Failure? && |b| % 2 == 0 ==> && r.error.InvalidHexCharacter? && r.error.index < |b|
                                           && !IsHexByte(b[r.error.index])
                                           && r.error.c == ByteChar(b[r.error.index])
                                           && forall j :: 0 <= j < r.error.index ==> IsHexByte(b[j])
  {
    if |b| % 2 == 1 then Failure(OddLength) else DecodePairs(b, 0)
  }

  /** `hex::decode(s)` on a string: the decoder sees `s.as_bytes()`. */
  function HexDecode(s: string): (r: Result<seq<uint8>, HexError>)
    ensures r == DecodeBytes(Utf8.Encode(s))
    ensures r.Success? ==> Utf8.IsAscii(s) && 2 * |r.value| == |s|
  {
    var r := DecodeBytes(Utf8.Encode(s));
    if r.Success? then
      EverySuccessIsAscii(s);
      r
    else r
  }

  /** The encoding of a non-ASCII character starts with a byte of `0x80` or more. */
  lemma EncodedNonAscii(s: string, k: nat) returns (i: nat)
    requires k < |s| && s[k] as int >= 0x80
    ensures i < |Utf8.Encode(s)| && Utf8.Encode(s)[i] as int >= 0x80
  {
    Utf8.EncodeAppend(s[..k], s[k..]);
    assert s == s[..k] + s[k..];
    Utf8.EncodeAppend([s[k]], s[k + 1..]);
    assert s[k..] == [s[k]] + s[k + 1..];
    assert Utf8.Encode([s[k]]) == Utf8.EncodeChar(s[k]) + Utf8.Encode([]);
    i := |Utf8.Encode(s[..k])|;
    assert Utf8.Encode(s)[i] == Utf8.EncodeChar(s[k])[0];
  }

  /** A string whose bytes all are hex digits is ASCII, one byte per character. */
  lemma EverySuccessIsAscii(s: string)
    requires forall i :: 0 <= i < |Utf8.Encode(s)| ==> IsHexByte(Utf8.Encode(s)[i])
    ensures Utf8.IsAscii(s) && |Utf8.Encode(s)| == |s|
  {
    forall k | 0 <= k < |s|
      ensures s[k] as int < 0x80
    {
      if s[k] as int >= 0x80 {
        var i := EncodedNonAscii(s, k);
        assert false;
      }
    }
    Utf8.EncodeAscii(s);
  }

  /** A decoded string is ASCII, so its n-th character is its n-th byte: an error's index
      counts characters as well as bytes exactly when the string is ASCII. */
  lemma AsciiErrorIndexIsCharIndex(s: string)
    requires Utf8.IsAscii(s)
    requires HexDecode(s).Failure? && HexDecode(s).error.InvalidHexCharacter?
    ensures HexDecode(s).error.index < |s|
    ensures HexDecode(s).error.c == s[HexDecode(s).error.index]
  {
    Utf8.EncodeAscii(s);
  }

  /** `é` is two bytes, `0xC3 0xA9`: an even number, so the decoder reports its first byte
      as the character `Ã` at byte 0, where a reading by characters would see odd length. */
  lemma TwoByteCharacter()
    ensures HexDecode("é") == Failure(InvalidHexCharacter('Ã', 0))
  {
    assert Utf8.Encode("é") == Utf8.EncodeChar('é') + Utf8.Encode([]);
    assert Utf8.EncodeChar('é') == [0xC3 as uint8, 0xA9 as uint8];
  }

  /** The digits `HexEncode` writes: ASCII hex digits, those of byte `i` at `2i` and `2i+1`. */
  lemma {:induction false} HexEncodeDigits(b: seq<uint8>)
    ensures forall k :: 0 <= k < |HexEncode(b)| ==> HexValue(HexEncode(b)[k]).Some? && HexEncode(b)[k] as int < 0x80
    ensures forall i :: 0 <= i < |b| ==>
              HexEncode(b)[2 * i] == HEX_DIGITS[b[i] as int / 16] && HexEncode(b)[2 * i + 1] == HEX_DIGITS[b[i] as int % 16]
    decreases |b|
  {
    if |b| > 0 {
      var s, rest := HexEncode(b), HexEncode(b[1..]);
      HexEncodeDigits(b[1..]);
      HexValueOfDigit(b[0] as int / 16);
      HexValueOfDigit(b[0] as int % 16);
      forall k | 2 <= k < |s|
        ensures HexValue(s[k]).Some? && s[k] as int < 0x80
      {
        assert s[k] == rest[k - 2];
      }
      forall i | 1 <= i < |b|
        ensures s[2 * i] == HEX_DIGITS[b[i] as int / 16] && s[2 * i + 1] == HEX_DIGITS[b[i] as int % 16]
      {
        assert b[1..][i - 1] == b[i];
        assert s[2 * i] == rest[2 * (i - 1)];
        assert s[2 * i + 1] == rest[2 * (i - 1) + 1];
      }
    }
  }

  /** The UTF-8 bytes of an encoded string are its digits' codes, two per byte. */
  lemma EncodedBytes(b: seq<uint8>)
    ensures |Utf8.Encode(HexEncode(b))| == 2 * |b|
    ensures forall k :: 0 <= k < |Utf8.Encode(HexEncode(b))| ==> IsHexByte(Utf8.Encode(HexEncode(b))[k])
    ensures forall i :: 0 <= i < |b| ==>
              && ByteChar(Utf8.Encode(HexEncode(b))[2 * i]) == HEX_DIGITS[b[i] as int / 16]
              && ByteChar(Utf8.Encode(HexEncode(b))[2 * i + 1]) == HEX_DIGITS[b[i] as int % 16]
  {
    var s := HexEncode(b);
    HexEncodeDigits(b);
    Utf8.EncodeAscii(s);
    var e := Utf8.Encode(s);
    forall k | 0 <= k < |e|
      ensures ByteChar(e[k]) == s[k] && IsHexByte(e[k])
    {
      DigitByteIsHexValue(e[k]);
    }
  }

  /** Decoding what `HexEncode` produced gives back the bytes. */
  lemma HexRoundTrip(b: seq<uint8>)
    ensures HexDecode(HexEncode(b)) == Success(b)
  {
    EncodedBytes(b);
    DecodeDigits(Utf8.Encode(HexEncode(b)), b);
  }

  /** Bytes holding the digits of `b`, high then low, decode to `b`. */
  lemma DecodeDigits(e: seq<uint8>, b: seq<uint8>)
    requires |e| == 2 * |b|
    requires forall k :: 0 <= k < |e| ==> IsHexByte(e[k])
    requires forall i :: 0 <= i < |b| ==>
               ByteChar(e[2 * i]) == HEX_DIGITS[b[i] as int / 16] && ByteChar(e[2 * i + 1]) == HEX_DIGITS[b[i] as int % 16]
    ensures DecodeBytes(e) == Success(b)
  {
    NoInvalidByte(e);
    var r := DecodeBytes(e);
    forall i | 0 <= i < |b|
      ensures r.value[i] == b[i]
    {
      PairOfDigits(e[2 * i], e[2 * i + 1], b[i]);
    }
    assert r.value == b;
  }

  lemma PairOfDigits(hi: uint8, lo: uint8, x: uint8)
    requires ByteChar(hi) == HEX_DIGITS[x as int / 16] && ByteChar(lo) == HEX_DIGITS[x as int % 16]
    ensures IsHexByte(hi) && IsHexByte(lo) && PairValue(hi, lo) == x
  {
    DigitByteIsHexValue(hi);
    DigitByteIsHexValue(lo);
    HexValueOfDigit(x as int / 16);
    HexValueOfDigit(x as int % 16);
  }

  /** Even length and only digits: decoding succeeds. */
  lemma NoInvalidByte(e: seq<uint8>)
    requires |e| % 2 == 0 && forall k :: 0 <= k < |e| ==> IsHexByte(e[k])
    ensures DecodeBytes(e).Success?
  {
  }
}

=== FILE: location.dfy ===
/** `COUNTRIES`: the approximate bounding boxes of the supported countries, in table
    order, and the two first-match lookups over them (by an upper-case code and by a
    point). Bounds are the table's decimal literals read as exact reals. */
module Location {
  import opened Wrappers
  import opened Text

  /** `CountryBounds`: a code, a display name and an inclusive latitude/longitude box. */
  datatype CountryBounds = CountryBounds(code: string, name: string,
                                         minLat: real, maxLat: real, minLng: real, maxLng: real)

  const COUNTRIES: seq<CountryBounds> := [
    CountryBounds("US", "United States", 24.396308, 49.384358, -125.0, -66.93457),
    CountryBounds("GB", "United Kingdom", 49.674, 61.061, -14.015517, 2.0919117),
    CountryBounds("CA", "Canada", 41.6751050889, 83.23324, -141.0, -52.6480987209),
    CountryBounds("AU", "Australia", -43.6345972634, -10.6681857235, 113.338953078, 153.569469029),
    CountryBounds("DE", "Germany", 47.2701114, 55.0815, 5.8663425, 15.0419319),
    CountryBounds("FR", "France", 41.3658, 51.124199, -5.5591, 9.6625),
    CountryBounds("JP", "Japan", 24.396308, 45.551483, 122.93457, 153.986672),
    CountryBounds("IN", "India", 6.5546079, 35.6745457, 68.1113787, 97.395561),
    CountryBounds("BR", "Brazil", -33.7683777809, 5.24448639569, -73.9872354804, -34.7299934555),
    CountryBounds("CN", "China", 18.1535, 53.56086, 73.4994136, 134.7754563)
  ]

  // ---------------------------------------------------------------- the table

  /** Ten countries, each with a two-letter upper-case code and a box of positive extent,
      and no code listed twice. */
  lemma TableWellFormed()
    ensures |COUNTRIES| == 10
    ensures forall i :: 0 <= i < |COUNTRIES| ==>
              |COUNTRIES[i].code| == 2 && IsAsciiUpper(COUNTRIES[i].code[0]) && IsAsciiUpper(COUNTRIES[i].code[1])
    ensures forall i :: 0 <= i < |COUNTRIES| ==>
              COUNTRIES[i].minLat < COUNTRIES[i].maxLat && COUNTRIES[i].minLng < COUNTRIES[i].maxLng
    ensures forall i, j :: 0 <= i < j < |COUNTRIES| ==> COUNTRIES[i].code != COUNTRIES[j].code
  {
  }

  /** A code of the table is its own upper case, so the upper-cased lookup can reach every entry. */
  lemma CodesAreUpperCase(i: nat)
    requires i < |COUNTRIES|
    ensures ToUpper(COUNTRIES[i].code) == COUNTRIES[i].code
    ensures ToUpper(ToLower(COUNTRIES[i].code)) == COUNTRIES[i].code
  {
    TableWellFormed();
  }

  // ---------------------------------------------------------------- lookup by code

  /** `COUNTRIES.iter().find(|c| c.code == code)`, as an index, searching from `from`. */
  function FindCodeFrom(code: string, from: nat): (r: Option<nat>)
    requires from <= |COUNTRIES|
    ensures r.Some? ==> from <= r.value < |COUNTRIES| && COUNTRIES[r.value].code == code
    ensures r.Some? ==> forall j :: from <= j < r.value ==> COUNTRIES[j].code != code
    ensures r.None? ==> forall j :: from <= j < |COUNTRIES| ==> COUNTRIES[j].code != code
    decreases |COUNTRIES| - from
  {
    if from == |COUNTRIES| then None
    else if COUNTRIES[from].code == code then Some(from)
    else FindCodeFrom(code, from + 1)
  }

  /** The first entry with exactly this code. */
  function FindByCode(code: string): (r: Option<nat>)
    ensures r.Some? ==> r.value < |COUNTRIES| && COUNTRIES[r.value].code == code
    ensures r.None? <==> forall j :: 0 <= j < |COUNTRIES| ==> COUNTRIES[j].code != code
  {
    FindCodeFrom(code, 0)
  }

  /** Every entry is found by its own code, and by its lower-case spelling once upper-cased. */
  lemma FindByOwnCode(i: nat)
    requires i < |COUNTRIES|
    ensures FindByCode(COUNTRIES[i].code) == Some(i)
    ensures FindByCode(ToUpper(ToLower(COUNTRIES[i].code))) == Some(i)
  {
    TableWellFormed();
    CodesAreUpperCase(i);
  }

  // ---------------------------------------------------------------- lookup by point

  /** The inclusive box test of `prove_country_from_coords`. */
  predicate InBox(c: CountryBounds, lat: real, lng: real) {
    c.minLat <= lat <= c.maxLat && c.minLng <= lng <= c.maxLng
  }

  /** The first entry from `from` on whose box holds the point. */
  function FindCoordsFrom(lat: real, lng: real, from: nat): (r: Option<nat>)
    requires from <= |COUNTRIES|
    ensures r.Some? ==> from <= r.value < |COUNTRIES| && InBox(COUNTRIES[r.value], lat, lng)
    ensures r.Some? ==> forall j :: from <= j < r.value ==> !InBox(COUNTRIES[j], lat, lng)
    ensures r.None? ==> forall j :: from <= j < |COUNTRIES| ==> !InBox(COUNTRIES[j], lat, lng)
    decreases |COUNTRIES| - from
  {
    if from == |COUNTRIES| then None
    else if InBox(COUNTRIES[from], lat, lng) then Some(from)
    else FindCoordsFrom(lat, lng, from + 1)
  }

  /** `COUNTRIES.iter().find(...)` on a point: the first box in table order that holds it. */
  function FindByCoords(lat: real, lng: real): (r: Option<nat>)
    ensures r.Some? ==> r.value < |COUNTRIES| && InBox(COUNTRIES[r.value], lat, lng)
    ensures r.Some? ==> forall j :: 0 <= j < r.value ==> !InBox(COUNTRIES[j], lat, lng)
    ensures r.None? <==> forall j :: 0 <= j < |COUNTRIES| ==> !InBox(COUNTRIES[j], lat, lng)
  {
    FindCoordsFrom(lat, lng, 0)
  }

  /** The boxes of the United States and Canada overlap, and a point in both resolves to
      the United States, which the table lists first. */
  lemma OverlapResolvesToFirst()
    ensures InBox(COUNTRIES[0], 45.0, -100.0) && InBox(COUNTRIES[2], 45.0, -100.0)
    ensures COUNTRIES[0].code == "US" && COUNTRIES[2].code == "CA"
    ensures FindByCoords(45.0, -100.0) == Some(0)
  {
  }

  /** The centre of every box lies in that box, so the point `prove_country` uses is inside
      the country it names. */
  lemma CentreInBox(i: nat)
    requires i < |COUNTRIES|
    ensures var c := COUNTRIES[i];
            InBox(c, (c.minLat + c.maxLat) / 2.0, (c.minLng + c.maxLng) / 2.0)
  {
    TableWellFormed();
  }
}

=== FILE: merkle_circuit.dfy ===
/** `MerkleProofCircuit`: knowledge of a leaf and an authentication path that
    hash up to the public root. Synthesis is modelled by what it decides: whether
    every witness is assigned, which public inputs it allocates, and whether the
    in-circuit fold (built from conditional selects) reaches the root. The Poseidon
    gadget is taken to compute the same function as the native sponge. */
module MerkleCircuit {
  import opened Wrappers
  import opened Field
  import opened Poseidon
  import opened Merkle
  import opened Groth16

  datatype MerkleProofCircuit = MerkleProofCircuit(
    config: PoseidonConfig,
    leaf: Option<Fr>,
    path: seq<Option<Fr>>,
    pathIndices: seq<Option<bool>>,
    root: Option<Fr>)

  /** `depth` zeros, the dummy siblings of the setup circuit. */
  function Zeros(depth: nat): (s: seq<Fr>)
    ensures |s| == depth && forall i :: 0 <= i < depth ==> s[i] == ZERO
  {
    seq(depth, _ => ZERO)
  }

  /** `depth` left-child flags, the dummy directions of the setup circuit. */
  function Lefts(depth: nat): (s: seq<bool>)
    ensures |s| == depth && forall i :: 0 <= i < depth ==> !s[i]
  {
    seq(depth, _ => false)
  }

  /** The loop of `new_empty`: a zero leaf hashed `depth` times with a zero sibling on its right. */
  function DummyRoot(h: PoseidonHasher, depth: nat): Fr {
    if depth == 0 then ZERO else HashTwo(h, DummyRoot(h, depth - 1), ZERO)
  }

  /** The dummy root is the root of the all-zero, all-left path. */
  lemma {:induction false} DummyRootIsPathRoot(h: PoseidonHasher, depth: nat)
    ensures DummyRoot(h, depth) == ComputeRoot(MerklePath(Zeros(depth), Lefts(depth), ZERO), h)
  {
    if depth > 0 {
      DummyRootIsPathRoot(h, depth - 1);
      assert Zeros(depth) == Zeros(depth - 1) + [ZERO];
      assert Lefts(depth) == Lefts(depth - 1) + [false];
      FoldSnoc(h, ZERO, Zeros(depth - 1), Lefts(depth - 1), ZERO, false);
    }
  }

  /** `MerkleProofCircuit::new_empty`: the setup circuit, a consistent all-zero instance. */
  function NewEmpty(depth: nat, sponge: SpongeFn): (c: MerkleProofCircuit)
    ensures c.config == DefaultConfig()
    ensures c.leaf == Some(ZERO) && c.path == Assigned(Zeros(depth)) && c.pathIndices == Assigned(Lefts(depth))
    ensures c.root == Some(ComputeRoot(MerklePath(Zeros(depth), Lefts(depth), ZERO), Poseidon.New(sponge)))
  {
    var h := Poseidon.New(sponge);
    DummyRootIsPathRoot(h, depth);
    MerkleProofCircuit(h.config, Some(ZERO), Assigned(Zeros(depth)), Assigned(Lefts(depth)), Some(DummyRoot(h, depth)))
  }

  /** `MerkleProofCircuit::new_with_witness`: every witness assigned from the path. */
  function NewWithWitness(p: MerklePath, root: Fr): (c: MerkleProofCircuit)
    ensures c.config == DefaultConfig() && c.leaf == Some(p.leaf) && c.root == Some(root)
    ensures AllAssigned(c.path) && AllAssigned(c.pathIndices)
    ensures Values(c.path) == p.siblings && Values(c.pathIndices) == p.indices
  {
    ValuesOfAssigned(p.siblings);
    ValuesOfAssigned(p.indices);
    MerkleProofCircuit(DefaultConfig(), Some(p.leaf), Assigned(p.siblings), Assigned(p.indices), Some(root))
  }

  /** `MerkleProofCircuit::from_tree`: the path of a leaf slot, against the tree's root. */
  function FromTree(t: MerkleTree, leafIndex: nat): (r: Option<MerkleProofCircuit>)
    requires WellFormed(t)
    ensures r.None? <==> leafIndex >= t.numLeaves
    ensures r.Some? ==> r == Some(NewWithWitness(GetPath(t, leafIndex).value, Root(t)))
  {
    var path :- GetPath(t, leafIndex);
    Some(NewWithWitness(path, Root(t)))
  }

  /** `MerkleProofCircuit::depth`. */
  function Depth(c: MerkleProofCircuit): (d: nat)
    ensures d == |c.path|
  {
    |c.path|
  }

  /** The in-circuit fold: each level selects `(left, right)` by the direction bit and hashes
      them with the sponge gadget; like `zip`, it stops at the shorter list. */
  function CircuitFold(h: PoseidonHasher, current: Fr, siblings: seq<Fr>, indices: seq<bool>): Fr
    decreases |siblings|
  {
    if |siblings| == 0 || |indices| == 0 then current
    else
      var isRight := indices[0];
      var left := if isRight then siblings[0] else current;
      var right := if isRight then current else siblings[0];
      CircuitFold(h, HashTwo(h, left, right), siblings[1..], indices[1..])
  }

  /** The constraints compute exactly the native `compute_root`. */
  lemma {:induction false} CircuitFoldIsFold(h: PoseidonHasher, current: Fr, siblings: seq<Fr>, indices: seq<bool>)
    ensures CircuitFold(h, current, siblings, indices) == Fold(h, current, siblings, indices)
    decreases |siblings|
  {
    if |siblings| > 0 && |indices| > 0 {
      var next := Step(h, current, siblings[0], indices[0]);
      CircuitFoldIsFold(h, next, siblings[1..], indices[1..]);
    }
  }

  /** `generate_constraints`: a missing witness aborts with `AssignmentMissing`; otherwise
      the root is the one public input and the system holds iff the fold reaches it. */
  function Synthesize(c: MerkleProofCircuit, sponge: SpongeFn): (r: Result<ConstraintSystem, SynthesisError>)
    ensures r.Failure? <==> c.leaf.None? || c.root.None? || !AllAssigned(c.path) || !AllAssigned(c.pathIndices)
    ensures r.Failure? ==> r.error == AssignmentMissing
    ensures r.Success? ==> r.value.publicInputs == [c.root.value] && r.value.config == c.config
    ensures r.Success? ==> r.value.shape == [|c.path|, |c.pathIndices|]
    ensures r.Success? ==> (r.value.satisfied <==>
      Verify(MerklePath(Values(c.path), Values(c.pathIndices), c.leaf.value), c.root.value, PoseidonHasher(c.config, sponge)))
  {
    if c.leaf.None? || c.root.None? || !AllAssigned(c.path) || !AllAssigned(c.pathIndices) then
      Failure(AssignmentMissing)
    else
      var h := PoseidonHasher(c.config, sponge);
      var computed := CircuitFold(h, c.leaf.value, Values(c.path), Values(c.pathIndices));
      CircuitFoldIsFold(h, c.leaf.value, Values(c.path), Values(c.pathIndices));
      Success(ConstraintSystem([|c.path|, |c.pathIndices|], c.config, [c.root.value], computed == c.root.value))
  }

  /** The setup circuit synthesises, is satisfied, and has the shape of every proving
      circuit of the same depth. */
  lemma NewEmptySatisfied(depth: nat, sponge: SpongeFn)
    ensures Synthesize(NewEmpty(depth, sponge), sponge).Success?
    ensures Synthesize(NewEmpty(depth, sponge), sponge).value.satisfied
    ensures Synthesize(NewEmpty(depth, sponge), sponge).value.shape == [depth, depth]
    ensures Synthesize(NewEmpty(depth, sponge), sponge).value.config == DefaultConfig()
  {
    ValuesOfAssigned(Zeros(depth));
    ValuesOfAssigned(Lefts(depth));
  }

  /** A witness circuit is satisfied exactly when the native path verifies against the root. */
  lemma WitnessSatisfiedIffVerifies(p: MerklePath, root: Fr, sponge: SpongeFn)
    ensures Synthesize(NewWithWitness(p, root), sponge).Success?
    ensures Synthesize(NewWithWitness(p, root), sponge).value.publicInputs == [root]
    ensures Synthesize(NewWithWitness(p, root), sponge).value.shape == [|p.siblings|, |p.indices|]
    ensures Synthesize(NewWithWitness(p, root), sponge).value.satisfied <==> Verify(p, root, Poseidon.New(sponge))
  {
    var c := NewWithWitness(p, root);
    assert MerklePath(Values(c.path), Values(c.pathIndices), c.leaf.value) == p;
  }

  /** The circuit for any real leaf of a well-built tree is satisfied, with the root as its
      public input and the tree depth as its shape. */
  lemma FromTreeSatisfied(t: MerkleTree, leafIndex: nat, sponge: SpongeFn)
    requires Valid(t) && t.hasher == Poseidon.New(sponge)
    requires leafIndex < t.numLeaves
    ensures FromTree(t, leafIndex).Some?
    ensures Synthesize(FromTree(t, leafIndex).value, sponge).Success?
    ensures Synthesize(FromTree(t, leafIndex).value, sponge).value.satisfied
    ensures Synthesize(FromTree(t, leafIndex).value, sponge).value.publicInputs == [Root(t)]
    ensures Synthesize(FromTree(t, leafIndex).value, sponge).value.shape == [t.depth, t.depth]
  {
    var p := GetPath(t, leafIndex).value;
    WitnessSatisfiedIffVerifies(p, Root(t), sponge);
  }

  /** Soundness of the relation: a satisfied circuit of the tree's depth whose public root is
      the tree's root opens a real leaf, unless the leaf is the zero padding value or the
      hash has a collision. */
  lemma SatisfiedOpensLeaf(c: MerkleProofCircuit, t: MerkleTree, sponge: SpongeFn)
    requires Valid(t) && t.hasher == Poseidon.New(sponge) && c.config == DefaultConfig()
    requires Synthesize(c, sponge).Success? && Synthesize(c, sponge).value.satisfied
    requires c.root == Some(Root(t)) && |c.path| == t.depth && |c.pathIndices| == t.depth
    ensures c.leaf.value in Leaves(t) || c.leaf.value == ZERO || HasCollision(t.hasher)
  {
    var p := MerklePath(Values(c.path), Values(c.pathIndices), c.leaf.value);
    PathSoundness(t, p);
  }
}

=== FILE: merkle_tree.dfy ===
/** The binary Merkle tree of src/merkle/tree.rs: a level-order array of nodes
    (root first, padded leaves last), authentication paths, and the leaf index.
    The 32-byte compressed encoding of a field element is injective, so the
    leaf index is keyed by the element itself. */
module Merkle {
  import opened Wrappers
  import opened Field
  import opened Poseidon

  /** Largest depth the tree is meant for (2^30 leaves). */
  const MAX_DEPTH: nat := 30

  function Pow2(d: nat): (p: nat)
    ensures p >= 1
  {
    if d == 0 then 1 else 2 * Pow2(d - 1)
  }

  lemma {:induction false} Pow2Monotone(a: nat, b: nat)
    requires a <= b
    ensures Pow2(a) <= Pow2(b)
    decreases b
  {
    if a < b {
      Pow2Monotone(a, b - 1);
    }
  }

  // ---------------------------------------------------------------- paths

  /** An authentication path: siblings and left/right flags from the leaf upwards. */
  datatype MerklePath = MerklePath(siblings: seq<Fr>, indices: seq<bool>, leaf: Fr)

  /** One level up: a right child is hashed after its sibling, a left child before it. */
  function Step(h: PoseidonHasher, current: Fr, sibling: Fr, isRight: bool): Fr {
    if isRight then HashTwo(h, sibling, current) else HashTwo(h, current, sibling)
  }

  /** Folds `Step` over the sibling/flag pairs; like `zip`, it stops at the shorter list. */
  function Fold(h: PoseidonHasher, current: Fr, siblings: seq<Fr>, indices: seq<bool>): Fr
    decreases |siblings|
  {
    if |siblings| == 0 || |indices| == 0 then current
    else Fold(h, Step(h, current, siblings[0], indices[0]), siblings[1..], indices[1..])
  }

  /** `MerklePath::compute_root`. */
  function ComputeRoot(p: MerklePath, h: PoseidonHasher): Fr {
    Fold(h, p.leaf, p.siblings, p.indices)
  }

  /** `MerklePath::verify`. */
  predicate Verify(p: MerklePath, root: Fr, h: PoseidonHasher) {
    ComputeRoot(p, h) == root
  }

  /** `MerklePath::depth`: the number of siblings, whatever the number of flags. */
  function PathDepth(p: MerklePath): nat {
    |p.siblings|
  }

  /** Only the first `min(|siblings|, |indices|)` pairs take part in the fold. */
  lemma {:induction false} FoldIgnoresExcess(h: PoseidonHasher, c: Fr, s: seq<Fr>, b: seq<bool>, n: nat)
    requires n == if |s| < |b| then |s| else |b|
    ensures Fold(h, c, s, b) == Fold(h, c, s[..n], b[..n])
    decreases |s|
  {
    if n > 0 {
      assert s[..n][1..] == s[1..][..n - 1];
      assert b[..n][1..] == b[1..][..n - 1];
      FoldIgnoresExcess(h, Step(h, c, s[0], b[0]), s[1..], b[1..], n - 1);
    }
  }

  /** Extending a path by one level applies one more `Step` on top. */
  lemma {:induction false} FoldSnoc(h: PoseidonHasher, c: Fr, s: seq<Fr>, b: seq<bool>, x: Fr, bit: bool)
    requires |s| == |b|
    ensures Fold(h, c, s + [x], b + [bit]) == Step(h, Fold(h, c, s, b), x, bit)
    decreases |s|
  {
    if |s| > 0 {
      assert (s + [x])[1..] == s[1..] + [x];
      assert (b + [bit])[1..] == b[1..] + [bit];
      FoldSnoc(h, Step(h, c, s[0], b[0]), s[1..], b[1..], x, bit);
    }
  }

  /** The leaf position named by the flags: flag `m` is bit `m` of the index. */
  function IndexFromBits(bits: seq<bool>): nat
  {
    if |bits| == 0 then 0 else (if bits[0] then 1 else 0) + 2 * IndexFromBits(bits[1..])
  }

  lemma {:induction false} IndexFromBitsBound(bits: seq<bool>)
    ensures IndexFromBits(bits) < Pow2(|bits|)
  {
    if |bits| > 0 {
      IndexFromBitsBound(bits[1..]);
    }
  }

  lemma {:induction false} IndexFromBitsSnoc(bits: seq<bool>, bit: bool)
    ensures IndexFromBits(bits + [bit]) == IndexFromBits(bits) + (if bit then Pow2(|bits|) else 0)
  {
    if |bits| > 0 {
      assert (bits + [bit])[1..] == bits[1..] + [bit];
      IndexFromBitsSnoc(bits[1..], bit);
    }
  }

  // ---------------------------------------------------------------- heaps

  /** Node `k` lies on level `d` (the root is level 0). */
  predicate AtLevel(k: nat, d: nat) {
    Pow2(d) - 1 <= k < 2 * Pow2(d) - 1
  }

  /** Node `i` is the hash of its two children. */
  predicate NodeHashed(h: PoseidonHasher, nodes: seq<Fr>, i: nat)
    requires 2 * i + 2 < |nodes|
  {
    nodes[i] == HashTwo(h, nodes[2 * i + 1], nodes[2 * i + 2])
  }

  /** Every internal node of the level-order array is the hash of its two children. */
  ghost predicate HeapHashed(h: PoseidonHasher, nodes: seq<Fr>) {
    forall i: nat :: 2 * i + 2 < |nodes| ==> NodeHashed(h, nodes, i)
  }

  /** Siblings met walking from node `k` up to the root. */
  function PathSiblings(nodes: seq<Fr>, k: nat): (s: seq<Fr>)
    requires k < |nodes| && |nodes| % 2 == 1
    decreases k
  {
    if k == 0 then []
    else [nodes[if k % 2 == 0 then k - 1 else k + 1]] + PathSiblings(nodes, (k - 1) / 2)
  }

  /** Left/right flags met walking from node `k` up to the root: even nodes are right children. */
  function PathIndices(k: nat): seq<bool>
    decreases k
  {
    if k == 0 then [] else [k % 2 == 0] + PathIndices((k - 1) / 2)
  }

  lemma {:induction false} PathLengthsAgree(nodes: seq<Fr>, k: nat)
    requires k < |nodes| && |nodes| % 2 == 1
    ensures |PathSiblings(nodes, k)| == |PathIndices(k)|
    decreases k
  {
    if k > 0 {
      PathLengthsAgree(nodes, (k - 1) / 2);
    }
  }

  /** From leaf `j` of a tree of depth `d` the walk takes `d` steps, and its flags
      spell `j` in binary, least significant bit first. */
  lemma {:induction false} LeafWalk(d: nat, j: nat)
    requires j < Pow2(d)
    ensures |PathIndices(Pow2(d) - 1 + j)| == d
    ensures IndexFromBits(PathIndices(Pow2(d) - 1 + j)) == j
  {
    var k := Pow2(d) - 1 + j;
    if d > 0 {
      var half := Pow2(d - 1);
      assert k == 2 * half - 1 + j;
      assert (k - 1) / 2 == half - 1 + j / 2;
      assert (k % 2 == 0) == (j % 2 == 1);
      LeafWalk(d - 1, j / 2);
      assert PathIndices(k) == [k % 2 == 0] + PathIndices(half - 1 + j / 2);
    }
  }

  /** Completeness: the walk from any node of a hashed heap folds back to the root. */
  lemma {:induction false} WalkReachesRoot(h: PoseidonHasher, nodes: seq<Fr>, k: nat)
    requires k < |nodes| && |nodes| % 2 == 1
    requires HeapHashed(h, nodes)
    ensures Fold(h, nodes[k], PathSiblings(nodes, k), PathIndices(k)) == nodes[0]
    decreases k
  {
    if k > 0 {
      var p := (k - 1) / 2;
      var sib := if k % 2 == 0 then k - 1 else k + 1;
      assert 2 * p + 2 < |nodes| && NodeHashed(h, nodes, p);
      assert Step(h, nodes[k], nodes[sib], k % 2 == 0) == nodes[p];
      WalkReachesRoot(h, nodes, p);
    }
  }

  /** Node reached from `k` by following the flags from the last (top) to the first. */
  function Descend(k: nat, bits: seq<bool>): nat
    decreases |bits|
  {
    if |bits| == 0 then k
    else Descend(if bits[|bits| - 1] then 2 * k + 2 else 2 * k + 1, bits[..|bits| - 1])
  }

  lemma ChildLevel(k: nat, d: nat)
    requires AtLevel(k, d)
    ensures AtLevel(2 * k + 1, d + 1) && AtLevel(2 * k + 2, d + 1)
  {
  }

  /** Following the flags from position `q` of level `l` ends at the position that
      extends `q` by the flags read as a binary number. */
  lemma {:induction false} DescendPosition(l: nat, q: nat, bits: seq<bool>)
    requires q < Pow2(l)
    ensures Descend(Pow2(l) - 1 + q, bits) == Pow2(l + |bits|) - 1 + q * Pow2(|bits|) + IndexFromBits(bits)
    decreases |bits|
  {
    var n := |bits|;
    if n > 0 {
      var k := Pow2(l) - 1 + q;
      var bit := bits[n - 1];
      var prefix := bits[..n - 1];
      var b := if bit then 1 else 0;
      var child := if bit then 2 * k + 2 else 2 * k + 1;
      assert Pow2(l + 1) == 2 * Pow2(l);
      assert child == Pow2(l + 1) - 1 + (2 * q + b);
      assert Descend(k, bits) == Descend(child, prefix);
      DescendPosition(l + 1, 2 * q + b, prefix);
      assert l + 1 + |prefix| == l + n;
      assert bits == prefix + [bit];
      IndexFromBitsSnoc(prefix, bit);
      var p := Pow2(n - 1);
      assert Pow2(n) == 2 * p;
      assert IndexFromBits(bits) == IndexFromBits(prefix) + b * p;
      PositionArithmetic(q, b, p);
    }
  }

  lemma PositionArithmetic(q: nat, b: nat, p: nat)
    ensures (2 * q + b) * p == q * (2 * p) + b * p
  {
  }

  /** Following `|bits|` flags from level `l` lands on level `l + |bits|`. */
  lemma {:induction false} DescendLevel(k: nat, l: nat, bits: seq<bool>)
    requires AtLevel(k, l)
    ensures AtLevel(Descend(k, bits), l + |bits|)
    decreases |bits|
  {
    var n := |bits|;
    if n > 0 {
      ChildLevel(k, l);
      DescendLevel(if bits[n - 1] then 2 * k + 2 else 2 * k + 1, l + 1, bits[..n - 1]);
    }
  }

  /** Two different pairs with the same hash. */
  predicate Collision(h: PoseidonHasher, a: Fr, b: Fr, c: Fr, d: Fr) {
    (a, b) != (c, d) && HashTwo(h, a, b) == HashTwo(h, c, d)
  }

  ghost predicate HasCollision(h: PoseidonHasher) {
    exists a, b, c, d :: Collision(h, a, b, c, d)
  }

  /** One level of binding: if stepping up from `below` gives the hash of two
      children, `below` is the child the flag names, or there is a collision. */
  lemma StepBinding(h: PoseidonHasher, below: Fr, sibling: Fr, bit: bool, left: Fr, right: Fr)
    requires Step(h, below, sibling, bit) == HashTwo(h, left, right)
    ensures below == (if bit then right else left) || HasCollision(h)
  {
    if below != (if bit then right else left) {
      if bit {
        assert Collision(h, sibling, below, left, right);
      } else {
        assert Collision(h, below, sibling, left, right);
      }
    }
  }

  /** Binding: a path of the right length that folds to node `k` either starts at
      the node its flags lead to, or exhibits a hash collision. */
  lemma {:induction false} FoldBinding(h: PoseidonHasher, nodes: seq<Fr>, depth: nat, k: nat, l: nat,
                                       c: Fr, s: seq<Fr>, bits: seq<bool>)
    requires |nodes| == 2 * Pow2(depth) - 1 && HeapHashed(h, nodes)
    requires AtLevel(k, l) && l + |bits| <= depth && |s| == |bits|
    requires k < |nodes| && Fold(h, c, s, bits) == nodes[k]
    ensures Descend(k, bits) < |nodes|
    ensures c == nodes[Descend(k, bits)] || HasCollision(h)
    decreases |bits|
  {
    DescendLevel(k, l, bits);
    Pow2Monotone(l + |bits|, depth);
    var n := |bits|;
    if n > 0 {
      var bit := bits[n - 1];
      var s', bits' := s[..n - 1], bits[..n - 1];
      assert s == s' + [s[n - 1]] && bits == bits' + [bit];
      FoldSnoc(h, c, s', bits', s[n - 1], bit);
      var below := Fold(h, c, s', bits');
      ChildLevel(k, l);
      Pow2Monotone(l + 1, depth);
      var child := if bit then 2 * k + 2 else 2 * k + 1;
      assert 2 * k + 2 < |nodes| && NodeHashed(h, nodes, k);
      StepBinding(h, below, s[n - 1], bit, nodes[2 * k + 1], nodes[2 * k + 2]);
      if below == nodes[child] {
        assert Descend(k, bits) == Descend(child, bits');
        FoldBinding(h, nodes, depth, child, l + 1, c, s', bits');
      }
    }
  }

  // ---------------------------------------------------------------- leaf index

  /** The leaf index as the source builds it: inserting `leaf -> i` in order, so a
      repeated leaf keeps its last position. */
  function IndexOf(leaves: seq<Fr>): map<Fr, nat>
    decreases |leaves|
  {
    if |leaves| == 0 then map[]
    else IndexOf(leaves[..|leaves| - 1])[leaves[|leaves| - 1] := |leaves| - 1]
  }

  /** The index holds exactly the leaves, each at its last position. */
  lemma {:induction false} IndexOfMeaning(leaves: seq<Fr>, x: Fr)
    ensures x in IndexOf(leaves) <==> x in leaves
    ensures x in IndexOf(leaves) ==>
              IndexOf(leaves)[x] < |leaves| && leaves[IndexOf(leaves)[x]] == x
              && forall j :: IndexOf(leaves)[x] < j < |leaves| ==> leaves[j] != x
    decreases |leaves|
  {
    if |leaves| > 0 {
      var init := leaves[..|leaves| - 1];
      IndexOfMeaning(init, x);
      assert leaves == init + [leaves[|leaves| - 1]];
    }
  }

  /** The index-building loop of `with_hasher` and `from_bytes`: only the first
      `numLeaves` entries are indexed. */
  method BuildLeafIndex(leaves: seq<Fr>, numLeaves: nat) returns (index: map<Fr, nat>)
    requires numLeaves <= |leaves|
    ensures forall x :: x in index <==> x in leaves[..numLeaves]
    ensures index == IndexOf(leaves[..numLeaves])
  {
    index := map[];
    var i := 0;
    while i < |leaves|
      invariant i <= |leaves|
      invariant index == IndexOf(leaves[..if i < numLeaves then i else numLeaves])
    {
      if i < numLeaves {
        assert leaves[..i + 1][..i] == leaves[..i];
        index := index[leaves[i] := i];
      }
      i := i + 1;
    }
    forall x | true
      ensures x in index <==> x in leaves[..numLeaves]
    {
      IndexOfMeaning(leaves[..numLeaves], x);
    }
  }

  // ---------------------------------------------------------------- trees

  datatype MerkleTree = MerkleTree(
    nodes: seq<Fr>,
    depth: nat,
    numLeaves: nat,
    hasher: PoseidonHasher,
    leafIndex: map<Fr, nat>)

  /** The array has the size of a complete tree of the recorded depth, with room for the leaves. */
  predicate WellFormed(t: MerkleTree) {
    |t.nodes| == 2 * Pow2(t.depth) - 1 && t.numLeaves <= Pow2(t.depth)
  }

  /** The real (non-padding) leaves. */
  function Leaves(t: MerkleTree): seq<Fr>
    requires WellFormed(t)
  {
    t.nodes[Pow2(t.depth) - 1..Pow2(t.depth) - 1 + t.numLeaves]
  }

  /** What `with_hasher` guarantees: hashed internal nodes, zero padding, and an
      index of the real leaves. */
  ghost predicate Valid(t: MerkleTree) {
    && WellFormed(t)
    && HeapHashed(t.hasher, t.nodes)
    && (forall i :: Pow2(t.depth) - 1 + t.numLeaves <= i < |t.nodes| ==> t.nodes[i] == ZERO)
    && t.leafIndex == IndexOf(Leaves(t))
  }

  /** `ilog2`. */
  function Log2Floor(n: nat): (r: nat)
    requires n >= 1
    ensures Pow2(r) <= n < Pow2(r + 1)
  {
    if n == 1 then 0 else 1 + Log2Floor(n / 2)
  }

  /** `compute_depth`: the least depth whose padded size holds `n` leaves, and at least 1. */
  function ComputeDepth(n: nat): (d: nat)
    ensures d >= 1 && n <= Pow2(d)
    ensures n <= 1 ==> d == 1
    ensures n >= 2 ==> Pow2(d - 1) < n
  {
    if n <= 1 then 1 else Log2Floor(n - 1) + 1
  }

  /** `empty_tree`: a single zero node at depth 0. */
  function EmptyTree(hasher: PoseidonHasher): (t: MerkleTree)
    ensures Valid(t) && t.numLeaves == 0 && t.hasher == hasher && t.nodes[0] == ZERO
  {
    MerkleTree([ZERO], 0, 0, hasher, map[])
  }

  /** The zero-filled array with the padded leaves copied to the last level. */
  method PlaceLeaves(padded: seq<Fr>, leafStart: nat) returns (nodes: seq<Fr>)
    requires |padded| == leafStart + 1
    ensures |nodes| == 2 * leafStart + 1 && nodes[leafStart..] == padded
  {
    nodes := seq(2 * leafStart + 1, _ => ZERO);
    var i := 0;
    while i < |padded|
      invariant i <= |padded| && |nodes| == 2 * leafStart + 1
      invariant forall k :: 0 <= k < i ==> nodes[leafStart + k] == padded[k]
    {
      nodes := nodes[leafStart + i := padded[i]];
      i := i + 1;
    }
    assert nodes[leafStart..] == padded;
  }

  /** The bottom-up loop over the internal nodes `leafStart - 1` down to 0. */
  method HashInternalNodes(leafLevel: seq<Fr>, leafStart: nat, hasher: PoseidonHasher) returns (nodes: seq<Fr>)
    requires |leafLevel| == 2 * leafStart + 1
    ensures |nodes| == |leafLevel| && nodes[leafStart..] == leafLevel[leafStart..]
    ensures HeapHashed(hasher, nodes)
  {
    nodes := leafLevel;
    var i: nat := leafStart;
    while i > 0
      invariant i <= leafStart && |nodes| == 2 * leafStart + 1
      invariant nodes[leafStart..] == leafLevel[leafStart..]
      invariant forall k: nat :: i <= k < leafStart ==> NodeHashed(hasher, nodes, k)
    {
      i := i - 1;
      var before := nodes;
      nodes := nodes[i := HashTwo(hasher, nodes[2 * i + 1], nodes[2 * i + 2])];
      forall k: nat | i <= k < leafStart
        ensures NodeHashed(hasher, nodes, k)
      {
        if k > i {
          assert NodeHashed(hasher, before, k);
        }
      }
    }
  }

  /** `MerkleTree::with_hasher`: pad to a power of two with zeros, place the leaves
      at the bottom, hash the internal nodes bottom-up and index the real leaves. */
  method WithHasher(leaves: seq<Fr>, hasher: PoseidonHasher) returns (t: MerkleTree)
    ensures Valid(t) && t.hasher == hasher
    ensures Leaves(t) == leaves
    ensures t.depth == if |leaves| == 0 then 0 else ComputeDepth(|leaves|)
  {
    if |leaves| == 0 {
      return EmptyTree(hasher);
    }
    var numLeaves := |leaves|;
    var depth := ComputeDepth(numLeaves);
    var paddedSize := Pow2(depth);
    var padded := leaves + seq(paddedSize - numLeaves, _ => ZERO);
    var leafStart := paddedSize - 1;
    var nodes := PlaceLeaves(padded, leafStart);
    nodes := HashInternalNodes(nodes, leafStart, hasher);
    var index := BuildLeafIndex(padded, numLeaves);
    assert padded[..numLeaves] == leaves;
    t := MerkleTree(nodes, depth, numLeaves, hasher, index);
    AssembledTreeValid(t, leaves, paddedSize - numLeaves);
  }

  /** A complete array with hashed internal nodes, the leaves then zeros on its last level,
      and an index of the leaves is a valid tree of those leaves. */
  lemma AssembledTreeValid(t: MerkleTree, leaves: seq<Fr>, padding: nat)
    requires |t.nodes| == 2 * Pow2(t.depth) - 1 && t.numLeaves == |leaves| <= Pow2(t.depth)
    requires HeapHashed(t.hasher, t.nodes)
    requires t.nodes[Pow2(t.depth) - 1..] == leaves + seq(padding, _ => ZERO)
    requires t.leafIndex == IndexOf(leaves)
    ensures Valid(t) && Leaves(t) == leaves
  {
    PaddedLeafLevel(t.nodes, Pow2(t.depth) - 1, leaves, padding);
  }

  /** The last level holds the leaves, then zeros. */
  lemma PaddedLeafLevel(nodes: seq<Fr>, leafStart: nat, leaves: seq<Fr>, padding: nat)
    requires leafStart <= |nodes| && nodes[leafStart..] == leaves + seq(padding, _ => ZERO)
    ensures nodes[leafStart..leafStart + |leaves|] == leaves
    ensures forall k :: leafStart + |leaves| <= k < |nodes| ==> nodes[k] == ZERO
  {
    forall k | leafStart + |leaves| <= k < |nodes|
      ensures nodes[k] == ZERO
    {
      assert nodes[k] == nodes[leafStart..][k - leafStart];
    }
  }

  /** `MerkleTree::new`: a tree under the default Poseidon parameters. */
  method New(leaves: seq<Fr>, sponge: SpongeFn) returns (t: MerkleTree)
    ensures Valid(t) && t.hasher == Poseidon.New(sponge) && Leaves(t) == leaves
  {
    t := WithHasher(leaves, Poseidon.New(sponge));
  }

  /** `MerkleTree::root`. */
  function Root(t: MerkleTree): Fr
    requires |t.nodes| >= 1
  {
    t.nodes[0]
  }

  lemma LeafIndexMeaning(t: MerkleTree, leaf: Fr)
    ensures Valid(t) ==> (leaf in t.leafIndex <==> leaf in Leaves(t))
    ensures Valid(t) && leaf in t.leafIndex ==>
              t.leafIndex[leaf] < t.numLeaves && Leaves(t)[t.leafIndex[leaf]] == leaf
              && forall j :: t.leafIndex[leaf] < j < t.numLeaves ==> Leaves(t)[j] != leaf
  {
    if Valid(t) {
      IndexOfMeaning(Leaves(t), leaf);
    }
  }

  lemma TreeWalkReachesRoot(t: MerkleTree, k: nat)
    requires WellFormed(t) && k < |t.nodes|
    ensures Valid(t) ==> Fold(t.hasher, t.nodes[k], PathSiblings(t.nodes, k), PathIndices(k)) == Root(t)
  {
    if Valid(t) {
      WalkReachesRoot(t.hasher, t.nodes, k);
    }
  }

  /** `find_leaf`: the position of the leaf in the index. */
  function FindLeaf(t: MerkleTree, leaf: Fr): (r: Option<nat>)
    ensures Valid(t) ==> (r.Some? <==> leaf in Leaves(t))
    ensures Valid(t) && r.Some? ==>
              r.value < t.numLeaves && Leaves(t)[r.value] == leaf
              && forall j :: r.value < j < t.numLeaves ==> Leaves(t)[j] != leaf
  {
    LeafIndexMeaning(t, leaf);
    if leaf in t.leafIndex then Some(t.leafIndex[leaf]) else None
  }

  /** `contains`. */
  function Contains(t: MerkleTree, leaf: Fr): (r: bool)
    ensures Valid(t) ==> (r <==> leaf in Leaves(t))
  {
    FindLeaf(t, leaf).Some?
  }

  /** `get_path`: `None` past the real leaves, otherwise the walk from the leaf to the root. */
  function GetPath(t: MerkleTree, leafIndex: nat): (r: Option<MerklePath>)
    requires WellFormed(t)
    ensures r.None? <==> leafIndex >= t.numLeaves
    ensures r.Some? ==> |r.value.siblings| == t.depth && |r.value.indices| == t.depth
    ensures r.Some? ==> r.value.leaf == Leaves(t)[leafIndex]
    ensures r.Some? ==> IndexFromBits(r.value.indices) == leafIndex
    ensures r.Some? && Valid(t) ==> Verify(r.value, Root(t), t.hasher)
  {
    if leafIndex >= t.numLeaves then None
    else
      var k := Pow2(t.depth) - 1 + leafIndex;
      LeafWalk(t.depth, leafIndex);
      PathLengthsAgree(t.nodes, k);
      TreeWalkReachesRoot(t, k);
      Some(MerklePath(PathSiblings(t.nodes, k), PathIndices(k), t.nodes[k]))
  }

  /** `get_path_for_leaf`: a verifying path exactly for the leaves of the tree. */
  function GetPathForLeaf(t: MerkleTree, leaf: Fr): (r: Option<MerklePath>)
    requires WellFormed(t)
    ensures Valid(t) ==> (r.Some? <==> leaf in Leaves(t))
    ensures Valid(t) && r.Some? ==> r.value.leaf == leaf && Verify(r.value, Root(t), t.hasher)
  {
    match FindLeaf(t, leaf)
    case None => None
    case Some(i) => GetPath(t, i)
  }

  /** Soundness: a full-depth path that verifies against the root either opens the
      leaf slot its flags name, or the hasher has a collision. A non-zero leaf
      opened that way is one of the tree's leaves. */
  lemma PathSoundness(t: MerkleTree, p: MerklePath)
    requires Valid(t)
    requires |p.siblings| == t.depth && |p.indices| == t.depth
    requires Verify(p, Root(t), t.hasher)
    ensures IndexFromBits(p.indices) < Pow2(t.depth)
    ensures p.leaf == t.nodes[Pow2(t.depth) - 1 + IndexFromBits(p.indices)] || HasCollision(t.hasher)
    ensures p.leaf != ZERO && !HasCollision(t.hasher) ==> p.leaf in Leaves(t)
  {
    IndexFromBitsBound(p.indices);
    RootBinding(t.hasher, t.nodes, t.depth, p.leaf, p.siblings, p.indices);
    if p.leaf != ZERO && !HasCollision(t.hasher) {
      OpenedLeaf(t, IndexFromBits(p.indices), p.leaf);
    }
  }

  lemma RootBinding(h: PoseidonHasher, nodes: seq<Fr>, depth: nat, leaf: Fr, s: seq<Fr>, bits: seq<bool>)
    requires |nodes| == 2 * Pow2(depth) - 1 && HeapHashed(h, nodes)
    requires |s| == depth && |bits| == depth
    requires Fold(h, leaf, s, bits) == nodes[0]
    ensures Pow2(depth) - 1 + IndexFromBits(bits) < |nodes|
    ensures leaf == nodes[Pow2(depth) - 1 + IndexFromBits(bits)] || HasCollision(h)
  {
    assert Pow2(0) == 1;
    FoldBinding(h, nodes, depth, 0, 0, leaf, s, bits);
    DescendPosition(0, 0, bits);
    assert Descend(0, bits) == Pow2(depth) - 1 + IndexFromBits(bits);
  }

  /** A non-zero value in leaf slot `j` of a valid tree is one of its real leaves. */
  lemma OpenedLeaf(t: MerkleTree, j: nat, leaf: Fr)
    requires Valid(t) && j < Pow2(t.depth)
    requires leaf == t.nodes[Pow2(t.depth) - 1 + j] && leaf != ZERO
    ensures leaf in Leaves(t)
  {
    assert j < t.numLeaves;
    assert Leaves(t)[j] == leaf;
  }

  // ---------------------------------------------------------------- storage

  /** `MerkleTreeData`: what is stored of a tree (nodes, depth, leaf count). */
  datatype MerkleTreeData = MerkleTreeData(nodes: seq<Fr>, depth: nat, numLeaves: nat)

  /** Reading leaf slot `leaf_start + i` past the end of the stored nodes panics in the source;
      with no leaves no slot is read. */
  datatype TreeError = LeafSlotOutOfRange

  function ToData(t: MerkleTree): MerkleTreeData {
    MerkleTreeData(t.nodes, t.depth, t.numLeaves)
  }

  /** `from_bytes` after decoding: the default hasher and a leaf index rebuilt from the
      `numLeaves` slots after `leaf_start`. Only that loop can fail, and only when it has a
      slot to read; the node count is otherwise taken as stored. */
  function FromData(data: MerkleTreeData, sponge: SpongeFn): (r: Result<MerkleTree, TreeError>)
    ensures r.Failure? <==> data.numLeaves > 0 && Pow2(data.depth) - 1 + data.numLeaves > |data.nodes|
    ensures r.Success? ==> ToData(r.value) == data && r.value.hasher == Poseidon.New(sponge)
    ensures r.Success? && data.numLeaves == 0 ==> forall x :: !Contains(r.value, x)
    ensures r.Success? && data.numLeaves > 0 ==>
              forall x :: Contains(r.value, x) <==> x in data.nodes[Pow2(data.depth) - 1..Pow2(data.depth) - 1 + data.numLeaves]
  {
    var leafStart := Pow2(data.depth) - 1;
    if data.numLeaves > 0 && leafStart + data.numLeaves > |data.nodes| then Failure(LeafSlotOutOfRange)
    else
      var leaves := if data.numLeaves == 0 then [] else data.nodes[leafStart..leafStart + data.numLeaves];
      var t := MerkleTree(data.nodes, data.depth, data.numLeaves, Poseidon.New(sponge), IndexOf(leaves));
      assert forall x :: Contains(t, x) <==> x in leaves by {
        forall x | true
          ensures Contains(t, x) <==> x in leaves
        {
          IndexOfMeaning(leaves, x);
        }
      }
      Success(t)
  }

  /** Data that records no leaves loads whatever its nodes, as the rebuilding loop reads
      no slot; here a depth-1 record with no nodes at all. */
  lemma NoLeavesAlwaysLoads(sponge: SpongeFn)
    ensures FromData(MerkleTreeData([], 1, 0), sponge).Success?
    ensures forall x :: !Contains(FromData(MerkleTreeData([], 1, 0), sponge).value, x)
  {
  }

  /** Storing a tree built with the default hasher and loading it back gives the same tree. */
  lemma StorageRoundTrip(t: MerkleTree, sponge: SpongeFn)
    requires Valid(t) && t.hasher == Poseidon.New(sponge)
    ensures FromData(ToData(t), sponge) == Success(t)
  {
  }
}

=== FILE: poseidon.dfy ===
/** `PoseidonHasher` (src/merkle/hash.rs): the default parameter set, the
    generated round-constant and MDS tables, and hashing through the sponge.
    The Poseidon permutation itself is uninterpreted: a sponge is modelled by
    the sequence of elements it has absorbed, and squeezing one element applies
    the library function `SpongeFn` to the configuration and that sequence. */
module Poseidon {
  import opened Wrappers
  import opened Bytes
  import opened Hex
  import opened Field

  const FULL_ROUNDS: nat := 8
  const PARTIAL_ROUNDS: nat := 57
  const ALPHA: nat := 5
  const RATE: nat := 2
  const CAPACITY: nat := 1

  /** The 64-bit golden-ratio multiplier used to derive round constants. */
  const SEED_MULTIPLIER: int := 0x9e3779b97f4a7c15
  /** Its inverse modulo 2^64 (the multiplier is odd). */
  const SEED_MULTIPLIER_INVERSE: int := 17428512612931826493

  datatype PoseidonConfig = PoseidonConfig(
    fullRounds: nat,
    partialRounds: nat,
    alpha: nat,
    ark: seq<seq<Fr>>,
    mds: seq<seq<Fr>>,
    rate: nat,
    capacity: nat)

  /** The library's Poseidon sponge: absorb the elements in order, squeeze one element. */
  type SpongeFn = (PoseidonConfig, seq<Fr>) -> Fr

  datatype PoseidonHasher = PoseidonHasher(config: PoseidonConfig, sponge: SpongeFn)

  // ---------------------------------------------------------------- parameters

  /** Round-constant seed: `((r * width + i) as u64).wrapping_mul(SEED_MULTIPLIER)`. */
  function Seed(r: nat, width: nat, i: nat): (s: nat)
    ensures s < U64_LIMIT
  {
    ((r * width + i) * SEED_MULTIPLIER) % U64_LIMIT
  }

  function RoundConstant(r: nat, width: nat, i: nat): Fr {
    FromU64(Seed(r, width, i))
  }

  /** The round-constant table: one row of `width` constants per round. */
  function ArkTable(width: nat, rounds: nat): (t: seq<seq<Fr>>)
    ensures |t| == rounds && forall r :: 0 <= r < rounds ==> |t[r]| == width
  {
    seq(rounds, r requires 0 <= r < rounds => seq(width, i requires 0 <= i < width => RoundConstant(r, width, i)))
  }

  /** MDS entry `(i, j)`: the inverse of `(i + 1) + (width + j + 1)`, or 1 if there is none. */
  function MdsEntry(width: nat, i: nat, j: nat): Fr
    requires i + width + j + 2 < U64_LIMIT
  {
    Inverse(Add(FromU64(i + 1), FromU64(width + j + 1))).GetOr(ONE)
  }

  /** The `width` by `width` MDS matrix. */
  function MdsTable(width: nat): (t: seq<seq<Fr>>)
    requires 3 * width + 2 < U64_LIMIT
    ensures |t| == width && forall i :: 0 <= i < width ==> |t[i]| == width
  {
    seq(width, i requires 0 <= i < width => seq(width, j requires 0 <= j < width => MdsEntry(width, i, j)))
  }

  /** `generate_parameters(width, full_rounds, partial_rounds)`, filling both tables
      row by row as the source's nested loops do. */
  method GenerateParameters(width: nat, fullRounds: nat, partialRounds: nat)
    returns (ark: seq<seq<Fr>>, mds: seq<seq<Fr>>)
    requires 3 * width + 2 < U64_LIMIT
    ensures ark == ArkTable(width, fullRounds + partialRounds)
    ensures mds == MdsTable(width)
  {
    var total := fullRounds + partialRounds;
    ark := [];
    var r := 0;
    while r < total
      invariant r <= total && |ark| == r
      invariant forall k :: 0 <= k < r ==> ark[k] == ArkTable(width, total)[k]
    {
      var row := [];
      var i := 0;
      while i < width
        invariant i <= width && |row| == i
        invariant forall k :: 0 <= k < i ==> row[k] == RoundConstant(r, width, k)
      {
        row := row + [RoundConstant(r, width, i)];
        i := i + 1;
      }
      ark := ark + [row];
      r := r + 1;
    }
    mds := [];
    var i := 0;
    while i < width
      invariant i <= width && |mds| == i
      invariant forall k :: 0 <= k < i ==> mds[k] == MdsTable(width)[k]
    {
      var row := [];
      var j := 0;
      while j < width
        invariant j <= width && |row| == j
        invariant forall k :: 0 <= k < j ==> row[k] == MdsEntry(width, i, k)
      {
        row := row + [MdsEntry(width, i, j)];
        j := j + 1;
      }
      mds := mds + [row];
      i := i + 1;
    }
  }

  /** `default_config()`: 8 full and 57 partial rounds, S-box x^5, rate 2 and
      capacity 1, with the tables generated for its own width and round count. */
  function DefaultConfig(): (c: PoseidonConfig)
    ensures c.fullRounds == 8 && c.partialRounds == 57 && c.alpha == 5
    ensures c.rate == 2 && c.capacity == 1
    ensures c.ark == ArkTable(c.rate + c.capacity, c.fullRounds + c.partialRounds)
    ensures c.mds == MdsTable(c.rate + c.capacity)
  {
    var width := RATE + CAPACITY;
    var ark := ArkTable(width, FULL_ROUNDS + PARTIAL_ROUNDS);
    var mds := MdsTable(width);
    PoseidonConfig(FULL_ROUNDS, PARTIAL_ROUNDS, ALPHA, ark, mds, RATE, CAPACITY)
  }

  /** `PoseidonHasher::new()`. */
  function New(sponge: SpongeFn): (h: PoseidonHasher)
    ensures h.config == DefaultConfig() && h.sponge == sponge
  {
    PoseidonHasher(DefaultConfig(), sponge)
  }

  /** `PoseidonHasher::default()` delegates to `new()`. */
  function Default(sponge: SpongeFn): (h: PoseidonHasher)
    ensures h == New(sponge)
  {
    New(sponge)
  }

  // ---------------------------------------------------------------- facts about the tables

  lemma ModMulInverse(n: int)
    requires 0 <= n < U64_LIMIT
    ensures ((n * SEED_MULTIPLIER) % U64_LIMIT * SEED_MULTIPLIER_INVERSE) % U64_LIMIT == n
  {
    var m := U64_LIMIT;
    var c := (SEED_MULTIPLIER * SEED_MULTIPLIER_INVERSE) / m;
    assert SEED_MULTIPLIER * SEED_MULTIPLIER_INVERSE == m * c + 1;
    ModMulLeft(n * SEED_MULTIPLIER, SEED_MULTIPLIER_INVERSE, m);
    assert n * SEED_MULTIPLIER * SEED_MULTIPLIER_INVERSE == n + m * (n * c);
    ModShift(n, m, n * c);
  }

  /** A row-major position determines its row and column. */
  lemma PositionUnique(r1: nat, i1: nat, r2: nat, i2: nat, width: nat)
    requires i1 < width && i2 < width
    requires r1 * width + i1 == r2 * width + i2
    ensures r1 == r2 && i1 == i2
  {
    if r1 < r2 {
      assert r2 * width - r1 * width == width * (r2 - r1);
      MulAtLeast(width, r2 - r1);
    } else if r2 < r1 {
      assert r1 * width - r2 * width == width * (r1 - r2);
      MulAtLeast(width, r1 - r2);
    }
  }

  /** Distinct table positions get distinct round constants: multiplying by an odd
      number is a bijection modulo 2^64. */
  lemma RoundConstantsDistinct(r1: nat, i1: nat, r2: nat, i2: nat, width: nat)
    requires i1 < width && i2 < width
    requires (r1, i1) != (r2, i2)
    requires r1 * width + i1 < U64_LIMIT && r2 * width + i2 < U64_LIMIT
    ensures RoundConstant(r1, width, i1) != RoundConstant(r2, width, i2)
  {
    var n1, n2 := r1 * width + i1, r2 * width + i2;
    if n1 == n2 {
      PositionUnique(r1, i1, r2, i2, width);
    } else {
      ModMulInverse(n1);
      ModMulInverse(n2);
    }
  }

  /** The sums 5 to 9 that occur in the default MDS matrix are invertible. */
  lemma SmallSumInvertible(s: nat)
    requires 5 <= s <= 9
    ensures Inverse(FromU64(s)).Some?
  {
    var y: Fr;
    if s == 5 {
      y := 8755297148735710088898562298102910035419345760166413737479281674723398247;
    } else if s == 6 {
      y := 3648040478639879203707734290876212514758060733402672390616367364468082603;
    } else if s == 7 {
      y := 12507567355336728698426517568718442907741922514523448196398973821033426067;
    } else if s == 8 {
      y := 19152212512859365819465605027100115702479818850364030050735928663457433665;
    } else {
      y := 9728107943039677876553958109003233372688161955740459708310312971914886941;
    }
    assert Mul(FromU64(s), y) == ONE;
  }

  /** Every MDS entry is the inverse of its sum `(i + 1) + (width + j + 1)`, unless
      that sum has no inverse, in which case the entry falls back to 1. */
  lemma MdsEntryMeaning(width: nat, i: nat, j: nat)
    requires i + width + j + 2 < U64_LIMIT
    ensures var sum := Add(FromU64(i + 1), FromU64(width + j + 1));
            Mul(MdsEntry(width, i, j), sum) == ONE
            || (MdsEntry(width, i, j) == ONE && forall y: Fr :: Mul(sum, y) != ONE)
  {
  }

  lemma InverseCommutes(x: Fr)
    requires Inverse(x).Some?
    ensures Mul(Inverse(x).GetOr(ONE), x) == ONE
  {
    var y := Inverse(x).value;
    assert Mul(x, y) == ONE;
    assert (y as int * x as int) == (x as int * y as int);
  }

  lemma DefaultMdsIsGenerated(i: nat, j: nat)
    requires i < 3 && j < 3
    ensures DefaultConfig().mds[i][j] == MdsEntry(3, i, j)
  {
    assert DefaultConfig().mds == MdsTable(3);
  }

  /** With the default width of 3 the fallback never happens: each default MDS entry
      really is the inverse of `i + j + 5`. */
  lemma DefaultMdsEntryIsInverse(i: nat, j: nat)
    requires i < 3 && j < 3
    ensures Mul(DefaultConfig().mds[i][j], FromU64(i + j + 5)) == ONE
  {
    DefaultMdsIsGenerated(i, j);
    SumOfSmall(i + 1, 3 + j + 1);
    SmallSumInvertible(i + j + 5);
    InverseCommutes(FromU64(i + j + 5));
  }

  lemma SumOfSmall(a: nat, b: nat)
    requires a < U64_LIMIT && b < U64_LIMIT
    ensures Add(FromU64(a), FromU64(b)) as int == a + b
  {
  }

  // ---------------------------------------------------------------- hashing

  /** A sponge state, known only by the configuration and what it has absorbed. */
  datatype Sponge = Sponge(config: PoseidonConfig, absorbed: seq<Fr>)

  function Absorb(s: Sponge, x: Fr): Sponge {
    s.(absorbed := s.absorbed + [x])
  }

  /** Absorbs the elements one at a time, in order. */
  function AbsorbAll(s: Sponge, xs: seq<Fr>): (r: Sponge)
    decreases |xs|
  {
    if |xs| == 0 then s else AbsorbAll(Absorb(s, xs[0]), xs[1..])
  }

  lemma {:induction false} AbsorbAllAppends(s: Sponge, xs: seq<Fr>)
    ensures AbsorbAll(s, xs) == Sponge(s.config, s.absorbed + xs)
    decreases |xs|
  {
    if |xs| > 0 {
      AbsorbAllAppends(Absorb(s, xs[0]), xs[1..]);
      assert s.absorbed + [xs[0]] + xs[1..] == s.absorbed + xs;
    }
  }

  function SqueezeOne(h: PoseidonHasher, s: Sponge): Fr {
    h.sponge(s.config, s.absorbed)
  }

  /** `hash_two(left, right)`: absorb left, then right, squeeze one. */
  function HashTwo(h: PoseidonHasher, left: Fr, right: Fr): Fr {
    SqueezeOne(h, Absorb(Absorb(Sponge(h.config, []), left), right))
  }

  /** `hash_many(elements)`: absorb every element in order, squeeze one. */
  function HashMany(h: PoseidonHasher, elements: seq<Fr>): (r: Fr)
    ensures r == h.sponge(h.config, elements)
  {
    AbsorbAllAppends(Sponge(h.config, []), elements);
    assert [] + elements == elements;
    SqueezeOne(h, AbsorbAll(Sponge(h.config, []), elements))
  }

  /** Both entry points feed the sponge the same two elements in the same order. */
  lemma HashTwoIsHashMany(h: PoseidonHasher, a: Fr, b: Fr)
    ensures HashTwo(h, a, b) == HashMany(h, [a, b])
  {
    assert [] + [a] + [b] == [a, b];
  }

  // ---------------------------------------------------------------- byte conversions

  /** `bytes_to_field`: the big-endian value reduced modulo the field order. */
  function BytesToField(b: seq<uint8>): (r: Fr)
    ensures r as int == BeValue(b) % MODULUS
  {
    FromBeBytesModOrder(b)
  }

  /** `hex_to_field`: decode the hex string, failing exactly as `hex::decode` does. */
  function HexToField(s: string): (r: Result<Fr, HexError>)
    ensures r.Failure? <==> HexDecode(s).Failure?
    ensures r.Failure? ==> r.error == HexDecode(s).error
    ensures r.Success? ==> r.value == BytesToField(HexDecode(s).value)
  {
    var bytes :- HexDecode(s);
    Success(BytesToField(bytes))
  }

  /** Hex-encoding bytes and parsing them back gives the same field element. */
  lemma HexToFieldOfEncoded(b: seq<uint8>)
    ensures HexToField(HexEncode(b)) == Success(BytesToField(b))
  {
    HexRoundTrip(b);
  }
}

=== FILE: prover.dfy ===
/** The Groth16 prover for Merkle membership: trusted setup for a depth, proofs
    from a tree or a precomputed path, the serialised `MembershipProof`, and the
    bytes of a saved proving key (the file write and read themselves are not modelled). */
module Proving {
  import opened Wrappers
  import opened Bytes
  import opened Field
  import opened Poseidon
  import opened Merkle
  import opened Groth16
  import opened MerkleCircuit
  import Text

  /** `StdRng::seed_from_u64(0xDEADBEEF)`, the setup randomness. */
  const SETUP_SEED: nat := 0xDEADBEEF
  /** `StdRng::seed_from_u64(0xCAFEBABE)`, the proving randomness. */
  const PROVE_SEED: nat := 0xCAFEBABE

  /** `ProverError`, without the I/O variant. `SlicePanic` is not a variant of the source's
      enum: it stands for the panic of `bytes[proof_size..]` when the re-encoded proof is
      longer than its input. */
  datatype ProverError =
    | SetupFailed(msg: string)
    | ProofGenerationFailed(msg: string)
    | SerializationError(msg: string)
    | LeafNotFound
    | SlicePanic

  /** The `Display` text of an error. */
  function Message(e: ProverError): string {
    match e
    case SetupFailed(m) => "Trusted setup failed: " + m
    case ProofGenerationFailed(m) => "Proof generation failed: " + m
    case SerializationError(m) => "Serialization error: " + m
    case LeafNotFound => "Leaf not found in tree"
    case SlicePanic => "range start index out of range for slice"
  }

  // ---------------------------------------------------------------- membership proofs

  datatype MembershipProof = MembershipProof(proof: Proof, publicInput: Fr)

  /** `MembershipProof::to_bytes`: the compressed proof, then the compressed public input. */
  function ToBytes(codec: Codec, m: MembershipProof): (b: seq<uint8>)
    ensures StartsWithBytes(b, codec.proofToBytes(m.proof))
    ensures b[|codec.proofToBytes(m.proof)|..] == codec.frToBytes(m.publicInput)
  {
    codec.proofToBytes(m.proof) + codec.frToBytes(m.publicInput)
  }

  predicate StartsWithBytes(b: seq<uint8>, prefix: seq<uint8>) {
    |prefix| <= |b| && b[..|prefix|] == prefix
  }

  /** `MembershipProof::from_bytes`: decode a proof from the front, re-encode it to learn
      its length, and decode the public input from the remaining bytes. */
  function FromBytes(codec: Codec, b: seq<uint8>): (r: Result<MembershipProof, ProverError>)
    ensures codec.proofFromBytes(b).Failure? ==> r == Failure(SerializationError(codec.proofFromBytes(b).error))
    ensures r.Success? ==> codec.proofFromBytes(b) == Success(r.value.proof)
    ensures r.Success? ==> var n := |codec.proofToBytes(r.value.proof)|;
                           n <= |b| && codec.frFromBytes(b[n..]) == Success(r.value.publicInput)
  {
    var proof :- codec.proofFromBytes(b).MapFailure(e => SerializationError(e));
    var size := |codec.proofToBytes(proof)|;
    if size > |b| then Failure(SlicePanic)
    else
      var publicInput :- codec.frFromBytes(b[size..]).MapFailure(e => SerializationError(e));
      Success(MembershipProof(proof, publicInput))
  }

  /** With round-tripping serialisers, decoding the encoding gives back the proof and its root. */
  lemma ProofBytesRoundTrip(codec: Codec, m: MembershipProof)
    requires CodecLaws(codec)
    ensures FromBytes(codec, ToBytes(codec, m)) == Success(m)
  {
    var b := ToBytes(codec, m);
    assert codec.proofFromBytes(codec.proofToBytes(m.proof) + codec.frToBytes(m.publicInput)) == Success(m.proof);
    assert codec.frFromBytes(codec.frToBytes(m.publicInput) + []) == Success(m.publicInput);
    assert codec.frToBytes(m.publicInput) + [] == b[|codec.proofToBytes(m.proof)|..];
  }

  /** `MembershipProof::size`: the length of the encoding. */
  function Size(codec: Codec, m: MembershipProof): (n: nat)
    ensures n == |codec.proofToBytes(m.proof)| + |codec.frToBytes(m.publicInput)|
  {
    |ToBytes(codec, m)|
  }

  // ---------------------------------------------------------------- the prover

  datatype Prover = Prover(provingKey: ProvingKey, depth: nat)

  /** `Prover::depth`. */
  function Depth(p: Prover): nat {
    p.depth
  }

  /** `Prover::setup`: keys for the all-zero circuit of the given depth. */
  function Setup(snark: Snark<MerkleProofCircuit>, sponge: SpongeFn, depth: nat)
    : (r: Result<(Prover, VerifyingKey), ProverError>)
    ensures var keys := snark.setup(NewEmpty(depth, sponge), SETUP_SEED);
            && (keys.Failure? ==> r == Failure(SetupFailed(keys.error)))
            && (keys.Success? ==> r.Success? && r.value.0.provingKey == keys.value.0 && r.value.1 == keys.value.1)
    ensures r.Success? ==> Depth(r.value.0) == depth
  {
    var keys :- snark.setup(NewEmpty(depth, sponge), SETUP_SEED).MapFailure(e => SetupFailed(e));
    Success((Prover(keys.0, depth), keys.1))
  }

  /** The message of the depth check in `prove_with_path`. */
  function DepthMismatch(pathDepth: nat, setupDepth: nat): string {
    "Path depth " + Text.NatToString(pathDepth) + " doesn't match prover setup depth " + Text.NatToString(setupDepth)
  }

  /** `Prover::prove_with_path`: the depth check comes first and needs no proving; on
      success the public input is the given root. */
  function ProveWithPath(snark: Snark<MerkleProofCircuit>, p: Prover, path: MerklePath, root: Fr)
    : (r: Result<MembershipProof, ProverError>)
    ensures |path.siblings| != p.depth ==>
              r == Failure(ProofGenerationFailed(DepthMismatch(|path.siblings|, p.depth)))
    ensures |path.siblings| == p.depth ==>
              var attempt := snark.prove(p.provingKey, NewWithWitness(path, root), PROVE_SEED);
              && (attempt.Failure? ==> r == Failure(ProofGenerationFailed(attempt.error)))
              && (attempt.Success? ==> r == Success(MembershipProof(attempt.value, root)))
    ensures r.Success? ==> r.value.publicInput == root
  {
    var circuit := NewWithWitness(path, root);
    if MerkleCircuit.Depth(circuit) != p.depth then
      Failure(ProofGenerationFailed(DepthMismatch(MerkleCircuit.Depth(circuit), p.depth)))
    else
      var proof :- snark.prove(p.provingKey, circuit, PROVE_SEED).MapFailure(e => ProofGenerationFailed(e));
      Success(MembershipProof(proof, root))
  }

  /** `Prover::prove`: locate the leaf, take its path, and prove it against the tree's root. */
  function Prove(snark: Snark<MerkleProofCircuit>, p: Prover, t: MerkleTree, leaf: Fr)
    : (r: Result<MembershipProof, ProverError>)
    requires WellFormed(t)
    ensures FindLeaf(t, leaf).None? ==> r == Failure(LeafNotFound)
    ensures FindLeaf(t, leaf).Some? && FindLeaf(t, leaf).value >= t.numLeaves ==> r == Failure(LeafNotFound)
    ensures FindLeaf(t, leaf).Some? && FindLeaf(t, leaf).value < t.numLeaves ==>
              r == ProveWithPath(snark, p, GetPath(t, FindLeaf(t, leaf).value).value, Root(t))
    ensures r.Success? ==> r.value.publicInput == Root(t)
  {
    var leafIndex :- FindLeaf(t, leaf).ToResult(LeafNotFound);
    var path :- GetPath(t, leafIndex).ToResult(LeafNotFound);
    ProveWithPath(snark, p, path, Root(t))
  }

  /** On a valid tree, `prove` reports a missing leaf exactly for the values that are not
      leaves, and proves every leaf with the path from its indexed position. */
  lemma ProveLocatesLeaf(snark: Snark<MerkleProofCircuit>, p: Prover, t: MerkleTree, leaf: Fr)
    requires Valid(t)
    ensures Prove(snark, p, t, leaf) == Failure(LeafNotFound) <==> leaf !in Leaves(t)
    ensures leaf in Leaves(t) ==>
              && FindLeaf(t, leaf).Some? && Leaves(t)[FindLeaf(t, leaf).value] == leaf
              && Prove(snark, p, t, leaf) == ProveWithPath(snark, p, GetPath(t, FindLeaf(t, leaf).value).value, Root(t))
  {
  }

  // ---------------------------------------------------------------- proving-key files

  /** The bytes `save_proving_key` writes: the depth as a little-endian `u32`, then the key. */
  function SaveProvingKey(codec: Codec, p: Prover): (r: Result<seq<uint8>, ProverError>)
    ensures codec.pkToBytes(p.provingKey).Failure? ==>
              r == Failure(SerializationError(codec.pkToBytes(p.provingKey).error))
    ensures r.Success? ==> |r.value| >= 4 && U32FromLe(r.value[..4]) == p.depth % U32_LIMIT
    ensures r.Success? ==> codec.pkToBytes(p.provingKey) == Success(r.value[4..])
  {
    var keyBytes :- codec.pkToBytes(p.provingKey).MapFailure(e => SerializationError(e));
    var file := U32ToLe(p.depth) + keyBytes;
    U32LeRoundTrip(p.depth);
    assert file[..4] == U32ToLe(p.depth) && file[4..] == keyBytes;
    Success(file)
  }

  /** `load_proving_key` on the file's bytes: the header is read unchecked (a file shorter
      than four bytes makes the source panic), then the key is decoded. */
  function LoadProvingKey(codec: Codec, bytes: seq<uint8>): (r: Result<Prover, ProverError>)
    requires |bytes| >= 4
    ensures codec.pkFromBytes(bytes[4..]).Failure? ==>
              r == Failure(SerializationError(codec.pkFromBytes(bytes[4..]).error))
    ensures r.Success? ==> r.value.depth == U32FromLe(bytes[..4])
                           && codec.pkFromBytes(bytes[4..]) == Success(r.value.provingKey)
  {
    var depth := U32FromLe(bytes[..4]);
    var pk :- codec.pkFromBytes(bytes[4..]).MapFailure(e => SerializationError(e));
    Success(Prover(pk, depth))
  }

  /** A saved key loads back as the same prover whenever its depth fits in a `u32`. */
  lemma ProvingKeyRoundTrip(codec: Codec, p: Prover)
    requires CodecLaws(codec)
    requires p.depth < U32_LIMIT
    requires SaveProvingKey(codec, p).Success?
    ensures LoadProvingKey(codec, SaveProvingKey(codec, p).value) == Success(p)
  {
  }
}

=== FILE: text.dfy ===
/** The handful of Rust `str` operations the core relies on, over `string`
    (a sequence of Unicode scalar values). Case mapping is ASCII-only; `trim`
    uses the Unicode White_Space set exactly as Rust's `char::is_whitespace`. */
module Text {
  import opened Wrappers

  // ---------------------------------------------------------------- characters

  /** Rust's `char::is_whitespace` (the Unicode White_Space property). */
  predicate IsWhitespace(c: char) {
    || c == ' '
    || ('\t' <= c <= '\r')
    || c == '\U{0085}' || c == '\U{00A0}' || c == '\U{1680}'
    || ('\U{2000}' <= c <= '\U{200A}')
    || c == '\U{2028}' || c == '\U{2029}' || c == '\U{202F}' || c == '\U{205F}'
    || c == '\U{3000}'
  }

  predicate IsAsciiUpper(c: char) { 'A' <= c <= 'Z' }

  predicate IsAsciiLower(c: char) { 'a' <= c <= 'z' }

  function LowerChar(c: char): char {
    if IsAsciiUpper(c) then (c as int + 32) as char else c
  }

  function UpperChar(c: char): char {
    if IsAsciiLower(c) then (c as int - 32) as char else c
  }

  /** `str::to_lowercase`, restricted to the ASCII letters. */
  function ToLower(s: string): string {
    seq(|s|, i requires 0 <= i < |s| => LowerChar(s[i]))
  }

  /** `str::to_uppercase`, restricted to the ASCII letters. */
  function ToUpper(s: string): string {
    seq(|s|, i requires 0 <= i < |s| => UpperChar(s[i]))
  }

  /** Lower-casing leaves no ASCII capital behind and is idempotent. */
  lemma ToLowerNormalises(s: string)
    ensures forall i :: 0 <= i < |ToLower(s)| ==> !IsAsciiUpper(ToLower(s)[i])
    ensures ToLower(ToLower(s)) == ToLower(s)
  {
  }

  /** Upper-casing leaves no ASCII small letter behind and is idempotent. */
  lemma ToUpperNormalises(s: string)
    ensures forall i :: 0 <= i < |ToUpper(s)| ==> !IsAsciiLower(ToUpper(s)[i])
    ensures ToUpper(ToUpper(s)) == ToUpper(s)
  {
  }

  /** Two strings that differ only in the case of ASCII letters upper-case alike. */
  lemma ToUpperCaseInsensitive(s: string, t: string)
    requires |s| == |t|
    requires forall i :: 0 <= i < |s| ==> LowerChar(s[i]) == LowerChar(t[i])
    ensures ToUpper(s) == ToUpper(t)
  {
  }

  // ---------------------------------------------------------------- trimming

  /** `str::trim_start`: drops the leading whitespace, and only that. */
  function TrimStart(s: string): (r: string)
    ensures |r| <= |s| && r == s[|s| - |r|..]
    ensures forall k :: 0 <= k < |s| - |r| ==> IsWhitespace(s[k])
    ensures r == [] || !IsWhitespace(r[0])
  {
    if |s| > 0 && IsWhitespace(s[0]) then TrimStart(s[1..]) else s
  }

  /** `str::trim_end`: drops the trailing whitespace, and only that. */
  function TrimEnd(s: string): (r: string)
    ensures |r| <= |s| && r == s[..|r|]
    ensures forall k :: |r| <= k < |s| ==> IsWhitespace(s[k])
    ensures r == [] || !IsWhitespace(r[|r| - 1])
  {
    if |s| > 0 && IsWhitespace(s[|s| - 1]) then TrimEnd(s[..|s| - 1]) else s
  }

  /** `sub` occurs in `s` starting at position `i`. */
  predicate OccursAt(s: string, i: int, sub: string) {
    0 <= i && i + |sub| <= |s| && s[i..i + |sub|] == sub
  }

  /** `str::trim`: the infix of `s` left after removing whitespace at both ends. */
  function Trim(s: string): (r: string)
    ensures exists i :: OccursAt(s, i, r)
                        && (forall k :: 0 <= k < i ==> IsWhitespace(s[k]))
                        && (forall k :: i + |r| <= k < |s| ==> IsWhitespace(s[k]))
    ensures r == [] || (!IsWhitespace(r[0]) && !IsWhitespace(r[|r| - 1]))
  {
    var front := TrimStart(s);
    var r := TrimEnd(front);
    TrimSplitsAround(s, front, r);
    r
  }

  lemma TrimSplitsAround(s: string, front: string, r: string)
    requires |front| <= |s| && front == s[|s| - |front|..]
    requires |r| <= |front| && r == front[..|r|]
    requires forall k :: |r| <= k < |front| ==> IsWhitespace(front[k])
    ensures OccursAt(s, |s| - |front|, r)
    ensures forall k :: |s| - |front| + |r| <= k < |s| ==> IsWhitespace(s[k])
  {
    var i := |s| - |front|;
    assert front == s[i..];
    assert r == front[..|r|];
    assert r == s[i..i + |r|];
    forall k | i + |r| <= k < |s|
      ensures IsWhitespace(s[k])
    {
      assert s[k] == front[k - i];
    }
  }

  /** `trim` keeps exactly the infix `s[a..e]` when everything outside it is whitespace and
      its two ends are not. */
  lemma TrimAt(s: string, a: nat, e: nat)
    requires a < e <= |s|
    requires forall k :: 0 <= k < a ==> IsWhitespace(s[k])
    requires forall k :: e <= k < |s| ==> IsWhitespace(s[k])
    requires !IsWhitespace(s[a]) && !IsWhitespace(s[e - 1])
    ensures Trim(s) == s[a..e]
  {
    var r := Trim(s);
    var i :| OccursAt(s, i, r)
             && (forall k :: 0 <= k < i ==> IsWhitespace(s[k]))
             && (forall k :: i + |r| <= k < |s| ==> IsWhitespace(s[k]));
    assert i <= a && a < i + |r|;
    assert r[0] == s[i];
    assert i == a;
    assert e <= i + |r|;
    assert r[|r| - 1] == s[i + |r| - 1];
    assert i + |r| == e;
  }

  /** Whitespace around a string whose ends are not whitespace is exactly what `trim` drops. */
  lemma TrimOfPadded(pre: string, m: string, post: string)
    requires forall k :: 0 <= k < |pre| ==> IsWhitespace(pre[k])
    requires forall k :: 0 <= k < |post| ==> IsWhitespace(post[k])
    requires m != [] && !IsWhitespace(m[0]) && !IsWhitespace(m[|m| - 1])
    ensures Trim(pre + m + post) == m
  {
    var s := pre + m + post;
    var a, e := |pre|, |pre| + |m|;
    assert forall k :: 0 <= k < a ==> s[k] == pre[k];
    assert forall k :: e <= k < |s| ==> s[k] == post[k - e];
    assert s[a] == m[0] && s[e - 1] == m[|m| - 1];
    TrimAt(s, a, e);
    assert s[a..e] == m;
  }

  /** A string without surrounding whitespace is its own trim. */
  lemma TrimOfTrimmed(s: string)
    requires s == [] || (!IsWhitespace(s[0]) && !IsWhitespace(s[|s| - 1]))
    ensures Trim(s) == s
  {
  }

  // ---------------------------------------------------------------- searching

  predicate StartsWith(s: string, prefix: string) {
    |prefix| <= |s| && s[..|prefix|] == prefix
  }

  predicate EndsWith(s: string, suffix: string) {
    |suffix| <= |s| && s[|s| - |suffix|..] == suffix
  }

  /** Rust's `str::contains` with a string pattern. */
  predicate Contains(s: string, sub: string)
    decreases |s|
  {
    StartsWith(s, sub) || (|s| > 0 && Contains(s[1..], sub))
  }

  /** `Contains` finds `sub` exactly when it occurs at some position of `s`. */
  lemma {:induction false} ContainsIffOccurs(s: string, sub: string)
    ensures Contains(s, sub) <==> exists i :: OccursAt(s, i, sub)
    decreases |s|
  {
    if StartsWith(s, sub) {
      assert OccursAt(s, 0, sub);
    } else if |s| > 0 {
      ContainsIffOccurs(s[1..], sub);
      if Contains(s[1..], sub) {
        var i :| OccursAt(s[1..], i, sub);
        assert s[1..][i..i + |sub|] == s[i + 1..i + 1 + |sub|];
        assert OccursAt(s, i + 1, sub);
      }
      if exists i :: OccursAt(s, i, sub) {
        var i :| OccursAt(s, i, sub);
        assert i > 0;
        assert s[1..][i - 1..i - 1 + |sub|] == s[i..i + |sub|];
        assert OccursAt(s[1..], i - 1, sub);
      }
    } else {
      assert !exists i :: OccursAt(s, i, sub);
    }
  }

  /** Index of the first occurrence of `c`, as `str::find` with a char. */
  function Find(s: string, c: char): (r: Option<nat>)
    ensures r.None? <==> c !in s
    ensures r.Some? ==> r.value < |s| && s[r.value] == c && c !in s[..r.value]
  {
    if |s| == 0 then None
    else if s[0] == c then Some(0)
    else match Find(s[1..], c)
      case None => None
      case Some(i) => Some(i + 1)
  }

  /** The text before the first `c` (all of `s` when there is none). */
  function Before(s: string, c: char): (r: string)
    ensures c !in r && StartsWith(s, r)
  {
    match Find(s, c)
    case None => s
    case Some(i) => s[..i]
  }

  /** The first `c` of `a + [c] + b` is the one after `a` when `a` has none. */
  lemma FindPastPrefix(a: string, c: char, b: string)
    requires c !in a
    ensures Find(a + [c] + b, c) == Some(|a|)
    ensures Before(a + [c] + b, c) == a
  {
    var s := a + [c] + b;
    assert s[|a|] == c;
    assert s[..|a|] == a;
  }

  /** Text without `c` is its own prefix before `c`. */
  lemma BeforeAbsent(s: string, c: char)
    requires c !in s
    ensures Before(s, c) == s
  {
  }

  // ---------------------------------------------------------------- splitting

  /** Rust's `str::split` with a char separator: `a;b;` gives `a`, `b` and an empty part. */
  function Split(s: string, c: char): (parts: seq<string>)
    ensures |parts| >= 1
    ensures forall k :: 0 <= k < |parts| ==> c !in parts[k]
    decreases |s|
  {
    match Find(s, c)
    case None => [s]
    case Some(i) => [s[..i]] + Split(s[i + 1..], c)
  }

  /** The inverse of `Split`: the parts glued back together with the separator. */
  function Join(parts: seq<string>, c: char): string
    requires |parts| >= 1
  {
    if |parts| == 1 then parts[0] else parts[0] + [c] + Join(parts[1..], c)
  }

  lemma {:induction false} JoinSplit(s: string, c: char)
    ensures Join(Split(s, c), c) == s
    decreases |s|
  {
    match Find(s, c)
    case None =>
    case Some(i) =>
      var rest := Split(s[i + 1..], c);
      assert Split(s, c) == [s[..i]] + rest;
      assert ([s[..i]] + rest)[1..] == rest;
      JoinSplit(s[i + 1..], c);
      assert s == s[..i] + [c] + s[i + 1..];
  }

  lemma {:induction false} SplitJoin(parts: seq<string>, c: char)
    requires |parts| >= 1
    requires forall k :: 0 <= k < |parts| ==> c !in parts[k]
    ensures Split(Join(parts, c), c) == parts
    decreases |parts|
  {
    if |parts| > 1 {
      var tail := Join(parts[1..], c);
      var s := parts[0] + [c] + tail;
      assert Join(parts, c) == s;
      FindPastPrefix(parts[0], c, tail);
      assert s[..|parts[0]|] == parts[0];
      assert s[|parts[0]| + 1..] == tail;
      SplitJoin(parts[1..], c);
      assert parts == [parts[0]] + parts[1..];
    } else {
      assert Find(parts[0], c).None?;
    }
  }

  /** `s.split(c).nth(1)`: the text between the first and the second `c`. */
  function SplitSecond(s: string, c: char): (r: Option<string>)
    ensures r.None? <==> c !in s
    ensures r.Some? ==> r.value == Before(s[Find(s, c).value + 1..], c)
  {
    var parts := Split(s, c);
    if |parts| >= 2 then
      SplitFirst(s[Find(s, c).value + 1..], c);
      Some(parts[1])
    else None
  }

  /** `split(c).nth(1)` of `a + [c] + b`, when `a` has no `c`, is the text of `b` before its first `c`. */
  lemma SplitSecondPastPrefix(a: string, c: char, b: string)
    requires c !in a
    ensures SplitSecond(a + [c] + b, c) == Some(Before(b, c))
  {
    FindPastPrefix(a, c, b);
    assert (a + [c] + b)[|a| + 1..] == b;
  }

  /** `s.split(c).next()`: always present, the text before the first `c`. */
  lemma SplitFirst(s: string, c: char)
    ensures Split(s, c)[0] == Before(s, c)
  {
  }

  // ---------------------------------------------------------------- decimal

  predicate IsDigit(c: char) { '0' <= c <= '9' }

  /** The character of one decimal digit. */
  function DigitChar(d: nat): (c: char)
    requires d < 10
    ensures IsDigit(c) && c as int - '0' as int == d
  {
    (d + '0' as int) as char
  }

  /** Rust's `Display` for an unsigned integer: decimal digits without leading zeros. */
  function NatToString(n: nat): (s: string)
    ensures |s| >= 1 && forall i :: 0 <= i < |s| ==> IsDigit(s[i])
    ensures s[0] == '0' ==> n == 0 && s == "0"
    decreases n
  {
    if n < 10 then [DigitChar(n)] else NatToString(n / 10) + [DigitChar(n % 10)]
  }

  /** The value a string of decimal digits denotes, most significant digit first. */
  function DecimalValue(s: string): nat
    requires forall i :: 0 <= i < |s| ==> IsDigit(s[i])
  {
    if |s| == 0 then 0
    else
      assert IsDigit(s[|s| - 1]);
      DecimalValue(s[..|s| - 1]) * 10 + (s[|s| - 1] as int - '0' as int)
  }

  /** The decimal text denotes the number it was made from, so distinct numbers print differently. */
  lemma {:induction false} NatToStringValue(n: nat)
    ensures DecimalValue(NatToString(n)) == n
    decreases n
  {
    if n >= 10 {
      NatToStringValue(n / 10);
      var s := NatToString(n);
      assert s[..|s| - 1] == NatToString(n / 10);
    }
  }
}

=== FILE: utf8.dfy ===
/** `str::as_bytes`: the UTF-8 encoding of a string, which is what every hash in
    the core is applied to. */
module Utf8 {
  import opened Bytes

  /** The one to four bytes of a Unicode scalar value. */
  function EncodeChar(c: char): (b: seq<uint8>)
    ensures 1 <= |b| <= 4
    ensures |b| == 1 <==> c as int < 0x80
    ensures c as int < 0x80 ==> b[0] as int == c as int
  {
    var n := c as int;
    if n < 0x80 then [n as uint8]
    else if n < 0x800 then [(0xC0 + n / 0x40) as uint8, (0x80 + n % 0x40) as uint8]
    else if n < 0x1_0000 then
      [(0xE0 + n / 0x1000) as uint8, (0x80 + n / 0x40 % 0x40) as uint8, (0x80 + n % 0x40) as uint8]
    else
      [(0xF0 + n / 0x4_0000) as uint8, (0x80 + n / 0x1000 % 0x40) as uint8,
       (0x80 + n / 0x40 % 0x40) as uint8, (0x80 + n % 0x40) as uint8]
  }

  /** The scalar value a well-formed encoded sequence of one character denotes. */
  function DecodeChar(b: seq<uint8>): int
    requires 1 <= |b| <= 4
  {
    if |b| == 1 then b[0] as int
    else if |b| == 2 then (b[0] as int - 0xC0) * 0x40 + (b[1] as int - 0x80)
    else if |b| == 3 then (b[0] as int - 0xE0) * 0x1000 + (b[1] as int - 0x80) * 0x40 + (b[2] as int - 0x80)
    else (b[0] as int - 0xF0) * 0x4_0000 + (b[1] as int - 0x80) * 0x1000 + (b[2] as int - 0x80) * 0x40 + (b[3] as int - 0x80)
  }

  /** Decoding a character's bytes gives back its scalar value, so distinct characters
      encode differently. */
  lemma DecodeEncodeChar(c: char)
    ensures DecodeChar(EncodeChar(c)) == c as int
  {
    var n := c as int;
    if n >= 0x800 && n < 0x1_0000 {
      assert n == n / 0x1000 * 0x1000 + n / 0x40 % 0x40 * 0x40 + n % 0x40;
    } else if n >= 0x1_0000 {
      assert n / 0x40 == n / 0x1000 * 0x40 + n / 0x40 % 0x40;
      assert n / 0x1000 == n / 0x4_0000 * 0x40 + n / 0x1000 % 0x40;
      assert n == n / 0x4_0000 * 0x4_0000 + n / 0x1000 % 0x40 * 0x1000 + n / 0x40 % 0x40 * 0x40 + n % 0x40;
    }
  }

  /** `s.as_bytes()`. */
  function Encode(s: string): (b: seq<uint8>)
    ensures |b| >= |s|
  {
    if |s| == 0 then [] else EncodeChar(s[0]) + Encode(s[1..])
  }

  /** Encoding distributes over concatenation. */
  lemma {:induction false} EncodeAppend(a: string, b: string)
    ensures Encode(a + b) == Encode(a) + Encode(b)
    decreases |a|
  {
    if |a| > 0 {
      assert (a + b)[1..] == a[1..] + b;
      EncodeAppend(a[1..], b);
    } else {
      assert a + b == b;
    }
  }

  predicate IsAscii(s: string) {
    forall i :: 0 <= i < |s| ==> s[i] as int < 0x80
  }

  /** An ASCII string encodes as its own code points, one byte each. */
  lemma {:induction false} EncodeAscii(s: string)
    requires IsAscii(s)
    ensures |Encode(s)| == |s|
    ensures forall i :: 0 <= i < |s| ==> Encode(s)[i] as int == s[i] as int
    decreases |s|
  {
    if |s| > 0 {
      EncodeAscii(s[1..]);
      assert Encode(s) == [s[0] as int as uint8] + Encode(s[1..]);
    }
  }
}

=== FILE: verifier.dfy ===
/** The Groth16 verifier for Merkle membership proofs: plain verification against
    the proof's own root, verification against an expected root, verification of
    serialised proofs and the verification report; plus the end-to-end statement that
    what the prover makes for a real leaf, the verifier accepts. */
module Verifying {
  import opened Wrappers
  import opened Bytes
  import opened Field
  import opened Poseidon
  import opened Merkle
  import opened Groth16
  import opened MerkleCircuit
  import opened Proving

  /** `VerifierError`, without the I/O variant. */
  datatype VerifierError =
    | VerificationFailed(msg: string)
    | InvalidProof(msg: string)
    | SerializationError(msg: string)
    | RootMismatch

  datatype Verifier = Verifier(preparedVk: PreparedVerifyingKey, verifyingKey: VerifyingKey)

  /** `Verifier::new`: keeps the key and its prepared form. */
  function NewVerifier(snark: Snark<MerkleProofCircuit>, vk: VerifyingKey): (v: Verifier)
    ensures v.verifyingKey == vk && v.preparedVk == snark.processVk(vk)
  {
    Verifier(snark.processVk(vk), vk)
  }

  /** `Verifier::verify`: the root is the one public input. */
  function Verify(snark: Snark<MerkleProofCircuit>, v: Verifier, m: MembershipProof): (r: Result<bool, VerifierError>)
    ensures var outcome := snark.verify(v.preparedVk, [m.publicInput], m.proof);
            && (outcome.Success? ==> r == Success(outcome.value))
            && (outcome.Failure? ==> r == Failure(VerificationFailed(outcome.error)))
  {
    snark.verify(v.preparedVk, [m.publicInput], m.proof).MapFailure(e => VerificationFailed(e))
  }

  /** `Verifier::verify_with_root`: a proof for another root is rejected before any pairing. */
  function VerifyWithRoot(snark: Snark<MerkleProofCircuit>, v: Verifier, m: MembershipProof, expectedRoot: Fr)
    : (r: Result<bool, VerifierError>)
    ensures m.publicInput != expectedRoot <==> r == Failure(RootMismatch)
    ensures m.publicInput == expectedRoot ==> r == Verify(snark, v, m)
  {
    if m.publicInput != expectedRoot then Failure(RootMismatch) else Verify(snark, v, m)
  }

  /** `Verifier::verify_bytes`: any decoding failure becomes `InvalidProof` with its message. */
  function VerifyBytes(snark: Snark<MerkleProofCircuit>, codec: Codec, v: Verifier, bytes: seq<uint8>)
    : (r: Result<bool, VerifierError>)
    ensures FromBytes(codec, bytes).Failure? ==> r == Failure(InvalidProof(Message(FromBytes(codec, bytes).error)))
    ensures FromBytes(codec, bytes).Success? ==> r == Verify(snark, v, FromBytes(codec, bytes).value)
  {
    var m :- FromBytes(codec, bytes).MapFailure(e => InvalidProof(Message(e)));
    Verify(snark, v, m)
  }

  /** Verifying the bytes of a proof is verifying the proof. */
  lemma VerifyBytesOfEncoded(snark: Snark<MerkleProofCircuit>, codec: Codec, v: Verifier, m: MembershipProof)
    requires CodecLaws(codec)
    ensures VerifyBytes(snark, codec, v, ToBytes(codec, m)) == Verify(snark, v, m)
  {
    ProofBytesRoundTrip(codec, m);
  }

  datatype VerificationReport = VerificationReport(isValid: bool, merkleRoot: Fr, proofSize: nat)

  /** `Verifier::verify_with_report`. */
  function VerifyWithReport(snark: Snark<MerkleProofCircuit>, codec: Codec, v: Verifier, m: MembershipProof)
    : (r: Result<VerificationReport, VerifierError>)
    ensures r.Failure? <==> Verify(snark, v, m).Failure?
    ensures r.Failure? ==> r.error == Verify(snark, v, m).error
    ensures r.Success? ==> r.value.isValid == Verify(snark, v, m).value
    ensures r.Success? ==> r.value.merkleRoot == m.publicInput && r.value.proofSize == Size(codec, m)
  {
    var isValid :- Verify(snark, v, m);
    Success(VerificationReport(isValid, m.publicInput, Size(codec, m)))
  }

  // ---------------------------------------------------------------- end to end

  /** The synthesis of Merkle circuits under a given sponge. */
  function MerkleSynth(sponge: SpongeFn): MerkleProofCircuit -> Result<ConstraintSystem, SynthesisError> {
    c => Synthesize(c, sponge)
  }

  /** Completeness end to end: with keys from `Setup` at the tree's depth, a proof that
      `Prove` makes for a real leaf is accepted, also against the tree's root and from its
      bytes, given the completeness law of Groth16 and round-tripping serialisers. */
  lemma ProveThenVerify(snark: Snark<MerkleProofCircuit>, codec: Codec, sponge: SpongeFn,
                        t: MerkleTree, leaf: Fr, p: Prover, vk: VerifyingKey)
    requires Complete(snark, MerkleSynth(sponge)) && CodecLaws(codec)
    requires Valid(t) && t.hasher == Poseidon.New(sponge) && leaf in Leaves(t)
    requires Setup(snark, sponge, t.depth) == Success((p, vk))
    requires Prove(snark, p, t, leaf).Success?
    ensures var m := Prove(snark, p, t, leaf).value;
            && Verify(snark, NewVerifier(snark, vk), m) == Success(true)
            && VerifyWithRoot(snark, NewVerifier(snark, vk), m, Root(t)) == Success(true)
            && VerifyBytes(snark, codec, NewVerifier(snark, vk), ToBytes(codec, m)) == Success(true)
  {
    ProveLocatesLeaf(snark, p, t, leaf);
    var m := Prove(snark, p, t, leaf).value;
    var i := FindLeaf(t, leaf).value;
    var path := GetPath(t, i).value;
    var circuit := NewWithWitness(path, Root(t));
    var setupCircuit := NewEmpty(t.depth, sponge);
    FromTreeSatisfied(t, i, sponge);
    NewEmptySatisfied(t.depth, sponge);
    assert FromTree(t, i) == Some(circuit);
    var synth := MerkleSynth(sponge);
    assert synth(circuit) == Synthesize(circuit, sponge);
    assert synth(setupCircuit) == Synthesize(setupCircuit, sponge);
    assert Completes(snark, synth, setupCircuit, SETUP_SEED, circuit, PROVE_SEED);
    VerifyBytesOfEncoded(snark, codec, NewVerifier(snark, vk), m);
  }
}

=== FILE: wasm.dfy ===
/** The browser entry points: prover initialisation for the country and email circuits,
    proof generation with its ordered failure paths, and verification of hex-encoded
    proofs. The two global `Mutex<Option<..>>` slots are an explicit `WasmState`; the
    random seeds, the clock and the random nonce are parameters. */
module Wasm {
  import opened Wrappers
  import opened Bytes
  import opened Hex
  import opened Field
  import opened Poseidon
  import opened Groth16
  import opened Text
  import Location
  import CountryCircuit
  import EmailCircuit

  /** `StdRng::seed_from_u64(0x5A4B5F5641554C54)` ("ZK_VAULT"), the country setup randomness. */
  const COUNTRY_SETUP_SEED: nat := 0x5A4B5F5641554C54
  /** `StdRng::seed_from_u64(0x454D41494C5F5A4B)` ("EMAIL_ZK"), the email setup randomness. */
  const EMAIL_SETUP_SEED: nat := 0x454D41494C5F5A4B

  const NOT_IN_COUNTRY: string := "Coordinates not within any supported country"
  const COUNTRY_NOT_READY: string := "Prover not initialized. Call init_country_prover() first."
  const DKIM_FAILED: string := "DKIM verification failed - email may not be authentic"
  const EMAIL_NOT_READY: string := "Email prover not initialized. Call init_email_prover() first."

  function UnknownCode(code: string): string {
    "Unknown country code: " + code
  }

  function ProofFailed(e: string): string {
    "Proof generation failed: " + e
  }

  /** The keys one initialisation keeps. */
  datatype ProverState = ProverState(provingKey: ProvingKey, verifyingKey: VerifyingKey, preparedVk: PreparedVerifyingKey)

  /** `COUNTRY_PROVER` and `EMAIL_PROVER`. */
  datatype WasmState = WasmState(country: Option<ProverState>, email: Option<ProverState>)

  const INITIAL_STATE: WasmState := WasmState(None, None)

  /** The libraries the entry points call: Groth16 for each circuit, the compressed
      serialisers, the Poseidon sponge and SHA-256. */
  datatype Env = Env(
    countrySnark: Snark<CountryCircuit.CountryProofCircuit>,
    emailSnark: Snark<EmailCircuit.EmailDomainCircuit>,
    codec: Codec,
    sponge: SpongeFn,
    sha: Sha256Fn)

  function CountrySynth(sponge: SpongeFn): CountryCircuit.CountryProofCircuit -> Result<ConstraintSystem, SynthesisError> {
    c => CountryCircuit.Synthesize(c, sponge)
  }

  function EmailSynth(sponge: SpongeFn): EmailCircuit.EmailDomainCircuit -> Result<ConstraintSystem, SynthesisError> {
    c => EmailCircuit.Synthesize(c, sponge)
  }

  // ---------------------------------------------------------------- initialisation

  /** `circuit_specific_setup` followed by `process_vk`. */
  function SetupState<C>(snark: Snark<C>, setupCircuit: C, seed: nat): (r: Option<ProverState>)
    ensures r.Some? <==> snark.setup(setupCircuit, seed).Success?
    ensures r.Some? ==> var keys := snark.setup(setupCircuit, seed).value;
                        r.value == ProverState(keys.0, keys.1, snark.processVk(keys.1))
  {
    match snark.setup(setupCircuit, seed)
    case Failure(_) => None
    case Success(keys) => Some(ProverState(keys.0, keys.1, snark.processVk(keys.1)))
  }

  function CountrySetup(env: Env): Option<ProverState> {
    SetupState(env.countrySnark, CountryCircuit.NewEmpty(env.sponge), COUNTRY_SETUP_SEED)
  }

  function EmailSetup(env: Env): Option<ProverState> {
    SetupState(env.emailSnark, EmailCircuit.NewEmpty(env.sponge), EMAIL_SETUP_SEED)
  }

  /** `init_country_prover`: true at once when already initialised; otherwise the setup's
      keys are stored and the answer says whether it succeeded. The email slot is untouched. */
  function InitCountryProver(env: Env, s: WasmState): (r: (bool, WasmState))
    ensures s.country.Some? ==> r == (true, s)
    ensures s.country.None? ==> r.1 == s.(country := CountrySetup(env))
    ensures r.0 <==> r.1.country.Some?
    ensures !r.0 ==> r.1 == s
    ensures r.1.email == s.email
  {
    if s.country.Some? then (true, s)
    else
      var state := CountrySetup(env);
      (state.Some?, s.(country := state))
  }

  /** `init_email_prover`, the same for the email slot. */
  function InitEmailProver(env: Env, s: WasmState): (r: (bool, WasmState))
    ensures s.email.Some? ==> r == (true, s)
    ensures s.email.None? ==> r.1 == s.(email := EmailSetup(env))
    ensures r.0 <==> r.1.email.Some?
    ensures !r.0 ==> r.1 == s
    ensures r.1.country == s.country
  {
    if s.email.Some? then (true, s)
    else
      var state := EmailSetup(env);
      (state.Some?, s.(email := state))
  }

  /** Initialising twice is initialising once, for either slot. */
  lemma InitIdempotent(env: Env, s: WasmState)
    ensures InitCountryProver(env, InitCountryProver(env, s).1) == InitCountryProver(env, s)
    ensures InitEmailProver(env, InitEmailProver(env, s).1) == InitEmailProver(env, s)
  {
  }

  /** `is_prover_ready`. */
  function IsProverReady(s: WasmState): (ready: bool)
    ensures ready <==> s.country.Some?
  {
    s.country.Some?
  }

  /** `is_email_prover_ready`. */
  function IsEmailProverReady(s: WasmState): (ready: bool)
    ensures ready <==> s.email.Some?
  {
    s.email.Some?
  }

  /** A state the entry points can reach: each slot is empty or holds the keys of its own
      setup circuit and seed. */
  predicate Reachable(env: Env, s: WasmState) {
    && (s.country.Some? ==> s.country == CountrySetup(env))
    && (s.email.Some? ==> s.email == EmailSetup(env))
  }

  /** The start state is reachable and initialisation keeps states reachable; once a slot is
      ready it stays ready. */
  lemma ReachableInvariant(env: Env, s: WasmState)
    ensures Reachable(env, INITIAL_STATE)
    ensures Reachable(env, s) ==> Reachable(env, InitCountryProver(env, s).1) && Reachable(env, InitEmailProver(env, s).1)
    ensures IsProverReady(s) ==> IsProverReady(InitCountryProver(env, s).1) && IsProverReady(InitEmailProver(env, s).1)
    ensures IsEmailProverReady(s) ==> IsEmailProverReady(InitCountryProver(env, s).1) && IsEmailProverReady(InitEmailProver(env, s).1)
  {
  }

  // ---------------------------------------------------------------- decoding

  /** `hex::decode` then `Proof::deserialize_compressed`. */
  function DecodeProof(codec: Codec, hex: string): (r: Option<Proof>)
    ensures r.Some? <==> HexDecode(hex).Success? && codec.proofFromBytes(HexDecode(hex).value).Success?
    ensures r.Some? ==> codec.proofFromBytes(HexDecode(hex).value) == Success(r.value)
  {
    match HexDecode(hex)
    case Failure(_) => None
    case Success(bytes) =>
      match codec.proofFromBytes(bytes)
      case Failure(_) => None
      case Success(proof) => Some(proof)
  }

  /** `hex::decode` then `Fr::deserialize_compressed`. */
  function DecodeInput(codec: Codec, hex: string): (r: Option<Fr>)
    ensures r.Some? <==> HexDecode(hex).Success? && codec.frFromBytes(HexDecode(hex).value).Success?
    ensures r.Some? ==> codec.frFromBytes(HexDecode(hex).value) == Success(r.value)
  {
    match HexDecode(hex)
    case Failure(_) => None
    case Success(bytes) =>
      match codec.frFromBytes(bytes)
      case Failure(_) => None
      case Success(x) => Some(x)
  }

  /** `hex::encode` of the compressed bytes, which is what every result reports. */
  function EncodeInput(codec: Codec, x: Fr): string {
    HexEncode(codec.frToBytes(x))
  }

  /** What the entry points encode, they decode back. */
  lemma DecodeOfEncoded(codec: Codec, proof: Proof, x: Fr)
    requires CodecLaws(codec)
    ensures DecodeProof(codec, HexEncode(codec.proofToBytes(proof))) == Some(proof)
    ensures DecodeInput(codec, EncodeInput(codec, x)) == Some(x)
  {
    HexRoundTrip(codec.proofToBytes(proof));
    HexRoundTrip(codec.frToBytes(x));
    assert codec.proofToBytes(proof) + [] == codec.proofToBytes(proof);
    assert codec.frToBytes(x) + [] == codec.frToBytes(x);
  }

  // ---------------------------------------------------------------- country proofs

  datatype CountryProofResult = CountryProofResult(
    success: bool,
    countryCode: string,
    countryName: string,
    proofBytes: seq<uint8>,
    publicInput: string,
    error: Option<string>)

  /** The `proof_hex` getter. */
  function ProofHex(proofBytes: seq<uint8>): (h: string)
    ensures |h| == 2 * |proofBytes| && HexDecode(h) == Success(proofBytes)
  {
    HexRoundTrip(proofBytes);
    HexEncode(proofBytes)
  }

  /** Every result is a success without an error, or a failure with an error and nothing else. */
  predicate CountryResultWellFormed(r: CountryProofResult) {
    && (r.success <==> r.error.None?)
    && (!r.success ==> r.countryCode == [] && r.countryName == [] && r.proofBytes == [] && r.publicInput == [])
  }

  function CountryFailure(msg: string): (r: CountryProofResult)
    ensures CountryResultWellFormed(r) && !r.success && r.error == Some(msg)
  {
    CountryProofResult(false, "", "", [], "", Some(msg))
  }

  /** The witness circuit for a point in a country of the table. */
  function CountryWitness(env: Env, c: Location.CountryBounds, lat: real, lng: real): (circuit: CountryCircuit.CountryProofCircuit)
    ensures circuit.commitment.Some?
  {
    var bounds := CountryCircuit.NewBounds(c.minLat, c.maxLat, c.minLng, c.maxLng);
    CountryCircuit.NewWithWitness(lat, lng, bounds, c.code, env.sha, env.sponge)
  }

  /** The common tail of both country entry points once a country is chosen: the prover check,
      then proving. The reported public input is the country identifier as the source writes
      it (`reportCommitment == false`) or the circuit's commitment. */
  function ProveInCountry(env: Env, s: WasmState, c: Location.CountryBounds, lat: real, lng: real,
                          seed: nat, reportCommitment: bool): (r: CountryProofResult)
    ensures CountryResultWellFormed(r)
    ensures s.country.None? ==> r == CountryFailure(COUNTRY_NOT_READY)
    ensures s.country.Some? ==>
              var circuit := CountryWitness(env, c, lat, lng);
              var attempt := env.countrySnark.prove(s.country.value.provingKey, circuit, seed);
              var reported := if reportCommitment then circuit.commitment.value
                              else CountryCircuit.CountryCodeToField(env.sha, c.code);
              && (attempt.Failure? ==> r == CountryFailure(ProofFailed(attempt.error)))
              && (attempt.Success? ==>
                    r == CountryProofResult(true, c.code, c.name, env.codec.proofToBytes(attempt.value),
                                            EncodeInput(env.codec, reported), None))
  {
    match s.country
    case None => CountryFailure(COUNTRY_NOT_READY)
    case Some(prover) =>
      var circuit := CountryWitness(env, c, lat, lng);
      match env.countrySnark.prove(prover.provingKey, circuit, seed)
      case Failure(e) => CountryFailure(ProofFailed(e))
      case Success(proof) =>
        var reported := if reportCommitment then circuit.commitment.value
                        else CountryCircuit.CountryCodeToField(env.sha, c.code);
        CountryProofResult(true, c.code, c.name, env.codec.proofToBytes(proof), EncodeInput(env.codec, reported), None)
  }

  /** `prove_country_from_coords` as written: the reported public input is the country identifier. */
  function ProveCountryFromCoordsAsWritten(env: Env, s: WasmState, lat: real, lng: real, seed: nat)
    : (r: CountryProofResult)
    ensures CountryResultWellFormed(r)
    ensures Location.FindByCoords(lat, lng).None? ==> r == CountryFailure(NOT_IN_COUNTRY)
    ensures Location.FindByCoords(lat, lng).Some? ==>
              r == ProveInCountry(env, s, Location.COUNTRIES[Location.FindByCoords(lat, lng).value], lat, lng, seed, false)
  {
    match Location.FindByCoords(lat, lng)
    case None => CountryFailure(NOT_IN_COUNTRY)
    case Some(i) => ProveInCountry(env, s, Location.COUNTRIES[i], lat, lng, seed, false)
  }

  /** `prove_country_from_coords`, reporting the commitment: the first country whose box holds
      the point is proved, and being outside every box is reported before the prover check. */
  function ProveCountryFromCoords(env: Env, s: WasmState, lat: real, lng: real, seed: nat)
    : (r: CountryProofResult)
    ensures CountryResultWellFormed(r)
    ensures Location.FindByCoords(lat, lng).None? ==> r == CountryFailure(NOT_IN_COUNTRY)
    ensures Location.FindByCoords(lat, lng).Some? ==>
              r == ProveInCountry(env, s, Location.COUNTRIES[Location.FindByCoords(lat, lng).value], lat, lng, seed, true)
    ensures r.success ==> exists i :: 0 <= i < |Location.COUNTRIES| && r.countryCode == Location.COUNTRIES[i].code
                                      && Location.InBox(Location.COUNTRIES[i], lat, lng)
                                      && forall j :: 0 <= j < i ==> !Location.InBox(Location.COUNTRIES[j], lat, lng)
  {
    match Location.FindByCoords(lat, lng)
    case None => CountryFailure(NOT_IN_COUNTRY)
    case Some(i) => ProveInCountry(env, s, Location.COUNTRIES[i], lat, lng, seed, true)
  }

  /** The centre of a country's box, the point `prove_country` proves. */
  function Centre(c: Location.CountryBounds): (p: (real, real))
    ensures p.0 == (c.minLat + c.maxLat) / 2.0 && p.1 == (c.minLng + c.maxLng) / 2.0
  {
    ((c.minLat + c.maxLat) / 2.0, (c.minLng + c.maxLng) / 2.0)
  }

  /** `prove_country` as written: the reported public input is the country identifier. */
  function ProveCountryAsWritten(env: Env, s: WasmState, code: string, seed: nat): (r: CountryProofResult)
    ensures CountryResultWellFormed(r)
    ensures Location.FindByCode(ToUpper(code)).None? ==> r == CountryFailure(UnknownCode(code))
    ensures Location.FindByCode(ToUpper(code)).Some? ==>
              var c := Location.COUNTRIES[Location.FindByCode(ToUpper(code)).value];
              r == ProveInCountry(env, s, c, Centre(c).0, Centre(c).1, seed, false)
  {
    match Location.FindByCode(ToUpper(code))
    case None => CountryFailure(UnknownCode(code))
    case Some(i) =>
      var c := Location.COUNTRIES[i];
      ProveInCountry(env, s, c, Centre(c).0, Centre(c).1, seed, false)
  }

  /** `prove_country`, reporting the commitment: the upper-cased code is looked up exactly, an
      unknown code (quoted as given) is reported before the prover check, and a success names
      the entry found. */
  function ProveCountry(env: Env, s: WasmState, code: string, seed: nat): (r: CountryProofResult)
    ensures CountryResultWellFormed(r)
    ensures Location.FindByCode(ToUpper(code)).None? ==> r == CountryFailure(UnknownCode(code))
    ensures Location.FindByCode(ToUpper(code)).Some? ==>
              var c := Location.COUNTRIES[Location.FindByCode(ToUpper(code)).value];
              r == ProveInCountry(env, s, c, Centre(c).0, Centre(c).1, seed, true)
    ensures r.success ==> r.countryCode == ToUpper(code)
  {
    match Location.FindByCode(ToUpper(code))
    case None => CountryFailure(UnknownCode(code))
    case Some(i) =>
      var c := Location.COUNTRIES[i];
      ProveInCountry(env, s, c, Centre(c).0, Centre(c).1, seed, true)
  }

  /** `verify_country_proof`: false when a decoding step fails or the prover is not
      initialised; otherwise the verdict on the one public input, a library error counting
      as false. */
  function VerifyCountryProof(env: Env, s: WasmState, proofHex: string, publicInputHex: string): (ok: bool)
    ensures ok <==> (&& DecodeProof(env.codec, proofHex).Some?
                     && DecodeInput(env.codec, publicInputHex).Some?
                     && s.country.Some?
                     && env.countrySnark.verify(s.country.value.preparedVk, [DecodeInput(env.codec, publicInputHex).value],
                                                DecodeProof(env.codec, proofHex).value) == Success(true))
  {
    match (DecodeProof(env.codec, proofHex), DecodeInput(env.codec, publicInputHex), s.country)
    case (Some(proof), Some(x), Some(prover)) =>
      env.countrySnark.verify(prover.preparedVk, [x], proof).GetOr(false)
    case _ => false
  }

  // ---------------------------------------------------------------- email proofs

  datatype EmailProofResult = EmailProofResult(
    success: bool,
    domain: string,
    proofBytes: seq<uint8>,
    domainHash: string,
    commitment: string,
    dkimVerified: bool,
    error: Option<string>)

  /** Every result is a success without an error, or a failure with an error and no proof. */
  predicate EmailResultWellFormed(r: EmailProofResult) {
    && (r.success <==> r.error.None?)
    && (!r.success ==> r.proofBytes == [] && r.domainHash == [] && r.commitment == [])
  }

  function EmailFailure(domain: string, msg: string, dkimVerified: bool): (r: EmailProofResult)
    ensures EmailResultWellFormed(r) && !r.success && r.error == Some(msg)
    ensures r.domain == domain && r.dkimVerified == dkimVerified
  {
    EmailProofResult(false, domain, [], "", "", dkimVerified, Some(msg))
  }

  /** The data committed to: the signature when there is one, the authentication results otherwise. */
  function DkimData(dkimSignature: string, authResults: string): (d: string)
    ensures dkimSignature != [] ==> d == dkimSignature
    ensures dkimSignature == [] ==> d == authResults
  {
    if dkimSignature != [] then dkimSignature else authResults
  }

  /** The witness circuit for a domain, from `from_domain_with_dkim` with the verdict set. */
  function EmailWitness(env: Env, domain: string, dkimData: string, nonceBytes: seq<uint8>)
    : (circuit: EmailCircuit.EmailDomainCircuit)
    requires |nonceBytes| == 32
    ensures circuit.domainHash.Some? && circuit.commitment.Some?
    ensures circuit.domainHash.value == EmailCircuit.StringToField(env.sha, ToLower(domain))
  {
    EmailCircuit.NewWithWitness(EmailCircuit.FromDomainWithDkim(domain, true, dkimData), env.sha, env.sponge, nonceBytes)
  }

  /** `prove_email_domain`: the DKIM verdict gates first, then the prover check, then proving;
      the domain is echoed as given in every result. */
  function ProveEmailDomain(env: Env, s: WasmState, domain: string, dkimSignature: string, authResults: string,
                            seed: nat, nonceBytes: seq<uint8>): (r: EmailProofResult)
    requires |nonceBytes| == 32
    ensures EmailResultWellFormed(r) && r.domain == domain
    ensures r.dkimVerified <==> EmailCircuit.DkimPassed(authResults)
    ensures !EmailCircuit.DkimPassed(authResults) ==> r == EmailFailure(domain, DKIM_FAILED, false)
    ensures EmailCircuit.DkimPassed(authResults) && s.email.None? ==> r == EmailFailure(domain, EMAIL_NOT_READY, true)
    ensures EmailCircuit.DkimPassed(authResults) && s.email.Some? ==>
              var circuit := EmailWitness(env, domain, DkimData(dkimSignature, authResults), nonceBytes);
              var attempt := env.emailSnark.prove(s.email.value.provingKey, circuit, seed);
              && (attempt.Failure? ==> r == EmailFailure(domain, ProofFailed(attempt.error), true))
              && (attempt.Success? ==>
                    r == EmailProofResult(true, domain, env.codec.proofToBytes(attempt.value),
                                          EncodeInput(env.codec, circuit.domainHash.value),
                                          EncodeInput(env.codec, circuit.commitment.value), true, None))
    ensures r.success ==> r.domainHash == EncodeInput(env.codec, EmailCircuit.StringToField(env.sha, ToLower(domain)))
  {
    if !EmailCircuit.DkimPassed(authResults) then EmailFailure(domain, DKIM_FAILED, false)
    else
      var dkimData := DkimData(dkimSignature, authResults);
      match s.email
      case None => EmailFailure(domain, EMAIL_NOT_READY, true)
      case Some(prover) =>
        var circuit := EmailWitness(env, domain, dkimData, nonceBytes);
        match env.emailSnark.prove(prover.provingKey, circuit, seed)
        case Failure(e) => EmailFailure(domain, ProofFailed(e), true)
        case Success(proof) =>
          EmailProofResult(true, domain, env.codec.proofToBytes(proof), EncodeInput(env.codec, circuit.domainHash.value),
                           EncodeInput(env.codec, circuit.commitment.value), true, None)
  }

  /** `verify_email_proof`: false when a decoding step fails or the prover is not initialised;
      otherwise the verdict on `[domain_hash, commitment]`, a library error counting as false. */
  function VerifyEmailProof(env: Env, s: WasmState, proofHex: string, domainHashHex: string, commitmentHex: string)
    : (ok: bool)
    ensures ok <==> (&& DecodeProof(env.codec, proofHex).Some?
                     && DecodeInput(env.codec, domainHashHex).Some?
                     && DecodeInput(env.codec, commitmentHex).Some?
                     && s.email.Some?
                     && env.emailSnark.verify(s.email.value.preparedVk,
                                              [DecodeInput(env.codec, domainHashHex).value, DecodeInput(env.codec, commitmentHex).value],
                                              DecodeProof(env.codec, proofHex).value) == Success(true))
  {
    match (DecodeProof(env.codec, proofHex), DecodeInput(env.codec, domainHashHex), DecodeInput(env.codec, commitmentHex), s.email)
    case (Some(proof), Some(domainHash), Some(commitment), Some(prover)) =>
      env.emailSnark.verify(prover.preparedVk, [domainHash, commitment], proof).GetOr(false)
    case _ => false
  }

  // ---------------------------------------------------------------- round trips

  /** A proof made for a country, reporting the commitment, verifies with what it reports. */
  lemma ProveInCountryRoundTrip(env: Env, s: WasmState, c: Location.CountryBounds, lat: real, lng: real, seed: nat)
    requires Complete(env.countrySnark, CountrySynth(env.sponge)) && CodecLaws(env.codec) && Reachable(env, s)
    ensures var r := ProveInCountry(env, s, c, lat, lng, seed, true);
            r.success ==> VerifyCountryProof(env, s, ProofHex(r.proofBytes), r.publicInput)
  {
    var r := ProveInCountry(env, s, c, lat, lng, seed, true);
    if r.success {
      var prover := s.country.value;
      var circuit := CountryWitness(env, c, lat, lng);
      var proof := env.countrySnark.prove(prover.provingKey, circuit, seed).value;
      var setupCircuit := CountryCircuit.NewEmpty(env.sponge);
      var synth := CountrySynth(env.sponge);
      CountryCircuit.NewEmptySatisfied(env.sponge);
      var bounds := CountryCircuit.NewBounds(c.minLat, c.maxLat, c.minLng, c.maxLng);
      CountryCircuit.NewWithWitnessSatisfied(lat, lng, bounds, c.code, env.sha, env.sponge);
      assert synth(circuit) == CountryCircuit.Synthesize(circuit, env.sponge);
      assert synth(setupCircuit) == CountryCircuit.Synthesize(setupCircuit, env.sponge);
      assert Completes(env.countrySnark, synth, setupCircuit, COUNTRY_SETUP_SEED, circuit, seed);
      DecodeOfEncoded(env.codec, proof, circuit.commitment.value);
    }
  }

  /** Completeness end to end for coordinates: a successful result verifies with its own
      proof and public input, given Groth16 completeness and round-tripping serialisers. */
  lemma CountryFromCoordsRoundTrip(env: Env, s: WasmState, lat: real, lng: real, seed: nat)
    requires Complete(env.countrySnark, CountrySynth(env.sponge)) && CodecLaws(env.codec) && Reachable(env, s)
    ensures var r := ProveCountryFromCoords(env, s, lat, lng, seed);
            r.success ==> VerifyCountryProof(env, s, ProofHex(r.proofBytes), r.publicInput)
  {
    var found := Location.FindByCoords(lat, lng);
    if found.Some? {
      ProveInCountryRoundTrip(env, s, Location.COUNTRIES[found.value], lat, lng, seed);
    }
  }

  /** Completeness end to end for a country code. */
  lemma CountryCodeRoundTrip(env: Env, s: WasmState, code: string, seed: nat)
    requires Complete(env.countrySnark, CountrySynth(env.sponge)) && CodecLaws(env.codec) && Reachable(env, s)
    ensures var r := ProveCountry(env, s, code, seed);
            r.success ==> VerifyCountryProof(env, s, ProofHex(r.proofBytes), r.publicInput)
  {
    var found := Location.FindByCode(ToUpper(code));
    if found.Some? {
      var c := Location.COUNTRIES[found.value];
      ProveInCountryRoundTrip(env, s, c, Centre(c).0, Centre(c).1, seed);
    }
  }

  /** Completeness end to end for email domains: a successful result verifies with its own
      proof, domain hash and commitment. */
  lemma EmailRoundTrip(env: Env, s: WasmState, domain: string, dkimSignature: string, authResults: string,
                       seed: nat, nonceBytes: seq<uint8>)
    requires |nonceBytes| == 32
    requires Complete(env.emailSnark, EmailSynth(env.sponge)) && CodecLaws(env.codec) && Reachable(env, s)
    ensures var r := ProveEmailDomain(env, s, domain, dkimSignature, authResults, seed, nonceBytes);
            r.success ==> VerifyEmailProof(env, s, ProofHex(r.proofBytes), r.domainHash, r.commitment)
  {
    var r := ProveEmailDomain(env, s, domain, dkimSignature, authResults, seed, nonceBytes);
    if r.success {
      var prover := s.email.value;
      var dkimData := DkimData(dkimSignature, authResults);
      var input := EmailCircuit.FromDomainWithDkim(domain, true, dkimData);
      var circuit := EmailWitness(env, domain, dkimData, nonceBytes);
      var proof := env.emailSnark.prove(prover.provingKey, circuit, seed).value;
      var setupCircuit := EmailCircuit.NewEmpty(env.sponge);
      var synth := EmailSynth(env.sponge);
      EmailCircuit.NewEmptySatisfied(env.sponge);
      EmailCircuit.NewWithWitnessSatisfied(input, env.sha, env.sponge, nonceBytes);
      assert synth(circuit) == EmailCircuit.Synthesize(circuit, env.sponge);
      assert synth(setupCircuit) == EmailCircuit.Synthesize(setupCircuit, env.sponge);
      assert Completes(env.emailSnark, synth, setupCircuit, EMAIL_SETUP_SEED, circuit, seed);
      DecodeOfEncoded(env.codec, proof, circuit.domainHash.value);
      DecodeOfEncoded(env.codec, proof, circuit.commitment.value);
    }
  }

  // ---------------------------------------------------------------- the reported country input

  /** Under soundness, the country input as written verifies only when the country identifier
      happens to be a Poseidon commitment of some triple, since the circuit's one public input
      is its commitment. */
  lemma AsWrittenInputNeedsCommitment(env: Env, s: WasmState, c: Location.CountryBounds, lat: real, lng: real, seed: nat)
    requires Sound(env.countrySnark, CountrySynth(env.sponge)) && CodecLaws(env.codec) && Reachable(env, s)
    ensures var r := ProveInCountry(env, s, c, lat, lng, seed, false);
            r.success && VerifyCountryProof(env, s, ProofHex(r.proofBytes), r.publicInput) ==>
              CountryCircuit.IsCommitment(env.sponge, CountryCircuit.CountryCodeToField(env.sha, c.code))
  {
    var r := ProveInCountry(env, s, c, lat, lng, seed, false);
    if r.success && VerifyCountryProof(env, s, ProofHex(r.proofBytes), r.publicInput) {
      var x := CountryCircuit.CountryCodeToField(env.sha, c.code);
      var proof := DecodeProof(env.codec, ProofHex(r.proofBytes)).value;
      DecodeOfEncoded(env.codec, proof, x);
      assert DecodeInput(env.codec, r.publicInput) == Some(x);
      var setupCircuit := CountryCircuit.NewEmpty(env.sponge);
      var synth := CountrySynth(env.sponge);
      assert Accepts(env.countrySnark, setupCircuit, COUNTRY_SETUP_SEED, [x], proof);
      var circuit :| Witnesses(synth, setupCircuit, circuit, [x]);
      CountryCircuit.NewEmptySatisfied(env.sponge);
      assert synth(circuit) == CountryCircuit.Synthesize(circuit, env.sponge);
      assert synth(setupCircuit) == CountryCircuit.Synthesize(setupCircuit, env.sponge);
      CountryCircuit.SatisfiedInputIsCommitment(circuit, env.sponge);
    }
  }

  /** A sponge whose every output is one, and a hash whose every digest is zero bytes: a
      choice of primitives under which no country identifier is a commitment. */
  function ConstantSponge(): SpongeFn {
    (config, elements) => ONE
  }

  const ZERO_DIGEST: Digest := seq(32, _ => 0 as uint8)

  function ZeroSha(): Sha256Fn {
    bytes => ZERO_DIGEST
  }

  lemma {:induction false} BeValueOfZeros(b: seq<uint8>)
    requires forall i :: 0 <= i < |b| ==> b[i] == 0
    ensures BeValue(b) == 0
  {
    if |b| > 0 {
      BeValueOfZeros(b[..|b| - 1]);
    }
  }

  /** The discrepancy: with these primitives, any sound Groth16 and round-tripping
      serialisers, every successful `prove_country_from_coords` result as written fails
      `verify_country_proof` on its own proof and public input. */
  lemma AsWrittenCountryInputRejected(countrySnark: Snark<CountryCircuit.CountryProofCircuit>,
                                      emailSnark: Snark<EmailCircuit.EmailDomainCircuit>, codec: Codec,
                                      s: WasmState, lat: real, lng: real, seed: nat)
    requires Sound(countrySnark, CountrySynth(ConstantSponge())) && CodecLaws(codec)
    requires Reachable(Env(countrySnark, emailSnark, codec, ConstantSponge(), ZeroSha()), s)
    ensures var env := Env(countrySnark, emailSnark, codec, ConstantSponge(), ZeroSha());
            var r := ProveCountryFromCoordsAsWritten(env, s, lat, lng, seed);
            r.success ==> !VerifyCountryProof(env, s, ProofHex(r.proofBytes), r.publicInput)
  {
    var env := Env(countrySnark, emailSnark, codec, ConstantSponge(), ZeroSha());
    var found := Location.FindByCoords(lat, lng);
    if found.Some? {
      var c := Location.COUNTRIES[found.value];
      AsWrittenInputNeedsCommitment(env, s, c, lat, lng, seed);
      var x := CountryCircuit.CountryCodeToField(env.sha, c.code);
      BeValueOfZeros(ZERO_DIGEST);
      assert x == ZERO;
      assert !CountryCircuit.IsCommitment(env.sponge, x);
    }
  }
}

=== FILE: wrappers.dfy ===
/** Failure-compatible wrappers used throughout the model: `Option` for Rust's
    `Option<T>` and `Result` for Rust's `Result<T, E>`. */
module Wrappers {

  datatype Option<+T> = None | Some(value: T) {

    predicate IsFailure() {
      None?
    }

    function PropagateFailure<U>(): Option<U>
      requires None?
    {
      None
    }

    function Extract(): T
      requires Some?
    {
      value
    }

    /** Rust's `unwrap_or` / `unwrap_or_default`. */
    function GetOr(default: T): T {
      match this
      case Some(v) => v
      case None => default
    }

    /** Rust's `ok_or`. */
    function ToResult<E>(error: E): Result<T, E> {
      match this
      case Some(v) => Success(v)
      case None => Failure(error)
    }
  }

  datatype Result<+R, +E> = Success(value: R) | Failure(error: E) {

    predicate IsFailure() {
      Failure?
    }

    function PropagateFailure<U>(): Result<U, E>
      requires Failure?
    {
      Failure(error)
    }

    function Extract(): R
      requires Success?
    {
      value
    }

    /** Rust's `unwrap_or`. */
    function GetOr(default: R): R {
      match this
      case Success(v) => v
      case Failure(_) => default
    }

    /** Rust's `map_err`. */
    function MapFailure<E2>(f: E -> E2): Result<R, E2> {
      match this
      case Success(v) => Success(v)
      case Failure(e) => Failure(f(e))
    }
  }
}
